=== FILE: README.md ===
# Congressional Record chat: a Dafny model of the transcript core

The application turns the daily Congressional Record into a group-chat
style thread. It has five parts:

- **Parsing.** The record's text is scanned line by line into speaker
  segments (who spoke, what they said, on which page, and whether the
  speaker is a presiding or clerical officer). Agenda items and page
  markers are collected along the way.
- **Translation.** Each segment is translated into chat messages by a
  language model. Procedural segments are handled by fixed rules first.
  The reply is parsed from a fenced JSON block, or else from the
  `**TRANSLATED:**` bullet lists.
- **Links.** Links to Congress.gov and GovInfo are built from bill
  numbers, member ids and page ids.
- **Members.** Member records from the Congress.gov API are turned into
  the application's member shape.
- **Sidebar.** The session sidebar lists each speaker once and counts
  them.

The model is pure Dafny: datatypes for segments, scan states, agenda
items, citations, messages and members, and functions for every
operation. Each regular expression of the source is written out as a
deterministic matcher. It has three parts:

- a "shape" predicate saying what the regex accepts at a position;
- soundness and completeness lemmas tying the matcher to the shape;
- a leftmost search, since the source uses the first match.

Language-model replies, `JSON.parse`, the HTTP fetches and the HTML reader
are parameters of the model rather than parts of it.

Modules, one per file:

| module | what it models |
|---|---|
| `Wrappers`, `Strings`, `Seqs` | option type; white space, case mapping, trimming, splitting, joining; de-duplication and counting helpers |
| `Markers` | the `[[Page S1234]]` page marker regex, `line.match`, the global removal, and `cleanText` |
| `SpeakerLines` | the speaker-line regex and the procedural-speaker test |
| `Citations` | the bill citation regex (`matchAll`), `extractBillNumbers`, and `parseBillNumber` |
| `Agenda` | `detectAgendaItem` and `deduplicateAgendaItems` |
| `Scanner` | the line loop of `parseCongressionalRecordHtml` |
| `Grouping` | `groupConsecutiveSegments` |
| `SpeakerNames` | `normalizeSpeakerName` |
| `Translator` | the procedural rules, the reply parser, the bullet extraction, and the loop of `translateSegments` |
| `AgendaCard` | the icon choice and `getBillUrl` of the agenda card |
| `CongressApi` | `transformMember`, `getMember`, `getAllMembers`, `getBillUrl`, `getMemberUrl` |
| `GovInfo` | the GovInfo and Congress.gov URL builders |
| `Sidebar` | the speaker de-duplication and count of the session sidebar |

## Model

| member | source | states |
|---|---|---|
| Markers.MarkerAtIff | src/lib/parser.ts:21 | The marker matcher accepts exactly the slices shaped `[[Page ` + `S` or `H` + digits + `]]`, and reports the marker's length. |
| Markers.MarkerAtSound | src/lib/parser.ts:21 | Whatever the marker matcher reports is a well-formed page marker. |
| Markers.MarkerAtComplete | src/lib/parser.ts:21 | Every well-formed page marker in the text is found by the matcher, with its exact length. |
| Markers.MarkerId | src/lib/parser.ts:21 | The captured page id is `S` or `H` followed by at least one digit, and `[[Page `, the id and `]]` spell out exactly the marker the matcher found. |
| Markers.FirstMarkerFrom | src/lib/parser.ts:72 | The search returns the leftmost marker at or after the start, and none only when no marker follows. |
| Markers.FindPage | src/lib/parser.ts:72-74 | A line yields a page id exactly when it holds a marker, and the id comes from the leftmost marker. |
| Markers.RemoveMarkersNoPage | src/lib/parser.ts:196 | Removing markers from a text with no marker leaves it unchanged. |
| Markers.RemoveOneMarker | src/lib/parser.ts:196 | Removing markers from a text whose first marker is `m`, after a marker-free part `a`, keeps `a`, drops `m`, and goes on removing markers in the rest. |
| Markers.CleanText | src/lib/parser.ts:193-198 | The cleaned text is trimmed: it is empty or neither starts nor ends with white space. |
| Markers.CleanTextDropsMarker | src/lib/parser.ts:193-198 | When the collapsed text is a marker-free part, a marker and a rest, the cleaned text is the trimmed marker-free part followed by the rest with its markers removed. |
| Markers.CleanTextWithoutMarkers | src/lib/parser.ts:193-198 | Without markers, cleaning keeps every non-space character in order, trims the ends, and leaves single spaces only. |
| SpeakerLines.MatchSpeakerIff | src/lib/parser.ts:20 | A line matches the speaker pattern exactly when it has two or more leading blanks, an honorific, blanks, a capitalised run of name characters, and a period. |
| SpeakerLines.MatchSpeaker | src/lib/parser.ts:82-96 | A reported honorific is one of the four alternatives, and the match ends within the line. |
| SpeakerLines.MatchSpeakerSound | src/lib/parser.ts:95-96 | A reported match has the speaker-pattern shape; its name is the trimmed name run, and the match ends just after the period. |
| SpeakerLines.MatchSpeakerComplete | src/lib/parser.ts:95-96 | Every line of that shape is matched, with the name and end the source reads from it. |
| SpeakerLines.HonorificsExclusive | src/lib/parser.ts:20 | At most one honorific alternative can start at a position, so the alternation's order does not matter. |
| SpeakerLines.IsProceduralReduced | src/lib/parser.ts:99-101 | A name is procedural exactly when its upper-case form contains one of the officer words; the entries with lower-case "pro tempore" add nothing. |
| SpeakerLines.LowerNeverInUpper | src/lib/parser.ts:7-10 | An entry holding a lower-case letter never occurs in an upper-cased name. |
| Citations.CitationAt | src/lib/parser.ts:24 | A citation read at a position is well formed (prefix, blanks, `Res.` or `R.`, blanks, digits) and is exactly the text at that position. |
| Citations.HitsSpec | src/lib/parser.ts:217 | The global scan's hits are real citations and do not overlap. They are in text order. Every position where a citation starts is covered by some hit. |
| Citations.ExtractBillNumbers | src/lib/parser.ts:216-228 | The extracted numbers are distinct and blank-free. A text is among them exactly when it is the joined groups of some citation match. They come in order of their first citation, and there are none exactly when nothing matches. |
| Citations.ExtractedNeverParse | src/lib/parser.ts:216-259 | No number that `extractBillNumbers` produces is accepted by `parseBillNumber`, because the dotted prefix always fails its pattern. |
| Citations.MatchBillNumberIff | src/lib/parser.ts:244-245 | A string matches with given parts exactly when those parts (a listed base in any case, an optional `res` or `r` suffix, an optional dot, digits) spell the string. |
| Citations.MatchComplete | src/lib/parser.ts:244-245 | Every spelling of that form, dotted ones such as "hr.5" included, is matched and read back as the parts it was spelled from. |
| Citations.ParseBillNumber | src/lib/parser.ts:233-259 | The result is present exactly when the blank-free, lower-cased number matches the pattern; the congress is always 119. The type and number of a match are stated by Citations.ParseOfForm. |
| Citations.ParseFormatRoundTrip | src/lib/parser.ts:233-259 | Writing a bill reference of congress 119 in canonical form and parsing it gives the same reference back. |
| Citations.ParseBillNumberCanonical | src/lib/parser.ts:233-259 | Parsing is idempotent through the canonical form: re-parsing a parsed reference's canonical text gives the same result. |
| Citations.ParseOfForm | src/lib/parser.ts:233-259 | Any spelling whose blank-free, lower-cased form spells the pattern's parts (base, optional suffix, optional dot, digits) parses to congress 119, the lower-cased type key of those parts, and the value of the digits, so spellings that differ only in blanks, case or the dot before the digits give the same reference. |
| Citations.ParseBillNumberType | src/lib/parser.ts:249-256 | A parsed type key is always one of the eighteen base-plus-suffix keys. |
| Citations.MatchRejectsDotted | src/lib/parser.ts:244 | A number whose second character is a dot followed by a non-digit never matches. |
| Citations.CommentExampleUnparsed | src/lib/parser.ts:241-246 | "S.J.Res.90" does not parse. |
| Agenda.DetectAgendaItem | src/lib/parser.ts:153-188 | A detection carries the trimmed text, at least five characters long, as its title. It has a bill number exactly when it is a bill or a resolution. Any citation in a long enough text makes it one of those two. |
| Agenda.DetectCited | src/lib/parser.ts:153-166 | A text is detected as a bill or a resolution exactly when its trimmed form is at least five characters long and holds a citation. |
| Agenda.DetectNomination | src/lib/parser.ts:170-174 | A nomination exactly when the trimmed text is long enough, cites nothing, and contains "NOMINATION" once upper-cased. |
| Agenda.DetectMotion | src/lib/parser.ts:170-177 | A motion exactly when the text is long enough, cites nothing, is not a nomination, and contains "MOTION TO" once upper-cased. |
| Agenda.DetectTribute | src/lib/parser.ts:170-180 | A tribute exactly when none of the earlier tests fires and the upper-cased text contains "TRIBUTE", "HONORING" or "RECOGNIZING". |
| Agenda.DetectOther | src/lib/parser.ts:182-185 | An "other" item exactly when none of the keyword tests fires and the text is a heading: longer than twenty characters and made only of capitals, white space, hyphens and commas. |
| Agenda.DetectNone | src/lib/parser.ts:153-188 | Nothing is detected exactly when the trimmed text is shorter than five characters, or when it cites nothing, holds none of the keywords and is not a heading. |
| Agenda.DetectIgnoresPadding | src/lib/parser.ts:154 | Detection depends only on the trimmed text. |
| Agenda.DetectResolution | src/lib/parser.ts:160-164 | A detection is a resolution exactly when the third citation match's suffix is `Res.`. The source indexes the array of whole matches that a global `match` returns. |
| Agenda.DetectedBillNumberNeverParses | src/lib/parser.ts:233-259 | A bill number found by detection is never accepted by `parseBillNumber`. |
| Agenda.DeduplicateAgendaItems | src/lib/parser.ts:203-211 | The kept items have pairwise different case-folded titles and cover the same titles as the input. Each is the first input item with its title, in input order. |
| Agenda.DeduplicateKeepsIndexOrder | src/lib/parser.ts:203-211 | When the input's segment indices never decrease, neither do the output's. |
| Scanner.Step | src/lib/parser.ts:70-127 | One line adds at most one segment and at most one agenda item and never removes any. A segment is saved only at a speaker line while someone is speaking. Someone speaks afterwards exactly when someone spoke before or the line is a speaker line. Only a page line moves the page. The line adds the agenda item it announces, pointing at the number of segments after the line (after the save, for a speaker line). A speaker line announces what detection finds in the text after the name. A line before anyone speaks announces what detection finds in it, when its trimmed text is longer than ten characters. Page lines and continuation lines announce nothing. |
| Scanner.Scan | src/lib/parser.ts:70-127 | After the loop someone is speaking exactly when some line was a speaker line. The saved segments plus the speech in progress never outnumber the speaker lines. |
| Scanner.ParseLines | src/lib/parser.ts:60-148 | The segments are those of the record read block by block. Each speaker line opens a block that runs to the next speaker line. A block whose speech the rule accepts gives one segment, in order. The segment has the line's honorific and name, the procedural flag of that name, and the cleaned speech: the text after the name, then each later non-page line of the block, trimmed, after one space. Its page is the id of the last page line before the next speaker line, or before the end. The agenda items are those the lines announce, in line order, each pointing at the number of segments saved before its line, then de-duplicated by title. The pages are the page ids, each once, in order of first appearance. |
| Scanner.ParseRecord | src/lib/parser.ts:46-60 | The record is read from the `<pre>` blocks, each followed by a line break, unless every block is white space; then it is read from the body text. |
| Scanner.PageLineStep | src/lib/parser.ts:72-79 | A page line only sets the current page and adds its id to the page list exactly when the id is new; nothing else changes. |
| Scanner.ContinuationStep | src/lib/parser.ts:114-116 | A continuation line changes only the text, whose non-space characters become the old ones followed by the line's. |
| Scanner.ScanPages | src/lib/parser.ts:72-79 | The page list is the de-duplicated sequence of page-line ids in order, and the current page is the last page line's id. |
| Scanner.LastPageListed | src/lib/parser.ts:72-79 | The current page is empty or one of the listed pages. |
| Scanner.ScanSpeaker | src/lib/parser.ts:82-103 | There is a current speaker exactly when some line is a speaker line (and not a page line). |
| Scanner.StepBeforeSpeaker | src/lib/parser.ts:117-125 | Before any speaker, a step keeps the segment list empty and adds only items indexed 0. |
| Scanner.ScanBeforeSpeaker | src/lib/parser.ts:117-125 | While no speaker has appeared, no segment exists and every agenda item starts at segment 0. |
| Scanner.ScanItems | src/lib/parser.ts:105-125 | The loop gathers exactly the agenda items the lines announce, line by line: for a speaker line, what detection finds after the name, at the number of segments the blocks saved before it; before anyone speaks, what detection finds in a line whose trimmed text is longer than ten characters, at index 0; nothing for other lines. |
| Scanner.ScanItemsInOrder | src/lib/parser.ts:107-125 | Agenda item indices never decrease and never exceed the number of saved segments. |
| Scanner.ScanSegmentCount | src/lib/parser.ts:82-104 | The saved segments plus the speech in progress never outnumber the speaker lines. |
| Scanner.StepGood | src/lib/parser.ts:70-127 | Each step keeps every invariant: the page is listed, saved texts are trimmed, and each label is an honorific plus a name whose flag is that name's procedural test. |
| Scanner.ScanGood | src/lib/parser.ts:60-137 | The invariants hold after the whole loop. |
| Scanner.ParseLinesSegments | src/lib/parser.ts:60-148 | Every segment's text is trimmed, its page is one of the listed pages or empty, and its label is an honorific and a name whose procedural test gives its flag. |
| Scanner.ParseLinesItems | src/lib/parser.ts:107-141 | The de-duplicated agenda items are ordered by segment index and point at or before the end of the segment list. |
| Scanner.ParseLinesSilent | src/lib/parser.ts:114-137 | Without a speaker line there are no segments, and every agenda item points at segment 0. |
| Scanner.EmptySegmentAsWritten | src/lib/parser.ts:130-136 | With the source's save test (raw text not blank), a page marker split over two lines yields a segment whose cleaned text is empty. The corrected rule yields none. |
| Scanner.ParseLinesNonEmptyTexts | src/lib/parser.ts:85-92 | With the corrected save test (cleaned text not empty), no segment has an empty text. |
| Grouping.Push | src/lib/parser.ts:278-287 | Adding a segment keeps every earlier group but the last, and the last group has the new segment's speaker, flag and page. |
| Grouping.Merge | src/lib/parser.ts:281-284 | The merged segment keeps the earlier segment's speaker and flag and takes the later page. Its text is the earlier text, a blank line, then the later text. |
| Grouping.Group | src/lib/parser.ts:275-291 | Grouping never lengthens the list, empties it only when it was empty, and ends on the last segment's page. |
| Grouping.GroupSeparated | src/lib/parser.ts:275-291 | No two neighbouring groups share both speaker and procedural flag. |
| Grouping.GroupSeparatedNoop | src/lib/parser.ts:275-291 | An already separated list is returned unchanged. |
| Grouping.GroupIdempotent | src/lib/parser.ts:275-291 | Grouping twice is grouping once. |
| Grouping.GroupTurns | src/lib/parser.ts:281 | The sequence of (speaker, flag) turns after grouping is the input's with consecutive repeats squeezed out. |
| Grouping.GroupKeepsText | src/lib/parser.ts:283 | Joining the grouped texts with blank lines gives the same text as joining the input's. |
| SpeakerNames.NormalizeSpeakerName | src/lib/parser.ts:264-270 | The result is no longer than the input, has no lower-case letter, and no white space at either end. |
| SpeakerNames.OfCutIff | src/lib/parser.ts:267 | The trailing " of <word>" is cut at a position exactly when a blank run, "of" in any case, a blank run and a word reach the end from there. |
| SpeakerNames.TitleCutComplete | src/lib/parser.ts:266 | When an honorific in any case starts the text and is followed by a blank, the honorific and the whole blank run are removed. |
| SpeakerNames.TitlesExclusive | src/lib/parser.ts:266 | At most one honorific alternative starts a text. |
| SpeakerNames.StripTitleOfLabel | src/lib/parser.ts:266 | Stripping the title of a scanned label gives back the name. |
| SpeakerNames.NormalizeLabel | src/lib/parser.ts:264-270 | Normalising a scanned label gives its name, or the name cut before a trailing " of <word>". |
| SpeakerNames.NormalizeMatchedLabel | src/lib/parser.ts:264-270 | For any matched speaker line without an " of <word>" ending, normalising its label gives the captured name back. |
| SpeakerNames.KapturExample | src/lib/parser.ts:264-270 | "Mr. KAPTUR of Ohio" normalises to "KAPTUR". |
| SpeakerNames.SmithExample | src/lib/parser.ts:267 | "Mr. SMITH of New York" normalises to "SMITH OF NEW YORK": a two-word state does not fit " of <word>" at the end, so nothing is cut. |
| Translator.Excerpt | src/lib/translator.ts:52 | An excerpt is the prefix of the text that is 200 characters long, or the whole text when it is shorter. |
| Translator.CountAtSound | src/lib/translator.ts:61 | A reported count is the word in any case, a blank run, then a maximal digit run. |
| Translator.CountAtComplete | src/lib/translator.ts:61 | Every occurrence of that shape is found with its exact digit bounds. |
| Translator.VoteCutIff | src/lib/translator.ts:61 | The vote regex matches at a position exactly when "yeas", blanks, digits, a run of commas and blanks, "nays", blanks, digits start there. |
| Translator.FirstVoteFrom | src/lib/translator.ts:61 | The search reports the leftmost position where the vote regex matches. |
| Translator.VoteCounts | src/lib/translator.ts:61-62 | Counts are found exactly when the vote regex matches somewhere. They are the two digit groups of the leftmost match. |
| Translator.StateAtWhole | src/lib/translator.ts:73 | A captured state is the maximal word run after "senator from ". |
| Translator.StateName | src/lib/translator.ts:73-74 | A state is found exactly when the state regex matches somewhere, and it is the capture of the leftmost match. |
| Translator.StateImpliesPhrase | src/lib/translator.ts:71-73 | Whenever the state regex matches, the lower-cased text contains "senator from", so that guard never changes the outcome. |
| Translator.RuleFor | src/lib/translator.ts:49-77 | The fixed rules apply in the source's order: clerk report, question, vote (phrase and counts both required), then recognition. Each applies exactly when its test holds and no earlier rule's did. |
| Translator.RuleMessage | src/lib/translator.ts:51-77 | A rule produces one message exactly when a rule applies. It carries the 200-character excerpt, and the kind and content that rule prescribes. |
| Translator.ReplyMessages | src/lib/translator.ts:98-104 | The model's trimmed reply is dropped exactly when it is "SKIP" or shorter than three characters; otherwise it is one procedural message. |
| Translator.ProceduralEvent | src/lib/translator.ts:44-105 | A procedural segment yields at most one message: the rule's message when a rule applies, otherwise the reply's. |
| Translator.RuleIgnoresReply | src/lib/translator.ts:49-79 | When a rule applies, the model's reply has no influence. |
| Translator.CleanOne | src/lib/translator.ts:214-218 | A kept message gets its own kind when that is present and not empty, and "speech" otherwise. Its content is trimmed. Its excerpt is the 200-character excerpt of the given one, or empty when none is given. |
| Translator.Cleanup | src/lib/translator.ts:212-218 | Cleaning never adds messages, and every cleaned message is well formed. |
| Translator.CleanupCount | src/lib/translator.ts:213 | Exactly the messages with non-empty content survive. |
| Translator.CleanupAppend | src/lib/translator.ts:212-218 | Cleaning works message by message: cleaning a concatenation concatenates the cleanings. |
| Translator.CleanupNoop | src/lib/translator.ts:212-218 | Cleaning already clean messages with non-empty content gives them back unchanged. |
| Translator.BlankContentKept | src/lib/translator.ts:213-216 | Content made only of blanks passes the filter and becomes an empty message. |
| Translator.SectionEnd | src/lib/translator.ts:230 | A section ends at the first "###", "**ORIGINAL:**" or end of text after its start. |
| Translator.FirstHeadingFrom | src/lib/translator.ts:230 | The search finds the leftmost "**TRANSLATED:**" heading in any case at or after the start. |
| Translator.ExtractFrom | src/lib/translator.ts:226-250 | Every extracted message is a speech with trimmed, non-empty content and an empty excerpt. |
| Translator.ExtractMessages | src/lib/translator.ts:226-250 | Every message read from the reply's bullet sections is a speech with trimmed, non-empty content and an empty excerpt. |
| Translator.NoHeadingNoMessages | src/lib/translator.ts:230-249 | Without a heading nothing is extracted. |
| Translator.DashedLine | src/lib/translator.ts:235-245 | A line "- item" yields one speech whose content is the item. |
| Translator.IndentedBulletKeepsDash | src/lib/translator.ts:235-238 | An indented bullet passes the trimmed filter, but the dash is removed from the untrimmed line, so the content keeps its dash. |
| Translator.BareDashSkipped | src/lib/translator.ts:238-239 | A dash followed only by blanks yields nothing. |
| Translator.BulletListRoundTrip | src/lib/translator.ts:234-246 | A section written as a "- " list of trimmed, one-line items is read back as exactly those items, in order. |
| Translator.ExtractedSurviveCleanup | src/lib/translator.ts:212-218 | Messages extracted from bullet sections pass the clean-up unchanged. |
| Translator.JsonBlock | src/lib/translator.ts:191 | The block starts at the leftmost "```json" and ends at the first closing fence after it. One is found exactly when some fence is followed by a closing fence. |
| Translator.ParseResponse | src/lib/translator.ts:189-221 | The reasoning is the whole reply without a block, else the trimmed text before the block. When the block's body parses, the messages are the clean-up of the parsed list. Every returned message is clean. |
| Translator.FallbackIsExtraction | src/lib/translator.ts:196-209 | Without a block, or when the block does not parse, the messages are those extracted from the bullet sections. |
| Translator.ReasoningHasNoFence | src/lib/translator.ts:197 | The reasoning never contains the JSON fence. |
| Translator.Window | src/lib/translator.ts:273-280 | The previous-speakers list holds at most five distinct speakers, all of them earlier speech speakers. |
| Translator.WindowHasLatest | src/lib/translator.ts:273-280 | The most recent speech speaker is always in the list. |
| Translator.WindowBeforeOverflow | src/lib/translator.ts:273-280 | Until more than five distinct speakers have spoken, the list is the speakers in order of first appearance. |
| Translator.WindowSnoc | src/lib/translator.ts:273-280 | One more segment updates the window by one step of the remembering rule. |
| Translator.TranslateSegments | src/lib/translator.ts:255-290 | There is one result per segment. Result `i` is the procedural translation of segment `i`, or the parsed reply to its speech. The speech reply is given the window of the segments before `i`. |
| AgendaCard.Icon | src/components/chat/AgendaCard.tsx:19-28 | The icon is always one of the six icons. |
| AgendaCard.IconFallback | src/components/chat/AgendaCard.tsx:28 | The "other" icon is shown exactly for the type "other" or an unknown type; a known type shows its own icon. |
| AgendaCard.BillUrl | src/components/chat/AgendaCard.tsx:31-64 | A stored non-empty URL wins. Without one, there is no link when the bill number is missing or empty, and otherwise the link is the one built from the number. |
| AgendaCard.NumberUrl | src/components/chat/AgendaCard.tsx:37-63 | A link is built exactly when the normalised number matches with a type key the card knows. The link is the bill page, that key's path, a slash and the matched digits. |
| AgendaCard.NumberUrlOfForm | src/components/chat/AgendaCard.tsx:37-63 | A number that normalises to the spelling of some parts links to the path of their type key and their digits, or gets no link when the card does not know the key. |
| AgendaCard.NumberUrlIffParsed | src/components/chat/AgendaCard.tsx:37-61 | A link is built exactly when `parseBillNumber` accepts the number with a type the card knows. |
| AgendaCard.SameNormalizedSameUrl | src/components/chat/AgendaCard.tsx:37 | Numbers that normalise alike get the same link. |
| AgendaCard.CanonicalUrl | src/components/chat/AgendaCard.tsx:38-63 | A canonical type key followed by digits links to that type's page exactly when the card knows the key. |
| AgendaCard.HrExample | src/components/chat/AgendaCard.tsx:37-63 | "HR 1234" links to house-bill/1234. |
| AgendaCard.DottedUnlinked | src/components/chat/AgendaCard.tsx:38-40 | Dotted spellings such as "H.R. 1234" or "S.J. Res. 90" get no link. |
| AgendaCard.JointResolutionExample | src/components/chat/AgendaCard.tsx:36-40 | "S.J. Res. 90", the comment's own example, gets no link. |
| AgendaCard.IconsDistinct | src/components/chat/AgendaCard.tsx:19-26 | Different item types in the table have different icons. |
| AgendaCard.DetectedBillNumberUnlinked | src/components/chat/AgendaCard.tsx:32-40 | A bill number found by the parser never produces a link on the card. |
| CongressApi.LastName | src/lib/congress-api.ts:72-73 | The last name is the part before the first ", ", or the whole name without one. |
| CongressApi.FirstName | src/lib/congress-api.ts:72-74 | The first name has no space, and is empty when the name has no ", ". |
| CongressApi.NameRoundTrip | src/lib/congress-api.ts:72-74 | For a last name without ", " and any rest, the last name comes back. The first name is the first word of the rest up to its own first ", ". |
| CongressApi.PartyOf | src/lib/congress-api.ts:77-82 | The party is D exactly when the name mentions "democrat", R exactly when it mentions "republican" and not "democrat", and I otherwise. |
| CongressApi.PhotoUrl | src/lib/congress-api.ts:91 | A photo is present exactly when the image URL is present and not empty, and it is that URL. |
| CongressApi.TransformMember | src/lib/congress-api.ts:70-94 | The id, state, district and chamber are copied. The last name, first name, party and photo are those the rules above give for the member's name, party name and image URL. |
| CongressApi.CurrentTermFrom | src/lib/congress-api.ts:112 | The current term is the first term without an end year. |
| CongressApi.ChamberOf | src/lib/congress-api.ts:112-113 | The chamber is the Senate exactly when the current term's chamber says "senate" in any case. |
| CongressApi.GetMember | src/lib/congress-api.ts:99-127 | A 404 gives no member, any other failure status an error. Success gives the member that `transformMember` makes of the record, with the name rebuilt as "Last, First", and the chamber of the current term. |
| CongressApi.GetMemberNames | src/lib/congress-api.ts:115-118 | A member's names come through the ", " join unchanged, apart from the first name being cut at its first space. |
| CongressApi.AllMembers | src/lib/congress-api.ts:30-42 | All senators come first, then all representatives, each marked with its chamber and in input order. |
| CongressApi.UrlType | src/lib/congress-api.ts:149-160 | A type that is a table key after lower-casing and removing dots maps to that key's path. Any other type is used lower-cased. |
| CongressApi.UrlTypeIgnoresCase | src/lib/congress-api.ts:160 | The path does not depend on the type's case. |
| CongressApi.BillUrlInjective | src/lib/congress-api.ts:147-162 | Different congresses, numbers or type paths give different bill links. |
| CongressApi.ApiTypesAgreeWithCard | src/lib/congress-api.ts:149-158 | Every type key of the API's table is in the card's table with the same page; the card adds `sr` and `h`. |
| CongressApi.DottedTypeExample | src/lib/congress-api.ts:160 | "H.R." maps to the house-bill page, since dots are removed before the lookup. |
| CongressApi.BillUrl | src/lib/congress-api.ts:147-162 | Every bill link starts with the Congress.gov bill page. |
| CongressApi.NameRoundTripOneWord | src/lib/congress-api.ts:72-74 | A name joined from a last name and a one-word first name splits back into both. |
| CongressApi.Slug | src/lib/congress-api.ts:168 | Without a name, or with an empty one, the slug is the id. Otherwise it is the lower-cased name with each white-space run replaced by one `-`, which is non-empty, lower-case and blank-free. |
| CongressApi.MemberUrl | src/lib/congress-api.ts:167-170 | The member link is the member page prefix, the slug, a slash and the id at the end. |
| CongressApi.TwoWordSlug | src/lib/congress-api.ts:168 | A two-word name becomes the lower-cased words joined by one hyphen. |
| CongressApi.SpacedSlug | src/lib/congress-api.ts:168 | Any name of one or more words separated by white-space runs becomes its lower-cased words joined by `-`. Leading white space adds one `-` in front and trailing white space one at the end. |
| CongressApi.PaddedSlugExample | src/lib/congress-api.ts:168 | " Ann  Lee " becomes "-ann-lee-". |
| Strings.ReplaceWsRunsSpaced | src/lib/congress-api.ts:168 | Replacing each white-space run of a text of words by `rep` joins the words with `rep`, with one more `rep` at each end that had white space. |
| GovInfo.CollectionEndpoint | src/lib/govinfo.ts:25-27 | The endpoint starts with the collection and start day. An absent or empty end date adds nothing. |
| GovInfo.RangeExtendsOpenEnded | src/lib/govinfo.ts:25-27 | A range endpoint is the open-ended one followed by the end date at its last second. |
| GovInfo.RangeEndpointInjective | src/lib/govinfo.ts:25-27 | The end date can be recovered from a range endpoint. |
| GovInfo.PackagesRequest | src/lib/govinfo.ts:20-29 | The request starts with the endpoint and `?pageSize=`, and ends with the API key. |
| GovInfo.DefaultPageSize | src/lib/govinfo.ts:23 | Without a page size the request asks for 100 packages. |
| GovInfo.PackagesRequestInjective | src/lib/govinfo.ts:29 | The page size can be read back from a request. |
| GovInfo.EmptyToDateIgnored | src/lib/govinfo.ts:25-27 | An empty end date gives the same endpoint as none. |
| GovInfo.DayRequest | src/lib/govinfo.ts:88-91 | The per-day check asks for one package between the day's first and last second. |
| GovInfo.TranscriptHtmlUrl | src/lib/govinfo.ts:43-45 | The page address starts with the content prefix, the package id and `/html/`, and its length is the prefix plus twice the package id plus the section name plus the fixed separators and `.htm`. |
| GovInfo.TranscriptHtmlUrlInjective | src/lib/govinfo.ts:43-45 | Different packages or sections get different transcript pages. |
| GovInfo.PackageDownloadUrl | src/lib/govinfo.ts:50-52 | The download address names the format, HTML by default, as both the directory and the extension. |
| GovInfo.PackageDownloadUrlInjective | src/lib/govinfo.ts:50-52 | Different packages or formats get different download addresses. |
| GovInfo.DownloadDefaultsToHtml | src/lib/govinfo.ts:50 | Without a format the HTML address is built. |
| GovInfo.PageChamber | src/lib/govinfo.ts:98 | A page is a Senate page exactly when its id starts with `S`. |
| GovInfo.PageUrl | src/lib/govinfo.ts:96-101 | The link is the search prefix, then exactly the page id, then the chamber parameter naming the page's chamber (senate for an `S` id, house otherwise). |
| GovInfo.PageUrlInjective | src/lib/govinfo.ts:96-101 | Different page ids get different search links. |
| GovInfo.MarkerPageChamber | src/lib/govinfo.ts:98 | A page id read from a marker links to the Senate for `S` and to the House for `H`. |
| Sidebar.UniqueSpeakers | src/components/chat/SessionSidebar.tsx:43-48 | Each kept speaker is the first input entry with its id, in input order. The kept ids are distinct and cover every input id. |
| Sidebar.SpeakersHeader | src/components/chat/SessionSidebar.tsx:73-77 | There is no speakers heading exactly when there are no speakers. |
| Sidebar.SpeakersHeaderCount | src/components/chat/SessionSidebar.tsx:73-77 | The count is the number of distinct ids. The heading is shown exactly when there are speakers. |

## Left out

- Scanner.Scan: its own contract does not state the agenda items gathered, because that needs the block-by-block invariant about the segments; `Scanner.ScanItems` states it for the whole loop, and `Scanner.ParseLines` carries it into the transcript.
- Reading the HTML (`cheerio.load`, `$('pre')`, `$('body').text()`) is outside the model. `Scanner.ParseRecord` takes the texts of the `<pre>` blocks and of `<body>` as inputs.
- The language-model calls, the prompt texts and the model name in src/lib/translator.ts are not modelled. The two replies are function parameters of `Translator.TranslateSegments`.
- `JSON.parse` is a parameter that yields raw messages or fails. JSON fields that are not strings, and `parsed.messages` that is not an array, are not modelled.
- The 100 ms `sleep` between translations and the asynchronous flow are left out, because the results do not depend on them.
- The HTTP fetches, status handling beyond `getMember`, `fetchChamberMembers` pagination and the API keys are left out. `getMember` takes the status and the decoded body as inputs.
- `getBill`, `fetchTranscriptHtml` and `getPackageDetails` only fetch, so they are left out.
- White space (`\s` and `trim`) is JavaScript's fixed set: the ASCII blanks, no-break space, the Unicode space separators, the line and paragraph separators and the byte-order mark. `\w` and `\d` are ASCII, as in JavaScript. Case mapping (`toLowerCase`, `toUpperCase`, the `i` flag) is ASCII only; Unicode case mapping is not modelled.
- String lengths are counted in characters, not UTF-16 code units, so the 200-character excerpt limit is exact only for text inside the Basic Multilingual Plane.
- Translator.VoteCounts: the counts are kept as digit strings. `parseInt` is not involved, so overflow does not arise.
- Citations.ParseBillNumber: the number is the unbounded value of the digit string. JavaScript's float rounding of very long digit strings is not modelled.
- The second parameter of `detectAgendaItem` is unused in the source and is omitted.
- Lookups in the source's plain-object tables could hit inherited keys such as "constructor". The model's maps contain only the listed keys.
- CongressApi.BillUrl: the congress and number are naturals, and the "th" ordinal is always used, as in the source. Negative or fractional inputs are not modelled.
- CongressApi.BillUrl: its own contract states only the fixed prefix. That the congress, the type's path and the number can be read back from a link is stated by `CongressApi.BillUrlInjective`.
- SpeakerLines.MatchSpeaker: its own contract states only that the honorific is listed and that the match stays within the line. `SpeakerLines.MatchSpeakerIff`, `MatchSpeakerSound` and `MatchSpeakerComplete` characterise the match.
- CongressApi.GetMember: when the body lacks a name part, the source builds the string "undefined". The model's body always has both parts.
- The React rendering of the agenda card and the sidebar is left out. Only the values they compute are modelled: the icon, the link, the unique speakers and the heading.
- Translator.ExtractMessages: the contract states the form of each extracted message. It does not give a closed formula for a whole reply. `Translator.BulletListRoundTrip` covers one section.
- Translator.ExtractFrom: the contract states the form of each extracted message. It does not give a closed formula for a whole reply with several sections. `Translator.BulletListRoundTrip` covers one section.

Where the code and its own comments or documentation disagree, the model follows the code:

- A comment in AgendaCard.tsx gives "S.J. Res. 90" as a linkable example, but the code's pattern never matches that spelling (`AgendaCard.DottedUnlinked`).
- A comment in parser.ts gives "S.J.Res.90" as parsing to type `sjres` and number 90. Normalised, it is "s.j.res.90", whose dot after the first letter the pattern rejects (`Citations.CommentExampleUnparsed`, `Citations.MatchRejectsDotted`).
- The bill numbers the parser stores always keep their dots, so the card never links them (`AgendaCard.DetectedBillNumberUnlinked`).
- `detectAgendaItem` decides between bill and resolution from the array that a global `match` returns. That array holds whole matches, not capture groups (`Agenda.DetectResolution`).
- The procedural list's "pro tempore" entries hold lower-case letters. They are compared against an upper-cased name, so they never match (`SpeakerLines.LowerNeverInUpper`).

## Findings

| source | as written | input that shows it | evidently intended | confidence | as-written member | corrected member |
|---|---|---|---|---|---|---|
| src/lib/parser.ts:130-136 | The speech in progress is saved when its raw text is not blank, but the saved text is the cleaned text, after markers are removed. | A speaker line with nothing after the name, followed by the lines `[[Page` and `S1]]`. Each half fails the page-marker test, so both are appended to the text. Cleaning then removes the joined marker. | Only speeches whose cleaned text is non-empty are saved, so no segment has empty text. | not executed | Scanner.EmptySegmentAsWritten | Scanner.ParseLinesNonEmptyTexts |

=== FILE: agenda.dfy ===
/** Agenda-item detection and de-duplication (src/lib/parser.ts,
    `detectAgendaItem` and `deduplicateAgendaItems`). */
module Agenda {
  import opened Wrappers
  import opened Strings
  import Seqs
  import opened Citations

  datatype AgendaType = Bill | Resolution | Motion | Tribute | Nomination | Other

  /** What `detectAgendaItem` reports: the trimmed text as title, a type, and a
      bill number for the two citation types. */
  datatype Detection = Detection(title: string, kind: AgendaType, billNumber: Option<string>)

  /** An agenda item as the scanner records it: a detection and the number of
      segments completed before it. */
  datatype AgendaItem = AgendaItem(title: string, kind: AgendaType, billNumber: Option<string>, startSegmentIndex: nat)

  /** The array `String.prototype.match` returns for the global bill pattern:
      the whole text of each match (not the capture groups). */
  function WholeMatches(s: string): (ws: seq<string>)
    ensures |ws| == |Matches(s)|
  {
    seq(|Matches(s)|, k requires 0 <= k < |Matches(s)| => Matches(s)[k].Whole())
  }

  /** Element `k` of that array in a template literal: the text, or
      `undefined` past the end. */
  function Slot(ws: seq<string>, k: nat): string {
    if k < |ws| then ws[k] else "undefined"
  }

  /** A character of the class `[A-Z\s\-,]`. */
  predicate HeadingChar(c: char) {
    IsUpper(c) || IsWs(c) || c == '-' || c == ','
  }

  /** The all-capitals heading test: equal to its upper-cased form, longer
      than 20 characters, and made only of capitals, white space, hyphens and
      commas. */
  predicate IsHeading(t: string) {
    t == ToUpper(t) && |t| > 20 && forall i :: 0 <= i < |t| ==> HeadingChar(t[i])
  }

  /** `detectAgendaItem`: on the trimmed text, nothing when it is shorter than
      5 characters; a bill or resolution when the bill pattern matches; then
      the keyword tests on the upper-cased text, in order; then an all-capitals
      heading; otherwise nothing. */
  function DetectAgendaItem(text: string): (r: Option<Detection>)
    ensures r.Some? ==> r.value.title == Trim(text) && |r.value.title| >= 5
    ensures r.Some? ==> (r.value.billNumber.Some? <==> r.value.kind in {Bill, Resolution})
    ensures |Trim(text)| >= 5 && |Matches(Trim(text))| > 0 ==> r.Some? && r.value.kind in {Bill, Resolution}
  {
    DetectTrimmed(Trim(text))
  }

  /** The detection proper, on text already trimmed. */
  function DetectTrimmed(trimmed: string): (r: Option<Detection>)
    ensures r.Some? ==> r.value.title == trimmed && |r.value.title| >= 5
    ensures r.Some? ==> (r.value.billNumber.Some? <==> r.value.kind in {Bill, Resolution})
    ensures |trimmed| >= 5 && |Matches(trimmed)| > 0 ==> r.Some? && r.value.kind in {Bill, Resolution}
  {
    if |trimmed| < 5 then None
    else
      var ms := WholeMatches(trimmed);
      if |ms| > 0 then
        var kind := if |ms| > 2 && Contains(ToLower(ms[2]), "res") then Resolution else Bill;
        Some(Detection(trimmed, kind, Some(CollapseWs(Slot(ms, 1) + Slot(ms, 2) + Slot(ms, 3)))))
      else
        var upper := ToUpper(trimmed);
        if Contains(upper, "NOMINATION") then Some(Detection(trimmed, Nomination, None))
        else if Contains(upper, "MOTION TO") then Some(Detection(trimmed, Motion, None))
        else if Contains(upper, "TRIBUTE") || Contains(upper, "HONORING") || Contains(upper, "RECOGNIZING") then
          Some(Detection(trimmed, Tribute, None))
        else if IsHeading(trimmed) then Some(Detection(trimmed, Other, None))
        else None
  }

  /** The text holds a citation the bill pattern finds. */
  predicate Cited(t: string) {
    |Matches(t)| > 0
  }

  /** The upper-cased text contains the keyword `w`. */
  predicate Says(t: string, w: string) {
    Contains(ToUpper(t), w)
  }

  /** One of the tribute keywords. */
  predicate SaysTribute(t: string) {
    Says(t, "TRIBUTE") || Says(t, "HONORING") || Says(t, "RECOGNIZING")
  }

  /** A citation makes a bill or a resolution, whatever keywords follow. */
  lemma DetectCited(text: string)
    ensures (DetectAgendaItem(text).Some? && DetectAgendaItem(text).value.kind in {Bill, Resolution})
            <==> |Trim(text)| >= 5 && Cited(Trim(text))
  {
  }

  /** A nomination: no citation, and the keyword. */
  lemma DetectNomination(text: string)
    ensures (DetectAgendaItem(text).Some? && DetectAgendaItem(text).value.kind == Nomination)
            <==> |Trim(text)| >= 5 && !Cited(Trim(text)) && Says(Trim(text), "NOMINATION")
  {
  }

  /** A motion: no citation, no nomination, and `MOTION TO`. */
  lemma DetectMotion(text: string)
    ensures (DetectAgendaItem(text).Some? && DetectAgendaItem(text).value.kind == Motion)
            <==> && |Trim(text)| >= 5 && !Cited(Trim(text)) && !Says(Trim(text), "NOMINATION")
                 && Says(Trim(text), "MOTION TO")
  {
  }

  /** A tribute: none of the tests before, and one of its keywords. */
  lemma DetectTribute(text: string)
    ensures (DetectAgendaItem(text).Some? && DetectAgendaItem(text).value.kind == Tribute)
            <==> && |Trim(text)| >= 5 && !Cited(Trim(text)) && !Says(Trim(text), "NOMINATION")
                 && !Says(Trim(text), "MOTION TO") && SaysTribute(Trim(text))
  {
  }

  /** A heading: none of the tests before, and an all-capitals line. */
  lemma DetectOther(text: string)
    ensures (DetectAgendaItem(text).Some? && DetectAgendaItem(text).value.kind == Other)
            <==> && |Trim(text)| >= 5 && !Cited(Trim(text)) && !Says(Trim(text), "NOMINATION")
                 && !Says(Trim(text), "MOTION TO") && !SaysTribute(Trim(text)) && IsHeading(Trim(text))
  {
  }

  /** Nothing is detected in a short text, or when no test fires. */
  lemma DetectNone(text: string)
    ensures DetectAgendaItem(text).None?
            <==> |Trim(text)| < 5
                 || (&& !Cited(Trim(text)) && !Says(Trim(text), "NOMINATION")
                     && !Says(Trim(text), "MOTION TO") && !SaysTribute(Trim(text)) && !IsHeading(Trim(text)))
  {
  }

  /** Detection depends only on the trimmed text. */
  lemma DetectIgnoresPadding(text: string)
    ensures DetectAgendaItem(Trim(text)) == DetectAgendaItem(text)
  {
    TrimIdempotent(text);
  }

  /** `c` does not occur in `s`. */
  predicate Lacks(s: string, c: char) {
    forall i :: 0 <= i < |s| ==> s[i] != c
  }

  /** A lower-cased citation holds the letter `e` only in a `Res.` suffix. */
  lemma CitationLacksE(c: Citation)
    requires WellFormed(c) && ToLower(c.suffix) == "r."
    ensures Lacks(ToLower(c.Whole()), 'e')
  {
    ToLowerAppend(c.prefix, c.gap1);
    ToLowerAppend(c.prefix + c.gap1, c.suffix);
    ToLowerAppend(c.prefix + c.gap1 + c.suffix, c.gap2);
    ToLowerAppend(c.prefix + c.gap1 + c.suffix + c.gap2, c.digits);
    assert forall k :: 0 <= k < |LowerPrefixes| ==> Lacks(LowerPrefixes[k], 'e');
    assert Lacks(ToLower(c.prefix), 'e');
  }

  /** A citation's text as the groups before the suffix, then the rest. */
  lemma WholeRegrouped(c: Citation)
    ensures c.Whole() == (c.prefix + c.gap1) + (c.suffix + (c.gap2 + c.digits))
  {
    Seqs.Assoc(c.prefix + c.gap1 + c.suffix, c.gap2, c.digits);
    Seqs.Assoc(c.prefix + c.gap1, c.suffix, c.gap2 + c.digits);
  }

  /** The lower-cased text of a citation contains `res` exactly when its
      suffix is `Res.`: the type test on the third match asks which suffix it
      has. */
  lemma CitationContainsRes(c: Citation)
    requires WellFormed(c)
    ensures Contains(ToLower(c.Whole()), "res") <==> ToLower(c.suffix) == "res."
  {
    var w := ToLower(c.Whole());
    ToLowerAppend(c.prefix + c.gap1, c.suffix + c.gap2 + c.digits);
    ToLowerAppend(c.suffix, c.gap2 + c.digits);
    WholeRegrouped(c);
    if ToLower(c.suffix) == "res." {
      var a, b := ToLower(c.prefix + c.gap1), ToLower(c.gap2 + c.digits);
      assert w == a + ("res." + b);
      OccursInMiddle(a, "res.", b, "res");
      ContainsAt(w, "res", |a|);
    } else {
      CitationLacksE(c);
      if Contains(w, "res") {
        ContainsChar(w, "res", 1);
      }
    }
  }

  /** A detection is a resolution exactly when the text holds at least three
      citations and the third has the suffix `Res.`; a lone `S.Res. 5` is
      reported as a bill. */
  lemma DetectResolution(text: string)
    requires DetectAgendaItem(text).Some?
    ensures DetectAgendaItem(text).value.kind == Resolution <==>
              |Matches(Trim(text))| >= 3 && ToLower(Matches(Trim(text))[2].suffix) == "res."
  {
    var t := Trim(text);
    assert DetectAgendaItem(text) == DetectTrimmed(t);
    ResolutionKind(t);
    MatchesWellFormed(t);
    if |Matches(t)| >= 3 {
      assert WholeMatches(t)[2] == Matches(t)[2].Whole();
      CitationContainsRes(Matches(t)[2]);
    }
  }

  /** The type test of the detection: the third whole match contains `res`. */
  lemma ResolutionKind(t: string)
    requires DetectTrimmed(t).Some?
    ensures DetectTrimmed(t).value.kind == Resolution <==>
              |WholeMatches(t)| > 2 && Contains(ToLower(WholeMatches(t)[2]), "res")
  {
    var ms := WholeMatches(t);
    if |ms| > 0 {
      assert DetectTrimmed(t).value.kind == if |ms| > 2 && Contains(ToLower(ms[2]), "res") then Resolution else Bill;
    }
  }

  /** The white-space-free content of a citation's text is its joined groups. */
  lemma NonWsOfCitation(c: Citation)
    requires WellFormed(c)
    ensures NonWs(c.Whole()) == c.Compact()
  {
    PartsNoWs(c);
    assert NoWs(c.digits) by {
      forall j | 0 <= j < |c.digits| ensures !IsWs(c.digits[j]) { assert IsDigit(c.digits[j]); }
    }
    NonWsOfNoWs(c.prefix);
    NonWsGap(c.prefix, c.gap1, c.suffix);
    NonWsGap(c.prefix + c.gap1 + c.suffix, c.gap2, c.digits);
  }

  /** What `parseBillNumber` matches against, for a text made of two parts
      with white-space runs collapsed: the lower-cased non-white-space
      characters of each part. */
  lemma NormalizedJoin(first: string, rest: string)
    ensures ToLower(RemoveWs(CollapseWs(first + rest))) == ToLower(NonWs(first)) + ToLower(NonWs(rest))
  {
    RemoveWsIsNonWs(CollapseWs(first + rest));
    CollapseWsKeepsContent(first + rest);
    NonWsAppend(first, rest);
    ToLowerAppend(NonWs(first), NonWs(rest));
  }

  /** A text starting with the lower-cased joined groups of a citation, or
      with `u`, is no bill number. */
  lemma LeadDecidesParse(head: string, tail: string)
    requires (|head| >= 3 && head[1] == '.' && !IsDigit(head[2])) || (|head| > 0 && head[0] == 'u')
    ensures MatchBillNumber(head + tail).None?
  {
    var n := head + tail;
    if |head| >= 3 && head[1] == '.' && !IsDigit(head[2]) {
      assert n[1] == head[1] && n[2] == head[2];
      MatchRejectsDotted(n);
    } else {
      assert n[0] == 'u';
      MatchNeedsBase(n);
    }
  }

  /** The lower-cased content of the second slot is a citation's joined groups
      or `undefined`. */
  lemma SecondSlotShape(t: string)
    ensures var h := ToLower(NonWs(Slot(WholeMatches(t), 1)));
            (|h| >= 3 && h[1] == '.' && !IsDigit(h[2])) || (|h| > 0 && h[0] == 'u')
  {
    var ms := WholeMatches(t);
    if |ms| >= 2 {
      MatchesWellFormed(t);
      var c := Matches(t)[1];
      assert Slot(ms, 1) == c.Whole();
      NonWsOfCitation(c);
      CompactDotted(c);
    } else {
      UndefinedLeads();
    }
  }

  /** `undefined` keeps its leading `u` once white space is dropped. */
  lemma UndefinedLeads()
    ensures var h := ToLower(NonWs("undefined")); |h| > 0 && h[0] == 'u'
  {
    assert !IsWs("undefined"[0]);
    assert NonWs("undefined") == ['u'] + NonWs("undefined"[1..]);
  }

  /** The bill number built from the second to fourth whole matches is never
      accepted by `parseBillNumber`. */
  lemma SlotsNeverParse(t: string)
    ensures ParseBillNumber(CollapseWs(Slot(WholeMatches(t), 1) + Slot(WholeMatches(t), 2) + Slot(WholeMatches(t), 3))).None?
  {
    var ms := WholeMatches(t);
    var first, rest := Slot(ms, 1), Slot(ms, 2) + Slot(ms, 3);
    assert Slot(ms, 1) + Slot(ms, 2) + Slot(ms, 3) == first + rest;
    NormalizedJoin(first, rest);
    SecondSlotShape(t);
    LeadDecidesParse(ToLower(NonWs(first)), ToLower(NonWs(rest)));
  }

  /** Where a detection's bill number comes from: the second to fourth whole
      matches, joined, with white-space runs collapsed. */
  lemma DetectedBillNumberSource(t: string)
    requires DetectTrimmed(t).Some? && DetectTrimmed(t).value.billNumber.Some?
    ensures DetectTrimmed(t).value.billNumber.value ==
              CollapseWs(Slot(WholeMatches(t), 1) + Slot(WholeMatches(t), 2) + Slot(WholeMatches(t), 3))
  {
  }

  /** The bill number a detection carries is never accepted by
      `parseBillNumber`: it starts with the second citation's text (a dot
      after its first letter, a letter after the dot) or with `undefined`. */
  lemma DetectedBillNumberNeverParses(text: string)
    requires DetectAgendaItem(text).Some? && DetectAgendaItem(text).value.billNumber.Some?
    ensures ParseBillNumber(DetectAgendaItem(text).value.billNumber.value).None?
  {
    var t := Trim(text);
    assert DetectAgendaItem(text) == DetectTrimmed(t);
    DetectedBillNumberSource(t);
    SlotsNeverParse(t);
  }

  // ---------------------------------------------------------------------------
  // deduplicateAgendaItems
  // ---------------------------------------------------------------------------

  /** Items are the same agenda entry when their titles agree ignoring case. */
  function TitleKey(item: AgendaItem): string {
    ToLower(item.title)
  }

  /** `deduplicateAgendaItems`: keep the first item for each lower-cased
      title. No two kept items share a title up to case; every title of the
      input is kept; each kept item is the first input item with its title,
      and the kept items appear in input order. */
  function DeduplicateAgendaItems(items: seq<AgendaItem>): (r: seq<AgendaItem>)
    ensures forall i, j :: 0 <= i < j < |r| ==> ToLower(r[i].title) != ToLower(r[j].title)
    ensures forall k :: k in Seqs.Keys(r, TitleKey) <==> k in Seqs.Keys(items, TitleKey)
    ensures forall i :: 0 <= i < |r| ==>
              TitleKey(r[i]) in Seqs.Keys(items, TitleKey) &&
              r[i] == items[Seqs.FirstKeyIndex(items, TitleKey, TitleKey(r[i]))]
    ensures forall i, j :: 0 <= i < j < |r| ==>
              Seqs.FirstKeyIndex(items, TitleKey, TitleKey(r[i])) < Seqs.FirstKeyIndex(items, TitleKey, TitleKey(r[j]))
  {
    Seqs.DedupByDistinctKeys(items, TitleKey);
    Seqs.DedupBySameKeys(items, TitleKey);
    Seqs.DedupByFirstOccurrences(items, TitleKey);
    Seqs.DedupBy(items, TitleKey)
  }

  /** Segment indices that never decrease along the input never decrease along
      the de-duplicated items either. */
  lemma DeduplicateKeepsIndexOrder(items: seq<AgendaItem>)
    requires forall i, j :: 0 <= i < j < |items| ==> items[i].startSegmentIndex <= items[j].startSegmentIndex
    ensures forall i, j :: 0 <= i < j < |DeduplicateAgendaItems(items)| ==>
              DeduplicateAgendaItems(items)[i].startSegmentIndex <= DeduplicateAgendaItems(items)[j].startSegmentIndex
  {
    Seqs.DedupByKeepsOrder(items, TitleKey, (it: AgendaItem) => it.startSegmentIndex);
  }
}

=== FILE: agendacard.dfy ===
/** The agenda card of src/components/chat/AgendaCard.tsx: the icon chosen
    for an item's type and the congress.gov link built from its bill number. */
module AgendaCard {
  import opened Wrappers
  import opened Strings
  import opened Citations
  import Agenda

  /** What the card reads from an agenda item. */
  datatype CardItem = CardItem(itemType: string, billNumber: Option<string>, billUrl: Option<string>)

  /** The icon table, one emoji per item type. */
  const Icons: map<string, string> := map[
    "bill" := "\U{1F4DD}",
    "resolution" := "\U{1F4C4}",
    "motion" := "\U{26A1}",
    "tribute" := "\U{1F396}",
    "nomination" := "\U{1F3AD}",
    "other" := "\U{1F4CB}"]

  /** The icon of a type, with the icon of `other` for a type the table
      lacks. */
  function Icon(itemType: string): (icon: string)
    ensures icon in Icons.Values
  {
    if itemType in Icons then Icons[itemType] else Icons["other"]
  }

  /** The table gives each type its own icon. */
  lemma IconsDistinct(t: string, u: string)
    requires t in Icons && u in Icons && Icons[t] == Icons[u]
    ensures t == u
  {
  }

  /** A type gets the icon of `other` exactly when it is `other` or missing
      from the table; every listed type keeps its own icon. */
  lemma IconFallback(itemType: string)
    ensures Icon(itemType) == Icons["other"] <==> itemType == "other" || itemType !in Icons
    ensures itemType in Icons ==> Icon(itemType) == Icons[itemType]
  {
    if itemType in Icons && Icons[itemType] == Icons["other"] {
      IconsDistinct(itemType, "other");
    }
  }

  /** The card's table from type key to congress.gov path segment. */
  const CardTypes: map<string, string> := map[
    "s" := "senate-bill",
    "sr" := "senate-bill",
    "h" := "house-bill",
    "hr" := "house-bill",
    "sres" := "senate-resolution",
    "hres" := "house-resolution",
    "sjres" := "senate-joint-resolution",
    "hjres" := "house-joint-resolution",
    "sconres" := "senate-concurrent-resolution",
    "hconres" := "house-concurrent-resolution"]

  /** Every link goes below this path: the card always assumes the 119th
      Congress. */
  const BillPage: string := "https://www.congress.gov/bill/119th-congress/"

  /** The card's bill number, lower-cased first and then without white space. */
  function CardNormalize(billNumber: string): string {
    RemoveWs(ToLower(billNumber))
  }

  /** The link for a bill number: the pattern of `parseBillNumber` on the
      normalized number, the type key looked up in the card's table, and the
      digits copied as they are. */
  function NumberUrl(billNumber: string): (r: Option<string>)
    ensures r.Some? <==>
              MatchBillNumber(CardNormalize(billNumber)).Some?
              && TypeKey(MatchBillNumber(CardNormalize(billNumber)).value) in CardTypes
    ensures r.Some? ==>
              var p := MatchBillNumber(CardNormalize(billNumber)).value;
              r.value == BillPage + CardTypes[TypeKey(p)] + "/" + p.digits
    ensures r.Some? ==>
              exists t, d ::
                && t in CardTypes.Values && |d| > 0 && AllDigits(d)
                && r.value == BillPage + t + "/" + d
                && |d| <= |CardNormalize(billNumber)|
                && d == CardNormalize(billNumber)[|CardNormalize(billNumber)| - |d|..]
  {
    var n := CardNormalize(billNumber);
    match MatchBillNumber(n)
    case None => None
    case Some(p) =>
      var key := TypeKey(p);
      if key in CardTypes then
        assert n == (p.base + p.suffix + (if p.dot then "." else "")) + p.digits;
        Some(BillPage + CardTypes[key] + "/" + p.digits)
      else None
  }

  /** A number whose normalized form spells a type and digits the pattern
      describes links to the page the card's table gives for that type, with
      those digits; a type missing from the table gives no link. */
  lemma NumberUrlOfForm(billNumber: string, p: BillParts)
    requires BillForm(p) && CardNormalize(billNumber) == p.Text()
    ensures TypeKey(p) in CardTypes ==> NumberUrl(billNumber) == Some(BillPage + CardTypes[TypeKey(p)] + "/" + p.digits)
    ensures TypeKey(p) !in CardTypes ==> NumberUrl(billNumber).None?
  {
    MatchComplete(p);
  }

  /** `getBillUrl`: a stored non-empty link wins; otherwise no link without a
      non-empty bill number; otherwise the link built from the number. */
  function BillUrl(item: CardItem): (r: Option<string>)
    ensures item.billUrl.Some? && item.billUrl.value != "" ==> r == item.billUrl
    ensures (item.billUrl.None? || item.billUrl.value == "") && (item.billNumber.None? || item.billNumber.value == "") ==> r.None?
    ensures (item.billUrl.None? || item.billUrl.value == "") && item.billNumber.Some? && item.billNumber.value != "" ==>
              r == NumberUrl(item.billNumber.value)
  {
    if item.billUrl.Some? && item.billUrl.value != "" then item.billUrl
    else if item.billNumber.None? || item.billNumber.value == "" then None
    else NumberUrl(item.billNumber.value)
  }

  // ---------------------------------------------------------------------------
  // Agreement with parseBillNumber
  // ---------------------------------------------------------------------------

  /** The card reads the same text as `parseBillNumber`: the order of
      lower-casing and white-space removal does not matter. */
  lemma SameNormalization(billNumber: string)
    ensures CardNormalize(billNumber) == ToLower(RemoveWs(billNumber))
  {
    RemoveWsToLower(billNumber);
  }

  /** A match of lower-case text has a lower-case type key. */
  lemma LowerTypeKey(n: string, p: BillParts)
    requires NoUpper(n) && MatchBillNumber(n) == Some(p)
    ensures ToLower(TypeKey(p)) == TypeKey(p)
  {
    LowerParts(p, n);
    var kb :| 0 <= kb < |Bases| && Bases[kb] == p.base;
    var kx :| 0 <= kx < |BillSuffixes| && BillSuffixes[kx] == p.suffix;
    KeyIndex(kb, kx);
    ToLowerNoUpper(p.suffix);
    TypeKeyOfLower(p);
  }

  /** The card links a bill number exactly when `parseBillNumber` accepts it
      and the type it reports is in the card's table. */
  lemma NumberUrlIffParsed(billNumber: string)
    ensures NumberUrl(billNumber).Some? <==>
              ParseBillNumber(billNumber).Some? && ParseBillNumber(billNumber).value.billType in CardTypes
  {
    SameNormalization(billNumber);
    var n := CardNormalize(billNumber);
    if MatchBillNumber(n).Some? {
      LowerTypeKey(n, MatchBillNumber(n).value);
    }
  }

  /** The bill numbers the transcript parser stores are never linked by the
      card: `parseBillNumber` rejects them all. */
  lemma DetectedBillNumberUnlinked(text: string, itemType: string)
    requires Agenda.DetectAgendaItem(text).Some? && Agenda.DetectAgendaItem(text).value.billNumber.Some?
    ensures BillUrl(CardItem(itemType, Agenda.DetectAgendaItem(text).value.billNumber, None)).None?
  {
    var b := Agenda.DetectAgendaItem(text).value.billNumber.value;
    Agenda.DetectedBillNumberNeverParses(text);
    NumberUrlIffParsed(b);
  }

  // ---------------------------------------------------------------------------
  // Which numbers are linked
  // ---------------------------------------------------------------------------

  /** The type key of a canonical spelling is the spelling's letters. */
  lemma TypeKeyCanonical(kb: nat, kx: nat, d: string)
    requires kb < |Bases| && kx < |BillSuffixes|
    ensures TypeKey(BillParts(Bases[kb], BillSuffixes[kx], false, d)) == Bases[kb] + BillSuffixes[kx]
  {
    if kx == 0 {
      assert ToLower("res") == "res";
    }
  }

  /** A canonical spelling (lower-case type key, then digits) is already
      normalized. */
  lemma CanonicalNormalized(kb: nat, kx: nat, d: string)
    requires kb < |Bases| && kx < |BillSuffixes| && AllDigits(d)
    ensures CardNormalize(Bases[kb] + BillSuffixes[kx] + d) == Bases[kb] + BillSuffixes[kx] + d
  {
    var n := Bases[kb] + BillSuffixes[kx] + d;
    assert Bases[kb] in Bases && BillSuffixes[kx] in BillSuffixes;
    assert forall i :: 0 <= i < |n| ==> IsLower(n[i]) || IsDigit(n[i]);
    ToLowerNoUpper(n);
    ReplaceWsRunsNoWs(n, "");
  }

  /** A canonical spelling whose key is in the table is linked to the page of
      that type and those digits; one whose key is missing (`sj`, `hcon`,
      `sconr`, ...) is not linked. */
  lemma CanonicalUrl(kb: nat, kx: nat, d: string)
    requires kb < |Bases| && kx < |BillSuffixes| && |d| > 0 && AllDigits(d)
    ensures var key := Bases[kb] + BillSuffixes[kx];
            NumberUrl(key + d) == if key in CardTypes then Some(BillPage + CardTypes[key] + "/" + d) else None
  {
    CanonicalNormalized(kb, kx, d);
    MatchCanonical(kb, kx, d);
    TypeKeyCanonical(kb, kx, d);
  }

  /** A normalized number with a dot right after its first letter and no
      digit after that dot is never linked: the pattern allows one dot, only
      before the digits. */
  lemma DottedUnlinked(billNumber: string)
    requires var n := CardNormalize(billNumber); |n| >= 3 && n[1] == '.' && !IsDigit(n[2])
    ensures NumberUrl(billNumber).None?
  {
    MatchRejectsDotted(CardNormalize(billNumber));
  }

  // ---------------------------------------------------------------------------
  // Examples
  // ---------------------------------------------------------------------------

  /** A leading part without white space is only lower-cased. */
  lemma NormalizePrefix(x: string, rest: string)
    requires NoWs(x)
    ensures CardNormalize(x + rest) == ToLower(x) + CardNormalize(rest)
  {
    SameNormalization(x + rest);
    SameNormalization(rest);
    RemoveWsIsNonWs(x + rest);
    RemoveWsIsNonWs(rest);
    NonWsAppend(x, rest);
    NonWsOfNoWs(x);
    ToLowerAppend(x, NonWs(rest));
  }

  /** The link depends on the normalized number only. */
  lemma SameNormalizedSameUrl(b: string, c: string)
    requires CardNormalize(b) == CardNormalize(c)
    ensures NumberUrl(b) == NumberUrl(c)
  {
  }

  /** Leading white space is dropped. */
  lemma NormalizeWsPrefix(g: string, rest: string)
    requires AllWs(g)
    ensures CardNormalize(g + rest) == CardNormalize(rest)
  {
    SameNormalization(g + rest);
    SameNormalization(rest);
    RemoveWsIsNonWs(g + rest);
    RemoveWsIsNonWs(rest);
    NonWsAppend(g, rest);
    NonWsOfAllWs(g);
    assert "" + NonWs(rest) == NonWs(rest);
  }

  /** A type spelled in any case, white space, then digits: linked exactly
      when the canonical spelling is. */
  lemma SpacedCanonicalUrl(x: string, gap: string, kb: nat, kx: nat, d: string)
    requires kb < |Bases| && kx < |BillSuffixes| && |d| > 0 && AllDigits(d)
    requires NoWs(x) && ToLower(x) == Bases[kb] + BillSuffixes[kx] && AllWs(gap)
    ensures NumberUrl(x + gap + d) == NumberUrl(Bases[kb] + BillSuffixes[kx] + d)
  {
    assert x + gap + d == x + (gap + d);
    NormalizePrefix(x, gap + d);
    NormalizeWsPrefix(gap, d);
    CanonicalNormalized(kb, kx, d);
    assert Bases[kb] + BillSuffixes[kx] + d == Bases[kb] + (BillSuffixes[kx] + d);
    NormalizeDigits(d);
    SameNormalizedSameUrl(x + gap + d, Bases[kb] + BillSuffixes[kx] + d);
  }

  /** Digits are left as they are. */
  lemma NormalizeDigits(d: string)
    requires AllDigits(d)
    ensures CardNormalize(d) == d
  {
    SameNormalization(d);
    RemoveWsIsNonWs(d);
    assert NoWs(d);
    NonWsOfNoWs(d);
    ToLowerNoUpper(d);
  }

  lemma LowerHr()
    ensures ToLower("HR") == Bases[1] + BillSuffixes[1]
  {
    assert ToLower("HR")[0] == 'h' && ToLower("HR")[1] == 'r';
  }

  /** A canonical spelling whose key the table lists links to the path the
      table gives. */
  lemma TableUrl(kb: nat, kx: nat, d: string, key: string, path: string)
    requires kb < |Bases| && kx < |BillSuffixes| && |d| > 0 && AllDigits(d)
    requires key == Bases[kb] + BillSuffixes[kx] && key in CardTypes && CardTypes[key] == path
    ensures NumberUrl(key + d) == Some(BillPage + path + "/" + d)
  {
    CanonicalUrl(kb, kx, d);
  }

  /** The canonical "hr1234" links to the House bill 1234. */
  lemma HrCanonicalUrl()
    ensures NumberUrl(Bases[1] + BillSuffixes[1] + "1234") == Some(BillPage + "house-bill" + "/" + "1234")
  {
    HrKey();
    assert AllDigits("1234");
    TableUrl(1, 1, "1234", "hr", "house-bill");
  }

  lemma HrKey()
    ensures Bases[1] + BillSuffixes[1] == "hr"
    ensures "hr" in CardTypes && CardTypes["hr"] == "house-bill"
  {
  }

  /** "HR 1234" links to the House bill 1234. */
  lemma HrExample()
    ensures NumberUrl("HR 1234") == Some(BillPage + "house-bill" + "/" + "1234")
  {
    LowerHr();
    assert "HR 1234" == "HR" + " " + "1234";
    assert AllDigits("1234") && NoWs("HR") && AllWs(" ");
    SpacedCanonicalUrl("HR", " ", 1, 1, "1234");
    HrCanonicalUrl();
  }

  /** A number spelled with a letter, a dot and a letter that is no digit,
      such as "H.R. 1234", gets no link. */
  lemma DottedSpellingUnlinked(x: string, rest: string)
    requires NoWs(x) && |x| >= 3 && x[1] == '.' && !IsDigit(LowerChar(x[2]))
    ensures NumberUrl(x + rest).None?
  {
    NormalizePrefix(x, rest);
    var n := ToLower(x) + CardNormalize(rest);
    assert n[1] == LowerChar(x[1]) == '.';
    assert n[2] == LowerChar(x[2]);
    DottedUnlinked(x + rest);
  }

  /** The usual spelling "H.R. 1234" gets no link. */
  lemma DottedHrExample()
    ensures NumberUrl("H.R. 1234").None?
  {
    assert "H.R. 1234" == "H.R." + " 1234";
    DottedSpellingUnlinked("H.R.", " 1234");
  }

  /** Nor does "S.J. Res. 90", the spelling the source's own comment gives
      as an example of a link. */
  lemma JointResolutionExample()
    ensures NumberUrl("S.J. Res. 90").None?
  {
    assert "S.J. Res. 90" == "S.J." + " Res. 90";
    DottedSpellingUnlinked("S.J.", " Res. 90");
  }
}

=== FILE: citations.dfy ===
/** Bill and resolution citations (src/lib/parser.ts): the global bill pattern,
    `extractBillNumbers` and `parseBillNumber`. */
module Citations {
  import opened Wrappers
  import opened Strings
  import Seqs

  /** The chamber prefixes of the bill pattern, in the order its alternation
      tries them; letters compare without regard to case. */
  const Prefixes: seq<string> := ["S.", "H.", "S.J.", "H.J.", "S.Con.", "H.Con."]

  const LowerPrefixes: seq<string> := ["s.", "h.", "s.j.", "h.j.", "s.con.", "h.con."]

  /** The mandatory suffix alternatives, lower-cased: `Res.` and `R.`. */
  const LowerSuffixes: seq<string> := ["res.", "r."]

  /** One match of the bill pattern, each piece as it appears in the text: the
      chamber prefix, optional white space, the suffix, optional white space and
      the digits. */
  datatype Citation = Citation(prefix: string, gap1: string, suffix: string, gap2: string, digits: string) {

    /** The whole matched text. */
    function Whole(): string {
      prefix + gap1 + suffix + gap2 + digits
    }

    /** The three capture groups joined: the white space between them is dropped. */
    function Compact(): string {
      prefix + suffix + digits
    }
  }

  /** What the pattern accepts, stated piece by piece. */
  ghost predicate WellFormed(c: Citation) {
    && ToLower(c.prefix) in LowerPrefixes
    && AllWs(c.gap1)
    && ToLower(c.suffix) in LowerSuffixes
    && AllWs(c.gap2)
    && |c.digits| > 0 && AllDigits(c.digits)
  }

  /** The citation occupies `s` from index `i`, and its digit run cannot be
      extended (the greedy `\d+`). */
  ghost predicate PlacedAt(s: string, i: nat, c: Citation) {
    && i + |c.Whole()| <= |s|
    && s[i..i + |c.Whole()|] == c.Whole()
    && (i + |c.Whole()| == |s| || !IsDigit(s[i + |c.Whole()|]))
  }

  /** The rest of the pattern once a prefix alternative has matched `s[i..a]`:
      optional white space, `Res.` or `R.`, optional white space and the longest
      run of digits (at least one). Each repetition in the pattern is followed
      by a character outside its class, so the greedy runs never give anything
      back. `l` is `s` lower-cased, for the case-insensitive comparisons. */
  function CitationWith(s: string, l: string, i: nat, a: nat): (r: Option<Citation>)
    requires l == ToLower(s) && i <= a <= |s|
    ensures r.Some? ==> r.value.prefix == s[i..a]
  {
    match TailCuts(s, l, a)
    case None => None
    case Some(k) => Some(Citation(s[i..a], s[a..k.b], s[k.b..k.c], s[k.c..k.d], s[k.d..k.e]))
  }

  /** Where the pieces after the prefix end: the first gap at `b`, the suffix
      at `c`, the second gap at `d`, the digits at `e`. */
  datatype Cuts = Cuts(b: nat, c: nat, d: nat, e: nat)

  function TailCuts(s: string, l: string, a: nat): (r: Option<Cuts>)
    requires l == ToLower(s) && a <= |s|
    ensures r.Some? ==> a <= r.value.b <= r.value.c <= r.value.d < r.value.e <= |s|
    ensures r.Some? ==> r.value.e == |s| || !IsDigit(s[r.value.e])
  {
    var b := a + Span(s, a, IsWs);
    var sl := if OccursAt(l, "res.", b) then 4 else if OccursAt(l, "r.", b) then 2 else 0;
    if sl == 0 then None
    else
      var c := b + sl;
      var d := c + Span(s, c, IsWs);
      var e := d + Span(s, d, IsDigit);
      if e == d then None
      else Some(Cuts(b, c, d, e))
  }

  /** The gaps `CitationWith` finds are white space, the digits are digits. */
  lemma CitationWithRuns(s: string, l: string, i: nat, a: nat)
    requires l == ToLower(s) && i <= a <= |s|
    requires CitationWith(s, l, i, a).Some?
    ensures AllWs(CitationWith(s, l, i, a).value.gap1) && AllWs(CitationWith(s, l, i, a).value.gap2)
    ensures |CitationWith(s, l, i, a).value.digits| > 0 && AllDigits(CitationWith(s, l, i, a).value.digits)
  {
    var k := TailCuts(s, l, a).value;
    SpanWs(s, a);
    SpanWs(s, k.c);
    SpanDigits(s, k.d);
  }

  /** The suffix `CitationWith` finds is `Res.` or `R.` in some case. */
  lemma CitationWithSuffix(s: string, l: string, i: nat, a: nat)
    requires l == ToLower(s) && i <= a <= |s|
    requires CitationWith(s, l, i, a).Some?
    ensures ToLower(CitationWith(s, l, i, a).value.suffix) in LowerSuffixes
  {
    var k := TailCuts(s, l, a).value;
    ToLowerSlice(s, k.b, k.c);
  }

  /** The citation `CitationWith` finds is the text at `i`, with a maximal
      digit run. */
  lemma CitationWithPlaced(s: string, l: string, i: nat, a: nat)
    requires l == ToLower(s) && i <= a <= |s|
    requires CitationWith(s, l, i, a).Some?
    ensures PlacedAt(s, i, CitationWith(s, l, i, a).value)
  {
    var k := TailCuts(s, l, a).value;
    PlacedOfCuts(s, i, a, k.b, k.c, k.d, k.e);
  }

  /** The citation cut out of `s` at five places sits where it was cut. */
  lemma PlacedOfCuts(s: string, i: nat, a: nat, b: nat, c: nat, d: nat, e: nat)
    requires i <= a <= b <= c <= d <= e <= |s|
    requires e == |s| || !IsDigit(s[e])
    ensures PlacedAt(s, i, Citation(s[i..a], s[a..b], s[b..c], s[c..d], s[d..e]))
  {
    FiveSlices(s, i, a, b, c, d, e);
  }

  /** Five adjacent slices glue into one. */
  lemma FiveSlices(s: string, i: nat, a: nat, b: nat, c: nat, d: nat, e: nat)
    requires i <= a <= b <= c <= d <= e <= |s|
    ensures s[i..a] + s[a..b] + s[b..c] + s[c..d] + s[d..e] == s[i..e]
  {
    calc {
      s[i..a] + s[a..b] + s[b..c] + s[c..d] + s[d..e];
      { SliceConcat(s, i, a, b); }
      s[i..b] + s[b..c] + s[c..d] + s[d..e];
      { SliceConcat(s, i, b, c); }
      s[i..c] + s[c..d] + s[d..e];
      { SliceConcat(s, i, c, d); }
      s[i..d] + s[d..e];
      { SliceConcat(s, i, d, e); }
      s[i..e];
    }
  }

  /** Tries the prefix alternatives from the `k`-th on, in order. */
  function CitationFrom(s: string, l: string, i: nat, k: nat): (r: Option<Citation>)
    requires l == ToLower(s) && k <= |Prefixes|
    ensures r.Some? ==> WellFormed(r.value) && PlacedAt(s, i, r.value)
    decreases |Prefixes| - k
  {
    if k == |Prefixes| then None
    else
      var a := i + |LowerPrefixes[k]|;
      if OccursAt(l, LowerPrefixes[k], i) && CitationWith(s, l, i, a).Some? then
        ToLowerSlice(s, i, a);
        CitationWithRuns(s, l, i, a);
        CitationWithSuffix(s, l, i, a);
        CitationWithPlaced(s, l, i, a);
        CitationWith(s, l, i, a)
      else CitationFrom(s, l, i, k + 1)
  }

  /** The bill pattern tried at index `i` of `s`: the citation that starts
      there, if any. */
  function CitationAt(s: string, i: nat): (r: Option<Citation>)
    ensures r.Some? ==> WellFormed(r.value) && PlacedAt(s, i, r.value)
  {
    CitationFrom(s, ToLower(s), i, 0)
  }

  /** What the pattern gives when tried at each index of `s`. */
  function Attempts(s: string): (t: seq<Option<Citation>>)
    ensures |t| == |s|
  {
    seq(|s|, j requires 0 <= j < |s| => CitationAt(s, j))
  }

  /** Every citation in the table is non-empty and lies inside the text. */
  ghost predicate Fits(t: seq<Option<Citation>>) {
    forall j :: 0 <= j < |t| && t[j].Some? ==> 0 < |t[j].value.Whole()| <= |t| - j
  }

  lemma AttemptsFit(s: string)
    ensures Fits(Attempts(s))
  {
    forall j | 0 <= j < |s| && Attempts(s)[j].Some?
      ensures 0 < |Attempts(s)[j].value.Whole()| <= |s| - j
    {
      assert Attempts(s)[j] == CitationAt(s, j);
    }
  }

  /** A citation found at a position, as the global regex reports it. */
  datatype Hit = Hit(pos: nat, cit: Citation) {
    function End(): nat { pos + |cit.Whole()| }
  }

  /** Position `j` lies inside one of the hits. */
  ghost predicate Covered(hits: seq<Hit>, j: nat) {
    exists k :: 0 <= k < |hits| && hits[k].pos <= j < hits[k].End()
  }

  /** The global regex from index `i` on, given the attempt at every index:
      the leftmost citation, then the leftmost one starting at or after its
      end, and so on. */
  function ScanFrom(t: seq<Option<Citation>>, i: nat): (hits: seq<Hit>)
    requires Fits(t) && i <= |t|
    decreases |t| - i
  {
    if i == |t| then []
    else
      match t[i]
      case Some(c) => [Hit(i, c)] + ScanFrom(t, i + |c.Whole()|)
      case None => ScanFrom(t, i + 1)
  }

  /** Every hit is the attempt at its position, at or after `i`. */
  lemma {:induction false} ScanFromSound(t: seq<Option<Citation>>, i: nat)
    requires Fits(t) && i <= |t|
    ensures forall k :: 0 <= k < |ScanFrom(t, i)| ==>
              i <= ScanFrom(t, i)[k].pos < |t| && t[ScanFrom(t, i)[k].pos] == Some(ScanFrom(t, i)[k].cit)
    decreases |t| - i
  {
    if i < |t| {
      match t[i]
      case Some(c) =>
        var rest := ScanFrom(t, i + |c.Whole()|);
        ScanFromSound(t, i + |c.Whole()|);
        assert forall k :: 1 <= k < |ScanFrom(t, i)| ==> ScanFrom(t, i)[k] == rest[k - 1];
      case None =>
        ScanFromSound(t, i + 1);
    }
  }

  /** The hits come in text order and do not overlap: a hit starts no earlier
      than the previous one ends. */
  lemma {:induction false} ScanFromOrdered(t: seq<Option<Citation>>, i: nat)
    requires Fits(t) && i <= |t|
    ensures forall k :: 0 <= k < |ScanFrom(t, i)| ==> i <= ScanFrom(t, i)[k].pos
    ensures forall k :: 0 <= k < |ScanFrom(t, i)| - 1 ==> ScanFrom(t, i)[k].End() <= ScanFrom(t, i)[k + 1].pos
    decreases |t| - i
  {
    if i < |t| {
      match t[i]
      case Some(c) =>
        var rest := ScanFrom(t, i + |c.Whole()|);
        ScanFromOrdered(t, i + |c.Whole()|);
        assert forall k :: 1 <= k < |ScanFrom(t, i)| ==> ScanFrom(t, i)[k] == rest[k - 1];
      case None =>
        ScanFromOrdered(t, i + 1);
    }
  }

  /** Nothing is skipped: every index from `i` on where the pattern matches
      lies inside one of the hits. */
  lemma {:induction false} ScanFromComplete(t: seq<Option<Citation>>, i: nat)
    requires Fits(t) && i <= |t|
    ensures forall j :: i <= j < |t| && t[j].Some? ==> Covered(ScanFrom(t, i), j)
    decreases |t| - i
  {
    if i < |t| {
      match t[i]
      case Some(c) =>
        var n := |c.Whole()|;
        var rest := ScanFrom(t, i + n);
        var hits := ScanFrom(t, i);
        ScanFromComplete(t, i + n);
        assert hits == [Hit(i, c)] + rest;
        forall j | i <= j < |t| && t[j].Some? ensures Covered(hits, j) {
          if j < i + n {
            assert hits[0].pos <= j < hits[0].End();
          } else {
            var k :| 0 <= k < |rest| && rest[k].pos <= j < rest[k].End();
            assert hits[k + 1] == rest[k];
          }
        }
      case None =>
        ScanFromComplete(t, i + 1);
    }
  }

  /** The hits of the global bill pattern over the whole of `s`. */
  function Hits(s: string): seq<Hit> {
    AttemptsFit(s);
    ScanFrom(Attempts(s), 0)
  }

  /** The global bill pattern finds real, well-formed citations, in text order
      and without overlap, and leaves no match uncovered. */
  lemma HitsSpec(s: string)
    ensures forall k :: 0 <= k < |Hits(s)| ==>
              Hits(s)[k].pos < |s| && CitationAt(s, Hits(s)[k].pos) == Some(Hits(s)[k].cit)
    ensures forall k :: 0 <= k < |Hits(s)| ==> WellFormed(Hits(s)[k].cit) && PlacedAt(s, Hits(s)[k].pos, Hits(s)[k].cit)
    ensures forall k :: 0 <= k < |Hits(s)| - 1 ==> Hits(s)[k].End() <= Hits(s)[k + 1].pos
    ensures forall j :: 0 <= j < |s| && CitationAt(s, j).Some? ==> Covered(Hits(s), j)
  {
    AttemptsFit(s);
    var t := Attempts(s);
    ScanFromSound(t, 0);
    ScanFromOrdered(t, 0);
    ScanFromComplete(t, 0);
    forall j | 0 <= j < |s| ensures t[j] == CitationAt(s, j) { }
  }

  /** The citations of `s`, leftmost first, without overlap. */
  function Matches(s: string): seq<Citation> {
    var hits := Hits(s);
    seq(|hits|, k requires 0 <= k < |hits| => hits[k].cit)
  }

  /** The capture groups of each citation, joined (with white-space runs
      collapsed, which changes nothing because the groups hold none). */
  function CompactAll(cs: seq<Citation>): seq<string> {
    seq(|cs|, k requires 0 <= k < |cs| => CollapseWs(cs[k].Compact()))
  }

  /** A lower-cased prefix or suffix alternative contains no white space, so
      neither does the text it was matched against. */
  lemma NoWsOfLowered(t: string, alts: seq<string>)
    requires ToLower(t) in alts
    requires forall k :: 0 <= k < |alts| ==> NoWs(alts[k])
    ensures NoWs(t)
  {
    forall j | 0 <= j < |t| ensures !IsWs(t[j]) {
      assert ToLower(t)[j] == LowerChar(t[j]);
    }
  }

  /** The joined capture groups of a citation hold no white space. */
  lemma CompactNoWs(c: Citation)
    requires WellFormed(c)
    ensures NoWs(c.Compact())
    ensures CollapseWs(c.Compact()) == c.Compact()
  {
    PartsNoWs(c);
    ReplaceWsRunsNoWs(c.Compact(), " ");
  }

  /** The letter groups of a citation hold no white space. */
  lemma PartsNoWs(c: Citation)
    requires WellFormed(c)
    ensures NoWs(c.prefix) && NoWs(c.suffix)
  {
    AlternativesNoWs();
    NoWsOfLowered(c.prefix, LowerPrefixes);
    NoWsOfLowered(c.suffix, LowerSuffixes);
  }

  /** Every spelling of the two letter groups is made of letters and dots. */
  lemma AlternativesNoWs()
    ensures forall k :: 0 <= k < |LowerPrefixes| ==> NoWs(LowerPrefixes[k])
    ensures forall k :: 0 <= k < |LowerSuffixes| ==> NoWs(LowerSuffixes[k])
  {
    forall k, j | 0 <= k < |LowerPrefixes| && 0 <= j < |LowerPrefixes[k]|
      ensures LowerPrefixes[k][j] == '.' || IsLower(LowerPrefixes[k][j])
    {
    }
    forall k, j | 0 <= k < |LowerSuffixes| && 0 <= j < |LowerSuffixes[k]|
      ensures LowerSuffixes[k][j] == '.' || IsLower(LowerSuffixes[k][j])
    {
    }
  }

  lemma MatchesWellFormed(s: string)
    ensures forall k :: 0 <= k < |Matches(s)| ==> WellFormed(Matches(s)[k])
  {
    HitsSpec(s);
  }

  /** `extractBillNumbers`: the capture groups of every citation joined, each
      kept once, in order of first occurrence. The result has no duplicates,
      holds exactly the joined groups of the citations found, contains no white
      space, and is empty exactly when the text holds no citation. */
  function ExtractBillNumbers(text: string): (bills: seq<string>)
    ensures forall i, j :: 0 <= i < j < |bills| ==> bills[i] != bills[j]
    ensures forall b :: b in bills <==> exists k :: 0 <= k < |Matches(text)| && Matches(text)[k].Compact() == b
    ensures forall k :: 0 <= k < |bills| ==> NoWs(bills[k]) && bills[k] in CompactAll(Matches(text))
    ensures forall i, j :: 0 <= i < j < |bills| ==>
              Seqs.FirstIndex(CompactAll(Matches(text)), bills[i]) < Seqs.FirstIndex(CompactAll(Matches(text)), bills[j])
    ensures |bills| == 0 <==> |Matches(text)| == 0
  {
    DedupCompacted(text);
    Seqs.Dedup(CompactAll(Matches(text)))
  }

  /** The joined groups of each match, which hold no white space. */
  lemma CompactAllSpec(text: string)
    ensures |CompactAll(Matches(text))| == |Matches(text)|
    ensures forall k :: 0 <= k < |Matches(text)| ==>
              CompactAll(Matches(text))[k] == Matches(text)[k].Compact() && NoWs(CompactAll(Matches(text))[k])
  {
    var ms := Matches(text);
    MatchesWellFormed(text);
    forall k | 0 <= k < |ms| ensures CompactAll(ms)[k] == ms[k].Compact() && NoWs(CompactAll(ms)[k]) {
      CompactNoWs(ms[k]);
    }
  }

  /** The de-duplicated joined groups are distinct, blank-free, ordered by
      first citation, and are exactly the joined groups of the matches. */
  lemma DedupCompacted(text: string)
    ensures var bills := Seqs.Dedup(CompactAll(Matches(text)));
      && (forall i, j :: 0 <= i < j < |bills| ==> bills[i] != bills[j])
      && (forall b :: b in bills <==> exists k :: 0 <= k < |Matches(text)| && Matches(text)[k].Compact() == b)
      && (forall k :: 0 <= k < |bills| ==> NoWs(bills[k]) && bills[k] in CompactAll(Matches(text)))
      && (forall i, j :: 0 <= i < j < |bills| ==>
            Seqs.FirstIndex(CompactAll(Matches(text)), bills[i]) < Seqs.FirstIndex(CompactAll(Matches(text)), bills[j]))
      && (|bills| == 0 <==> |Matches(text)| == 0)
  {
    var ms := Matches(text);
    var all := CompactAll(ms);
    CompactAllSpec(text);
    Seqs.DedupSpec(all);
    var bills := Seqs.Dedup(all);
    forall b | b in bills ensures exists k :: 0 <= k < |ms| && ms[k].Compact() == b {
      var k :| 0 <= k < |all| && all[k] == b;
    }
    forall k | 0 <= k < |ms| ensures ms[k].Compact() in bills {
      assert all[k] in all;
    }
    forall k | 0 <= k < |bills| ensures NoWs(bills[k]) {
      assert bills[k] in all;
      var j :| 0 <= j < |all| && all[j] == bills[k];
    }
  }

  // ---------------------------------------------------------------------------
  // parseBillNumber
  // ---------------------------------------------------------------------------

  /** The type alternatives of `^(s|h|sj|hj|scon|hcon)(res|r)?\.?(\d+)$`, in order. */
  const Bases: seq<string> := ["s", "h", "sj", "hj", "scon", "hcon"]

  /** The optional-suffix alternatives, in the order the greedy `?` tries them. */
  const BillSuffixes: seq<string> := ["res", "r", ""]

  /** The groups of a full match of the bill-number pattern. */
  datatype BillParts = BillParts(base: string, suffix: string, dot: bool, digits: string) {
    function Text(): string {
      base + suffix + (if dot then "." else "") + digits
    }
  }

  /** What the pattern accepts, piece by piece (letters in any case). */
  ghost predicate BillForm(p: BillParts) {
    && ToLower(p.base) in Bases
    && ToLower(p.suffix) in BillSuffixes
    && |p.digits| > 0 && AllDigits(p.digits)
  }

  /** `\.?(\d+)$` from index `j`: an optional dot, then digits to the end. */
  function DigitsTail(n: string, j: nat): (r: Option<(bool, string)>)
    ensures r.Some? ==> j <= |n| && n[j..] == (if r.value.0 then "." else "") + r.value.1
    ensures r.Some? ==> |r.value.1| > 0 && AllDigits(r.value.1)
  {
    if j < |n| && n[j] == '.' && j + 1 < |n| && AllDigits(n[j + 1..]) then Some((true, n[j + 1..]))
    else if j < |n| && AllDigits(n[j..]) then Some((false, n[j..]))
    else None
  }

  /** Tries the suffix alternatives from the `k`-th on after a base ending at `j`. */
  function SuffixFrom(n: string, j: nat, k: nat): (r: Option<(string, bool, string)>)
    requires j <= |n| && k <= |BillSuffixes|
    ensures r.Some? ==> ToLower(r.value.0) in BillSuffixes && |r.value.2| > 0 && AllDigits(r.value.2)
    ensures r.Some? ==> n[j..] == r.value.0 + (if r.value.1 then "." else "") + r.value.2
    decreases |BillSuffixes| - k
  {
    if k == |BillSuffixes| then None
    else
      var x := BillSuffixes[k];
      if OccursAtIgnoreCase(n, x, j) && DigitsTail(n, j + |x|).Some? then
        var t := DigitsTail(n, j + |x|).value;
        var dot := if t.0 then "." else "";
        assert n[j..] == n[j..j + |x|] + n[j + |x|..];
        Seqs.Assoc(n[j..j + |x|], dot, t.1);
        Some((n[j..j + |x|], t.0, t.1))
      else SuffixFrom(n, j, k + 1)
  }

  /** Tries the base alternatives from the `k`-th on. */
  function BaseFrom(n: string, k: nat): (r: Option<BillParts>)
    requires k <= |Bases|
    ensures r.Some? ==> BillForm(r.value) && r.value.Text() == n
    decreases |Bases| - k
  {
    if k == |Bases| then None
    else
      var b := Bases[k];
      if OccursAtIgnoreCase(n, b, 0) && SuffixFrom(n, |b|, 0).Some? then
        var t := SuffixFrom(n, |b|, 0).value;
        var m := n[..|b|];
        var dot := if t.1 then "." else "";
        var p := BillParts(m, t.0, t.1, t.2);
        assert ToLower(m) == b && b in Bases;
        assert n == m + n[|b|..];
        assert n[|b|..] == t.0 + dot + t.2;
        Seqs.Regroup(m, t.0, dot, t.2);
        Some(p)
      else BaseFrom(n, k + 1)
  }

  /** `^(s|h|sj|hj|scon|hcon)(res|r)?\.?(\d+)$` with the `i` flag: the groups
      of the whole-string match, trying alternatives in the regex's order. */
  function MatchBillNumber(n: string): (r: Option<BillParts>)
    ensures r.Some? ==> BillForm(r.value) && r.value.Text() == n
  {
    BaseFrom(n, 0)
  }

  /** The congress `parseBillNumber` always reports. */
  const CurrentCongress: nat := 119

  datatype BillRef = BillRef(congress: nat, billType: string, number: nat)

  /** The type key built from the base and suffix groups (used by both
      `parseBillNumber` and the agenda card). */
  function TypeKey(p: BillParts): string {
    p.base + (if p.suffix != "" then (if ToLower(p.suffix) == "res" then "res" else "r") else "")
  }

  /** `parseBillNumber`: remove white space, lower-case, and match the pattern
      against the whole string; null when it does not match, otherwise the
      type key lower-cased, the digits' value and congress 119. */
  function ParseBillNumber(billNumber: string): (r: Option<BillRef>)
    ensures r.Some? ==> r.value.congress == CurrentCongress
    ensures r.Some? <==> MatchBillNumber(ToLower(RemoveWs(billNumber))).Some?
  {
    var normalized := ToLower(RemoveWs(billNumber));
    match MatchBillNumber(normalized)
    case None => None
    case Some(p) => Some(BillRef(CurrentCongress, ToLower(TypeKey(p)), DigitsValue(p.digits)))
  }

  // ---------------------------------------------------------------------------
  // What parseBillNumber accepts
  // ---------------------------------------------------------------------------

  /** The eighteen type keys the bill-number pattern can produce: each base
      followed by `res`, `r` or nothing (`sres`, `sr`, `s`, `hres`, ...). */
  const BillTypes: seq<string> :=
    seq(|Bases| * |BillSuffixes|, i requires 0 <= i < |Bases| * |BillSuffixes| =>
      Bases[i / |BillSuffixes|] + BillSuffixes[i % |BillSuffixes|])

  /** The compact spelling of a reference: type key, then the number in decimal. */
  function FormatBillRef(r: BillRef): string {
    r.billType + NatToString(r.number)
  }

  /** A lower-case pattern does not occur where one of its characters differs. */
  lemma NotOccursAt(n: string, p: string, i: nat, q: nat)
    requires q < |p| && i + q < |n| && LowerChar(n[i + q]) != p[q]
    ensures !OccursAtIgnoreCase(n, p, i)
  {
  }

  /** After a base, a character that is neither `r`, a digit, nor a dot followed
      by a digit leaves no way to finish the match. */
  lemma SuffixFromFails(n: string, j: nat)
    requires j < |n| && LowerChar(n[j]) != 'r' && !IsDigit(n[j])
    requires n[j] == '.' ==> j + 1 == |n| || !IsDigit(n[j + 1])
    ensures SuffixFrom(n, j, 0).None?
  {
    NotOccursAt(n, "res", j, 0);
    NotOccursAt(n, "r", j, 0);
    assert SuffixFrom(n, j, 0) == SuffixFrom(n, j, 2);
    if n[j] == '.' && j + 1 < |n| {
      assert !AllDigits(n[j + 1..]) by { assert n[j + 1..][0] == n[j + 1]; }
    }
    assert !AllDigits(n[j..]) by { assert n[j..][0] == n[j]; }
  }

  /** A text whose first character is not `s` or `h` is no bill number. */
  lemma MatchNeedsBase(n: string)
    requires |n| > 0 && LowerChar(n[0]) != 's' && LowerChar(n[0]) != 'h'
    ensures MatchBillNumber(n).None?
  {
    forall k | 0 <= k < |Bases| ensures !OccursAtIgnoreCase(n, Bases[k], 0) {
      NotOccursAt(n, Bases[k], 0, 0);
    }
    assert BaseFrom(n, 0) == BaseFrom(n, 1) == BaseFrom(n, 2) == BaseFrom(n, 3) == BaseFrom(n, 4) == BaseFrom(n, 5);
  }

  /** A text with a dot after its first character and no digit after the dot
      (`h.r.5`, `s.res.7`) is no bill number: the pattern allows a dot only
      immediately before the digits. */
  lemma MatchRejectsDotted(n: string)
    requires |n| >= 3 && n[1] == '.' && !IsDigit(n[2])
    ensures MatchBillNumber(n).None?
  {
    SuffixFromFails(n, 1);
    forall k | 2 <= k < |Bases| ensures !OccursAtIgnoreCase(n, Bases[k], 0) {
      NotOccursAt(n, Bases[k], 0, 1);
    }
    assert BaseFrom(n, 2) == BaseFrom(n, 3) == BaseFrom(n, 4) == BaseFrom(n, 5);
  }

  /** A spelling without white space whose second character is a dot and
      whose third is a letter never parses. */
  lemma DottedSpellingNeverParses(b: string)
    requires NoWs(b) && |b| >= 3 && b[1] == '.' && (IsUpper(b[2]) || IsLower(b[2]))
    ensures ParseBillNumber(b).None?
  {
    RemoveWsIsNonWs(b);
    NonWsOfNoWs(b);
    var n := ToLower(b);
    assert n[1] == '.' && IsLower(n[2]);
    MatchRejectsDotted(n);
  }

  /** "S.J.Res.90", the example given in the comment of `parseBillNumber`,
      does not parse. */
  lemma CommentExampleUnparsed()
    ensures ParseBillNumber("S.J.Res.90").None?
  {
    DottedSpellingNeverParses("S.J.Res.90");
  }

  /** A base that comes earlier in the alternation than the one spelled fails:
      it differs in its first or second character, or it is `s` or `h` and the
      spelled base continues with `j` or `c`, which cannot follow a base. */
  lemma EarlierBaseFails(n: string, k: nat, kb: nat)
    requires k < kb < |Bases| && |n| > |Bases[kb]| && OccursAtIgnoreCase(n, Bases[kb], 0)
    ensures !(OccursAtIgnoreCase(n, Bases[k], 0) && SuffixFrom(n, |Bases[k]|, 0).Some?)
  {
    var b, b' := Bases[kb], Bases[k];
    assert LowerChar(n[0]) == b[0] by { assert ToLower(n[0..|b|])[0] == LowerChar(n[0]); }
    if b'[0] != b[0] {
      NotOccursAt(n, b', 0, 0);
    } else {
      assert LowerChar(n[1]) == b[1] by { assert ToLower(n[0..|b|])[1] == LowerChar(n[1]); }
      if |b'| == 1 {
        SuffixFromFails(n, 1);
      } else {
        NotOccursAt(n, b', 0, 1);
      }
    }
  }

  /** The suffix alternative spelled (in any case), followed by the optional
      dot and the digits, succeeds with exactly those pieces. */
  lemma SuffixHitForm(n: string, j: nat, kx: nat, x: string, dot: bool, d: string)
    requires kx < |BillSuffixes| && ToLower(x) == BillSuffixes[kx] && |d| > 0 && AllDigits(d)
    requires j <= |n| && n[j..] == x + (if dot then "." else "") + d
    ensures SuffixFrom(n, j, kx) == Some((x, dot, d))
  {
    var xs := BillSuffixes[kx];
    var dt := if dot then "." else "";
    var e := j + |x|;
    assert |xs| == |x|;
    Seqs.Assoc(x, dt, d);
    assert e <= |n| && n[j..e] == x by {
      assert n[j..][..|x|] == x;
      assert n[j..e] == n[j..][..|x|];
    }
    assert n[e..] == dt + d by {
      assert n[j..][|x|..] == dt + d;
      assert n[e..] == n[j..][|x|..];
    }
    assert OccursAtIgnoreCase(n, xs, j);
    DigitsTailOf(n, e, dot, d);
    assert DigitsTail(n, j + |xs|) == Some((dot, d));
  }

  /** The optional dot and the digits are read as they are. */
  lemma DigitsTailOf(n: string, e: nat, dot: bool, d: string)
    requires |d| > 0 && AllDigits(d)
    requires e <= |n| && n[e..] == (if dot then "." else "") + d
    ensures DigitsTail(n, e) == Some((dot, d))
  {
    assert n[e..][0] == n[e];
    if dot {
      assert n[e] == '.';
      assert n[e + 1..] == n[e..][1..] == d;
    } else {
      assert n[e..] == d;
      assert n[e] == d[0] && IsDigit(d[0]) && n[e] != '.';
    }
  }

  /** Before the suffix alternative spelled, the alternatives tried first
      fail: the character after the spelled suffix is a dot or a digit. */
  lemma SuffixFromForm(n: string, j: nat, kx: nat, x: string, dot: bool, d: string)
    requires kx < |BillSuffixes| && ToLower(x) == BillSuffixes[kx] && |d| > 0 && AllDigits(d)
    requires j <= |n| && n[j..] == x + (if dot then "." else "") + d
    ensures SuffixFrom(n, j, 0) == Some((x, dot, d))
  {
    SuffixHitForm(n, j, kx, x, dot, d);
    var e := j + |x|;
    assert n[e] == (if dot then '.' else d[0]) by {
      assert n[j..][|x|] == n[e];
    }
    assert LowerChar(n[e]) == n[e];
    if kx >= 1 {
      NotOccursAt(n, "res", j, |x|);
      assert SuffixFrom(n, j, 0) == SuffixFrom(n, j, 1);
    }
    if kx == 2 {
      NotOccursAt(n, "r", j, 0);
      assert SuffixFrom(n, j, 1) == SuffixFrom(n, j, 2);
    }
  }

  /** The text of the pieces, cut after the base. */
  lemma TextSplit(p: BillParts)
    ensures |p.base| <= |p.Text()| && p.Text()[..|p.base|] == p.base
    ensures p.Text()[|p.base|..] == p.suffix + (if p.dot then "." else "") + p.digits
  {
    var dot := if p.dot then "." else "";
    Seqs.Regroup(p.base, p.suffix, dot, p.digits);
  }

  /** A string matches with the parts `p` exactly when `p` spells it in the
      pattern's form: the matcher is sound and complete. */
  lemma MatchBillNumberIff(n: string, p: BillParts)
    ensures MatchBillNumber(n) == Some(p) <==> BillForm(p) && p.Text() == n
  {
    if BillForm(p) && p.Text() == n {
      MatchComplete(p);
    }
  }

  /** Any spelling whose blank-free, lower-cased form spells parts of the
      pattern parses to the current congress, the lower-cased type key of
      those parts and the value of their digits. */
  lemma ParseOfForm(billNumber: string, p: BillParts)
    requires BillForm(p) && ToLower(RemoveWs(billNumber)) == p.Text()
    ensures ParseBillNumber(billNumber) == Some(BillRef(CurrentCongress, ToLower(TypeKey(p)), DigitsValue(p.digits)))
  {
    MatchComplete(p);
  }

  /** The pattern reads every spelling it describes back as the pieces it
      was spelled from: the matcher is complete. */
  lemma MatchComplete(p: BillParts)
    requires BillForm(p)
    ensures MatchBillNumber(p.Text()) == Some(p)
  {
    var n := p.Text();
    var dot := if p.dot then "." else "";
    var kb :| 0 <= kb < |Bases| && Bases[kb] == ToLower(p.base);
    var kx :| 0 <= kx < |BillSuffixes| && BillSuffixes[kx] == ToLower(p.suffix);
    var b := Bases[kb];
    assert |p.base| == |b|;
    TextSplit(p);
    SuffixFromForm(n, |b|, kx, p.suffix, p.dot, p.digits);
    assert OccursAtIgnoreCase(n, b, 0);
    assert BaseFrom(n, kb) == Some(p);
    var k := kb;
    while k > 0
      invariant k <= kb
      invariant BaseFrom(n, k) == Some(p)
    {
      k := k - 1;
      EarlierBaseFails(n, k, kb);
    }
  }

  /** The pattern reads a type key followed by digits back as that key and
      those digits. */
  lemma MatchCanonical(kb: nat, kx: nat, d: string)
    requires kb < |Bases| && kx < |BillSuffixes| && |d| > 0 && AllDigits(d)
    ensures MatchBillNumber(Bases[kb] + BillSuffixes[kx] + d) == Some(BillParts(Bases[kb], BillSuffixes[kx], false, d))
  {
    var p := BillParts(Bases[kb], BillSuffixes[kx], false, d);
    ToLowerNoUpper(Bases[kb]);
    ToLowerNoUpper(BillSuffixes[kx]);
    assert p.Text() == Bases[kb] + BillSuffixes[kx] + d;
    MatchComplete(p);
  }

  /** Every character of `s` is a lower-case letter. */
  predicate LowerWord(s: string) {
    forall i :: 0 <= i < |s| ==> IsLower(s[i])
  }

  /** Each type key is a base followed by a suffix alternative, all in
      lower-case letters. */
  lemma BillTypeParts(i: nat)
    requires i < |BillTypes|
    ensures BillTypes[i] == Bases[i / |BillSuffixes|] + BillSuffixes[i % |BillSuffixes|]
    ensures LowerWord(Bases[i / |BillSuffixes|]) && LowerWord(BillSuffixes[i % |BillSuffixes|])
    ensures LowerWord(BillTypes[i])
  {
  }

  /** Letters then digits hold neither white space nor upper case. */
  lemma WordDigitsPlain(a: string, d: string)
    requires LowerWord(a) && AllDigits(d)
    ensures NoWs(a + d) && NoUpper(a + d)
  {
  }

  /** The type key the pattern builds from a base and a suffix spelled in
      lower case is the two joined. */
  lemma TypeKeyOfLower(p: BillParts)
    requires LowerWord(p.base) && LowerWord(p.suffix) && p.suffix in BillSuffixes
    ensures ToLower(TypeKey(p)) == p.base + p.suffix
  {
    ToLowerNoUpper(p.suffix);
    ToLowerNoUpper(p.base + p.suffix);
  }

  /** Formatting a reference with a known type key and parsing it back gives
      the reference again. */
  lemma ParseFormatRoundTrip(r: BillRef)
    requires r.congress == CurrentCongress && r.billType in BillTypes
    ensures ParseBillNumber(FormatBillRef(r)) == Some(r)
  {
    var i :| 0 <= i < |BillTypes| && BillTypes[i] == r.billType;
    var kb, kx := i / |BillSuffixes|, i % |BillSuffixes|;
    BillTypeParts(i);
    var b, x, d := Bases[kb], BillSuffixes[kx], NatToString(r.number);
    var n := FormatBillRef(r);
    assert n == b + x + d;
    WordDigitsPlain(r.billType, d);
    ReplaceWsRunsNoWs(n, "");
    ToLowerNoUpper(n);
    MatchCanonical(kb, kx, d);
    TypeKeyOfLower(BillParts(b, x, false, d));
    NatToStringRoundTrip(r.number);
  }

  /** Matching a lower-case text yields a base and a suffix spelled exactly
      as the alternatives are. */
  lemma LowerParts(p: BillParts, n: string)
    requires NoUpper(n) && BillForm(p) && p.Text() == n
    ensures p.base in Bases && p.suffix in BillSuffixes
  {
    var a := |p.base|;
    assert forall i :: 0 <= i < a ==> p.base[i] == n[i];
    assert forall i :: 0 <= i < |p.suffix| ==> p.suffix[i] == n[a + i];
    assert NoUpper(p.base) && NoUpper(p.suffix);
    ToLowerNoUpper(p.base);
    ToLowerNoUpper(p.suffix);
  }

  /** The type key of a match against lower-case text is one of the eighteen. */
  lemma TypeKeyOfMatch(p: BillParts, n: string)
    requires NoUpper(n) && BillForm(p) && p.Text() == n
    ensures ToLower(TypeKey(p)) in BillTypes
  {
    LowerParts(p, n);
    var kb :| 0 <= kb < |Bases| && Bases[kb] == p.base;
    var kx :| 0 <= kx < |BillSuffixes| && BillSuffixes[kx] == p.suffix;
    KeyIndex(kb, kx);
    TypeKeyOfLower(p);
    assert ToLower(TypeKey(p)) == BillTypes[kb * 3 + kx];
  }

  /** Where a base and a suffix sit in the list of type keys. */
  lemma KeyIndex(kb: nat, kx: nat)
    requires kb < |Bases| && kx < |BillSuffixes|
    ensures kb * 3 + kx < |BillTypes|
    ensures BillTypes[kb * 3 + kx] == Bases[kb] + BillSuffixes[kx]
    ensures LowerWord(Bases[kb]) && LowerWord(BillSuffixes[kx])
  {
    var i := kb * 3 + kx;
    assert i / 3 == kb && i % 3 == kx;
    BillTypeParts(i);
  }

  /** Whatever `parseBillNumber` accepts has one of the eighteen type keys. */
  lemma ParseBillNumberType(billNumber: string)
    requires ParseBillNumber(billNumber).Some?
    ensures ParseBillNumber(billNumber).value.billType in BillTypes
  {
    var n := ToLower(RemoveWs(billNumber));
    TypeKeyOfMatch(MatchBillNumber(n).value, n);
  }

  /** Formatting what `parseBillNumber` accepts and parsing it again changes
      nothing: parsing normalises case, white space, the optional dot and
      leading zeros. */
  lemma ParseBillNumberCanonical(billNumber: string)
    requires ParseBillNumber(billNumber).Some?
    ensures ParseBillNumber(FormatBillRef(ParseBillNumber(billNumber).value)) == ParseBillNumber(billNumber)
  {
    ParseBillNumberType(billNumber);
    ParseFormatRoundTrip(ParseBillNumber(billNumber).value);
  }

  /** The joined groups of a citation, lower-cased, have a dot after the first
      letter and a letter after that dot (`h.r.5`, `s.res.12`, `s.j.res.3`). */
  lemma CompactDotted(c: Citation)
    requires WellFormed(c)
    ensures |ToLower(c.Compact())| >= 3 && ToLower(c.Compact())[1] == '.' && !IsDigit(ToLower(c.Compact())[2])
  {
    var lp, ls := ToLower(c.prefix), ToLower(c.suffix);
    ToLowerAppend(c.prefix, c.suffix);
    ToLowerAppend(c.prefix + c.suffix, c.digits);
    var n := ToLower(c.Compact());
    assert n == lp + ls + ToLower(c.digits);
    assert |lp| >= 2 && lp[1] == '.' && (|lp| > 2 ==> !IsDigit(lp[2]));
    assert |ls| >= 2 && ls[0] == 'r';
  }

  /** The joined groups of a citation (`H.R.5`, `S.Res.12`, `S.J.Res.3`) are
      never accepted by `parseBillNumber`: the pattern allows a dot only
      right before the digits. */
  lemma CompactNeverParses(c: Citation)
    requires WellFormed(c)
    ensures ParseBillNumber(c.Compact()).None?
  {
    CompactNoWs(c);
    ReplaceWsRunsNoWs(c.Compact(), "");
    CompactDotted(c);
    MatchRejectsDotted(ToLower(c.Compact()));
  }

  /** No bill number `extractBillNumbers` reports is accepted by
      `parseBillNumber`. */
  lemma ExtractedNeverParse(text: string)
    ensures forall b :: b in ExtractBillNumbers(text) ==> ParseBillNumber(b).None?
  {
    MatchesWellFormed(text);
    forall b | b in ExtractBillNumbers(text) ensures ParseBillNumber(b).None? {
      var k :| 0 <= k < |Matches(text)| && Matches(text)[k].Compact() == b;
      CompactNeverParses(Matches(text)[k]);
    }
  }
}

=== FILE: congressapi.dfy ===
/** The pure parts of the Congress.gov client in src/lib/congress-api.ts: how
    an API member record becomes the app's member (`transformMember`), how
    `getMember` picks the chamber from the terms and answers a reply, and the
    two Congress.gov page URLs (`getBillUrl`, `getMemberUrl`). The requests
    themselves are left to the caller: a reply is an input here. */
module CongressApi {
  import opened Wrappers
  import opened Strings
  import opened Scanner
  import AgendaCard
  import Seqs

  datatype Party = D | R | I

  /** One entry of a member's term list; either field may be missing. */
  datatype Term = Term(chamber: Option<string>, endYear: Option<int>)

  /** A member as the list endpoint returns it. `name` reads "Last, First";
      `imageUrl` is the depiction's image, absent with the depiction. */
  datatype ApiMember = ApiMember(
    bioguideId: string,
    name: string,
    partyName: Option<string>,
    state: string,
    district: Option<int>,
    imageUrl: Option<string>)

  /** The app's member. */
  datatype MemberDetail = MemberDetail(
    bioguideId: string,
    firstName: string,
    lastName: string,
    party: Party,
    state: string,
    chamber: Chamber,
    photoUrl: Option<string>,
    district: Option<int>)

  // ---------------------------------------------------------------------------
  // transformMember
  // ---------------------------------------------------------------------------

  /** Separates the last name from the rest. */
  const NameSep: string := ", "

  /** The text before the first `", "`, or the whole name. */
  function LastName(name: string): (r: string)
    ensures !Contains(r, NameSep)
    ensures r <= name
    ensures |r| == |name| || OccursAt(name, NameSep, |r|)
  {
    SplitHead(name, NameSep);
    SplitOn(name, NameSep)[0]
  }

  /** The first word (up to a plain space) of the text between the first and
      the second `", "`; empty when the name has no `", "`. */
  function FirstName(name: string): (r: string)
    ensures !Contains(r, " ")
    ensures !Contains(name, NameSep) ==> r == ""
  {
    var parts := SplitOn(name, NameSep);
    SplitHead(name, NameSep);
    if |parts| < 2 then "" else SplitOn(parts[1], " ")[0]
  }

  /** The party letter: a name mentioning "democrat" in any case wins, then
      "republican"; anything else, or no party at all, is independent. */
  function PartyOf(partyName: Option<string>): (p: Party)
    ensures p == D <==> partyName.Some? && Contains(ToLower(partyName.value), "democrat")
    ensures p == R <==>
              partyName.Some? && !Contains(ToLower(partyName.value), "democrat")
              && Contains(ToLower(partyName.value), "republican")
  {
    if partyName.Some? && Contains(ToLower(partyName.value), "democrat") then D
    else if partyName.Some? && Contains(ToLower(partyName.value), "republican") then R
    else I
  }

  /** An empty image URL counts as no photo. */
  function PhotoUrl(imageUrl: Option<string>): (r: Option<string>)
    ensures r.Some? <==> imageUrl.Some? && |imageUrl.value| > 0
    ensures r.Some? ==> r == imageUrl
  {
    if imageUrl.Some? && |imageUrl.value| > 0 then imageUrl else None
  }

  /** `transformMember`: the member in the app's shape, for the given chamber. */
  function TransformMember(m: ApiMember, chamber: Chamber): (d: MemberDetail)
    ensures d.bioguideId == m.bioguideId && d.state == m.state && d.district == m.district
    ensures d.chamber == chamber
    ensures !Contains(d.lastName, NameSep) && d.lastName <= m.name
    ensures !Contains(d.firstName, " ")
    ensures d.party == D <==> m.partyName.Some? && Contains(ToLower(m.partyName.value), "democrat")
    ensures d.photoUrl.Some? <==> m.imageUrl.Some? && |m.imageUrl.value| > 0
    ensures d.lastName == LastName(m.name) && d.firstName == FirstName(m.name)
    ensures d.party == PartyOf(m.partyName) && d.photoUrl == PhotoUrl(m.imageUrl)
  {
    MemberDetail(m.bioguideId, FirstName(m.name), LastName(m.name), PartyOf(m.partyName),
                 m.state, chamber, PhotoUrl(m.imageUrl), m.district)
  }

  /** In "Last, First" the separator found first is the one after the last
      name, as long as the last name does not contain it. */
  lemma NameSepAfterLast(last: string, rest: string)
    requires !Contains(last, NameSep)
    ensures IndexOf(last + NameSep + rest, NameSep, 0) == Some(|last|)
  {
    var s := last + NameSep + rest;
    assert OccursAt(s, NameSep, |last|) by {
      assert s[|last|..|last| + 2] == NameSep;
    }
    assert s[|last|] == ',';
    forall j | 0 <= j < |last| ensures !OccursAt(s, NameSep, j) {
      if j + 2 > |last| {
        assert s[j..j + 2][1] == s[j + 1] == ',' != NameSep[1];
      } else if OccursAt(s, NameSep, j) {
        assert last[j..j + 2] == s[j..j + 2];
        ContainsAt(last, NameSep, j);
      }
    }
  }

  /** "Last, rest" is split back into the last name and the first word of
      the rest up to its own `", "`, as long as the last name does not
      contain `", "`. */
  lemma NameRoundTrip(last: string, rest: string)
    requires !Contains(last, NameSep)
    ensures LastName(last + NameSep + rest) == last
    ensures FirstName(last + NameSep + rest) == SplitOn(SplitOn(rest, NameSep)[0], " ")[0]
  {
    var s := last + NameSep + rest;
    NameSepAfterLast(last, rest);
    assert s[..|last|] == last;
    assert s[|last| + |NameSep|..] == rest;
    assert SplitOn(s, NameSep) == [last] + SplitOn(rest, NameSep);
  }

  /** With no second `", "`, the first name is the first word of the rest. */
  lemma NameRoundTripPlain(last: string, first: string)
    requires !Contains(last, NameSep) && !Contains(first, NameSep)
    ensures LastName(last + NameSep + first) == last
    ensures FirstName(last + NameSep + first) == SplitOn(first, " ")[0]
  {
    NameRoundTrip(last, first);
    SplitHead(first, NameSep);
  }

  /** A one-word first name comes back whole. */
  lemma NameRoundTripOneWord(last: string, first: string)
    requires !Contains(last, NameSep) && !Contains(first, NameSep) && !Contains(first, " ")
    ensures LastName(last + NameSep + first) == last
    ensures FirstName(last + NameSep + first) == first
  {
    NameRoundTripPlain(last, first);
    SplitHead(first, " ");
  }

  // ---------------------------------------------------------------------------
  // getMember
  // ---------------------------------------------------------------------------

  /** A term is current when its end year is missing or zero (`!t.endYear`). */
  predicate Open(t: Term) {
    t.endYear.None? || t.endYear == Some(0)
  }

  /** `i` is the first current term. */
  ghost predicate IsCurrent(terms: seq<Term>, i: int) {
    0 <= i < |terms| && Open(terms[i]) && forall j :: 0 <= j < i ==> !Open(terms[j])
  }

  /** A term whose chamber reads "senate" in any case. */
  predicate SaysSenate(t: Term) {
    t.chamber.Some? && ToLower(t.chamber.value) == "senate"
  }

  /** `terms.find(t => !t.endYear)`, searched from `from`. */
  function CurrentTermFrom(terms: seq<Term>, from: nat): (r: Option<nat>)
    requires from <= |terms|
    ensures r.Some? ==> from <= r.value < |terms| && Open(terms[r.value])
    ensures r.Some? ==> forall j :: from <= j < r.value ==> !Open(terms[j])
    ensures r.None? ==> forall j :: from <= j < |terms| ==> !Open(terms[j])
    decreases |terms| - from
  {
    if from == |terms| then None
    else if Open(terms[from]) then Some(from)
    else CurrentTermFrom(terms, from + 1)
  }

  /** The chamber of the current term: Senate when it says so, House in
      every other case, including when no term is current. */
  function ChamberOf(terms: seq<Term>): (c: Chamber)
    ensures c == Senate <==> exists i :: IsCurrent(terms, i) && SaysSenate(terms[i])
  {
    var t := CurrentTermFrom(terms, 0);
    if t.Some? && SaysSenate(terms[t.value]) then Senate
    else
      assert forall i :: IsCurrent(terms, i) ==> t == Some(i);
      House
  }

  /** A member as the detail endpoint returns it; a missing term list is an
      empty one. */
  datatype MemberRecord = MemberRecord(
    bioguideId: string,
    firstName: string,
    lastName: string,
    partyName: Option<string>,
    state: string,
    district: Option<int>,
    terms: seq<Term>,
    imageUrl: Option<string>)

  /** What `getMember` answers: no member on 404, an error on any other
      failing status, the member otherwise. */
  datatype Lookup = Missing | Failure(status: int) | Found(member: MemberDetail)

  /** `fetch` says `ok` for the 2xx statuses. */
  predicate StatusOk(status: int) { 200 <= status < 300 }

  /** `getMember` given the reply's status and, on success, its body. The
      record is re-assembled as "Last, First" and passed through
      `transformMember` with the chamber of the current term. */
  function GetMember(status: int, body: MemberRecord): (r: Lookup)
    ensures r.Missing? <==> status == 404
    ensures r.Failure? <==> !StatusOk(status) && status != 404
    ensures r.Found? <==> StatusOk(status)
    ensures r.Found? ==>
              r.member == TransformMember(ApiMember(body.bioguideId, body.lastName + NameSep + body.firstName,
                                                    body.partyName, body.state, body.district, body.imageUrl),
                                          ChamberOf(body.terms))
    ensures r.Found? ==> r.member.bioguideId == body.bioguideId
                         && (r.member.chamber == Senate <==>
                               exists i :: IsCurrent(body.terms, i) && SaysSenate(body.terms[i]))
  {
    if !StatusOk(status) then
      if status == 404 then Missing else Failure(status)
    else
      var m := ApiMember(body.bioguideId, body.lastName + NameSep + body.firstName, body.partyName,
                         body.state, body.district, body.imageUrl);
      Found(TransformMember(m, ChamberOf(body.terms)))
  }

  /** The last name survives the trip through "Last, First" when it does not
      hold `", "`; the first name is cut at its own `", "`, if any, and then
      at its first space. */
  lemma GetMemberNames(status: int, body: MemberRecord)
    requires StatusOk(status)
    requires !Contains(body.lastName, NameSep)
    ensures GetMember(status, body).member.lastName == body.lastName
    ensures GetMember(status, body).member.firstName == SplitOn(SplitOn(body.firstName, NameSep)[0], " ")[0]
    ensures !Contains(body.firstName, NameSep) ==>
              GetMember(status, body).member.firstName == SplitOn(body.firstName, " ")[0]
  {
    NameRoundTrip(body.lastName, body.firstName);
    SplitHead(body.firstName, NameSep);
  }

  /** `getAllMembers`: the senators first, then the representatives, each
      marked with its chamber. */
  function AllMembers(senate: seq<ApiMember>, house: seq<ApiMember>): (r: seq<MemberDetail>)
    ensures |r| == |senate| + |house|
    ensures forall i :: 0 <= i < |senate| ==> r[i].chamber == Senate && r[i].bioguideId == senate[i].bioguideId
    ensures forall i :: |senate| <= i < |r| ==>
              r[i].chamber == House && r[i].bioguideId == house[i - |senate|].bioguideId
  {
    seq(|senate|, i requires 0 <= i < |senate| => TransformMember(senate[i], Senate))
    + seq(|house|, i requires 0 <= i < |house| => TransformMember(house[i], House))
  }

  // ---------------------------------------------------------------------------
  // getBillUrl
  // ---------------------------------------------------------------------------

  /** The client's table from type key to congress.gov path segment. */
  const ApiTypes: map<string, string> := map[
    "s" := "senate-bill",
    "hr" := "house-bill",
    "sres" := "senate-resolution",
    "hres" := "house-resolution",
    "sjres" := "senate-joint-resolution",
    "hjres" := "house-joint-resolution",
    "sconres" := "senate-concurrent-resolution",
    "hconres" := "house-concurrent-resolution"]

  const BillPages: string := "https://www.congress.gov/bill/"

  /** `replace(/\./g, '')`. */
  function RemoveDots(s: string): (r: string)
    ensures '.' !in r
    ensures |r| <= |s|
    ensures '.' !in s ==> r == s
  {
    if |s| == 0 then ""
    else if s[0] == '.' then RemoveDots(s[1..])
    else [s[0]] + RemoveDots(s[1..])
  }

  /** The path segment for a bill type: looked up by the lower-case type
      without dots, else the lower-case type itself. */
  function UrlType(billType: string): (u: string)
    ensures RemoveDots(ToLower(billType)) in ApiTypes ==> u == ApiTypes[RemoveDots(ToLower(billType))]
    ensures RemoveDots(ToLower(billType)) !in ApiTypes ==> u == ToLower(billType)
  {
    var key := RemoveDots(ToLower(billType));
    if key in ApiTypes then ApiTypes[key] else ToLower(billType)
  }

  /** `getBillUrl`. The ordinal is always written "th". */
  function BillUrl(congress: nat, billType: string, number: nat): (url: string)
    ensures BillPages <= url
  {
    BillPages + (NatToString(congress) + BillUrlTail(billType, number))
  }

  /** The two tables agree wherever both have the key; the card's table adds
      `sr` and `h`. */
  lemma ApiTypesAgreeWithCard()
    ensures forall k :: k in ApiTypes ==> k in AgendaCard.CardTypes && AgendaCard.CardTypes[k] == ApiTypes[k]
  {
  }

  /** The type is read without regard to case. */
  lemma UrlTypeIgnoresCase(billType: string)
    ensures UrlType(ToUpper(billType)) == UrlType(billType)
    ensures UrlType(ToLower(billType)) == UrlType(billType)
  {
    assert ToLower(ToUpper(billType)) == ToLower(billType);
    assert ToLower(ToLower(billType)) == ToLower(billType);
  }

  /** Dots are ignored when looking up the type: "H.R." and "hr" give the
      same page. */
  lemma DottedTypeExample()
    ensures UrlType("H.R.") == "house-bill"
  {
    assert ToLower("H.R.") == "h.r.";
    assert RemoveDots("h.r.") == "hr";
  }

  /** After the fixed prefix: the congress's digits, then the rest. */
  lemma BillUrlSplit(c: nat, t: string, n: nat)
    ensures BillUrl(c, t, n)[|BillPages|..] == NatToString(c) + BillUrlTail(t, n)
  {
  }

  /** What follows the congress's digits. */
  function BillUrlTail(t: string, n: nat): (r: string)
    ensures |r| > 0 && !IsDigit(r[0])
  {
    "th-congress/" + UrlType(t) + "/" + NatToString(n)
  }

  /** The tail determines the type's segment and the number. */
  lemma BillUrlTailInjective(t1: string, n1: nat, t2: string, n2: nat)
    requires BillUrlTail(t1, n1) == BillUrlTail(t2, n2)
    ensures n1 == n2 && UrlType(t1) == UrlType(t2)
  {
    var x1, x2 := "th-congress/" + UrlType(t1) + "/", "th-congress/" + UrlType(t2) + "/";
    assert BillUrlTail(t1, n1) == x1 + NatToString(n1);
    assert BillUrlTail(t2, n2) == x2 + NatToString(n2);
    DigitsSuffixUnique(x1, NatToString(n1), x2, NatToString(n2));
    NatToStringInjective(n1, n2);
    assert UrlType(t1) == x1[12..|x1| - 1];
    assert UrlType(t2) == x2[12..|x2| - 1];
  }

  /** The congress, the type's path segment and the number can be read back
      from a bill URL. */
  lemma BillUrlInjective(c1: nat, t1: string, n1: nat, c2: nat, t2: string, n2: nat)
    requires BillUrl(c1, t1, n1) == BillUrl(c2, t2, n2)
    ensures c1 == c2 && n1 == n2 && UrlType(t1) == UrlType(t2)
  {
    BillUrlSplit(c1, t1, n1);
    BillUrlSplit(c2, t2, n2);
    DigitsPrefixUnique(NatToString(c1), BillUrlTail(t1, n1), NatToString(c2), BillUrlTail(t2, n2));
    NatToStringInjective(c1, c2);
    BillUrlTailInjective(t1, n1, t2, n2);
  }

  // ---------------------------------------------------------------------------
  // getMemberUrl
  // ---------------------------------------------------------------------------

  const MemberPages: string := "https://www.congress.gov/member/"

  /** The profile slug: the lower-case name with each white-space run turned
      into `-`, or the bioguide id when the name is missing or empty. */
  function Slug(bioguideId: string, name: Option<string>): (slug: string)
    ensures name.None? || |name.value| == 0 ==> slug == bioguideId
    ensures name.Some? && |name.value| > 0 ==> slug == ReplaceWsRuns(ToLower(name.value), "-")
    ensures name.Some? && |name.value| > 0 ==> |slug| > 0 && NoWs(slug) && NoUpper(slug)
  {
    var s := if name.Some? then ReplaceWsRuns(ToLower(name.value), "-") else "";
    if name.Some? then
      ReplaceWsRunsEmpty(ToLower(name.value), "-");
      ReplaceWsRunsShape(ToLower(name.value), "-");
      NoUpperWsRuns(ToLower(name.value));
      if |s| > 0 then s else bioguideId
    else bioguideId
  }

  /** Run replacement by `-` adds no upper-case letter. */
  lemma {:induction false} NoUpperWsRuns(s: string)
    requires NoUpper(s)
    ensures NoUpper(ReplaceWsRuns(s, "-"))
    decreases |s|
  {
    if |s| > 0 {
      if IsWs(s[0]) {
        NoUpperWsRuns(s[Span(s, 0, IsWs)..]);
      } else {
        NoUpperWsRuns(s[1..]);
      }
    }
  }

  /** `getMemberUrl`: the slug, then the bioguide id. */
  function MemberUrl(bioguideId: string, name: Option<string>): (url: string)
    ensures url == MemberPages + Slug(bioguideId, name) + "/" + bioguideId
    ensures MemberPages <= url
    ensures |url| > |bioguideId| && url[|url| - |bioguideId|..] == bioguideId
    ensures url[|url| - |bioguideId| - 1] == '/'
  {
    MemberPages + Slug(bioguideId, name) + "/" + bioguideId
  }

  /** A name of two words becomes the two lower-case words joined by `-`,
      whatever white space stood between them. */
  lemma TwoWordSlug(id: string, first: string, gap: string, last: string)
    requires NoWs(first) && NoWs(last) && |gap| > 0 && AllWs(gap)
    ensures Slug(id, Some(first + gap + last)) == ToLower(first) + "-" + ToLower(last)
  {
    LowerThree(first, gap, last);
    ReplaceTwoWords(ToLower(first), ToLower(gap), ToLower(last));
  }

  /** Any name made of words separated by white-space runs, padded with white
      space or not, becomes its lower-cased words joined by `-`, with one more
      `-` at each padded end. */
  lemma SpacedSlug(id: string, lead: string, words: seq<string>, gaps: seq<string>, tail: string)
    requires |words| == |gaps| + 1 && Words(words) && Gaps(gaps) && AllWs(lead) && AllWs(tail)
    ensures Slug(id, Some(lead + Spaced(words, gaps) + tail))
            == (if |lead| > 0 then "-" else "") + JoinWith(LowerAll(words), "-") + (if |tail| > 0 then "-" else "")
  {
    var name := lead + Spaced(words, gaps) + tail;
    SpacedStart(words, gaps);
    assert |name| > 0;
    ToLowerAppend(lead + Spaced(words, gaps), tail);
    ToLowerAppend(lead, Spaced(words, gaps));
    ToLowerSpaced(words, gaps);
    LowerAllKeeps(words, gaps);
    forall i | 0 <= i < |lead| ensures IsWs(ToLower(lead)[i]) { LowerCharWs(lead[i]); }
    forall i | 0 <= i < |tail| ensures IsWs(ToLower(tail)[i]) { LowerCharWs(tail[i]); }
    ReplaceWsRunsSpaced(ToLower(lead), LowerAll(words), LowerAll(gaps), ToLower(tail), "-");
  }

  /** " Ann  Lee " becomes "-ann-lee-". */
  lemma PaddedSlugExample(id: string)
    ensures Slug(id, Some(" Ann  Lee ")) == "-ann-lee-"
  {
    var words, gaps := ["Ann", "Lee"], ["  "];
    assert " " + Spaced(words, gaps) + " " == " Ann  Lee ";
    assert ToLower("Ann") == "ann" by { assert LowerChar('A') == 'a'; }
    assert ToLower("Lee") == "lee" by { assert LowerChar('L') == 'l'; }
    assert LowerAll(words) == ["ann", "lee"];
    SpacedSlug(id, " ", words, gaps, " ");
  }

  /** Lower-casing the three parts one by one keeps words and gap apart. */
  lemma LowerThree(first: string, gap: string, last: string)
    requires NoWs(first) && NoWs(last) && AllWs(gap)
    ensures ToLower(first + gap + last) == ToLower(first) + ToLower(gap) + ToLower(last)
    ensures NoWs(ToLower(first)) && NoWs(ToLower(last)) && AllWs(ToLower(gap))
  {
    ToLowerAppend(first + gap, last);
    ToLowerAppend(first, gap);
    var lf, lg, ll := ToLower(first), ToLower(gap), ToLower(last);
    forall i | 0 <= i < |lf| ensures !IsWs(lf[i]) { LowerCharWs(first[i]); }
    forall i | 0 <= i < |ll| ensures !IsWs(ll[i]) { LowerCharWs(last[i]); }
    forall i | 0 <= i < |lg| ensures IsWs(lg[i]) { LowerCharWs(gap[i]); }
  }

  /** Two words around one white-space run are joined by `-`. */
  lemma ReplaceTwoWords(a: string, g: string, b: string)
    requires NoWs(a) && NoWs(b) && |g| > 0 && AllWs(g)
    ensures ReplaceWsRuns(a + g + b, "-") == a + "-" + b
  {
    Seqs.Assoc(a, g, b);
    ReplaceWsRunsNoWsPrefix(a, g + b, "-");
    ReplaceWsRunsGap(g, b, "-");
    ReplaceWsRunsNoWs(b, "-");
  }
}

=== FILE: govinfo.dfy ===
/** The URL builders of the GovInfo client in src/lib/govinfo.ts: the
    Congressional Record collection endpoint, the transcript and download
    addresses of a package, and the Congress.gov page search link. */
module GovInfo {
  import opened Wrappers
  import opened Strings
  import opened Scanner
  import Markers
  import Seqs

  // ---------------------------------------------------------------------------
  // Collection endpoint
  // ---------------------------------------------------------------------------

  const Collection: string := "https://api.govinfo.gov/collections/CREC/"
  const DayStart: string := "T00:00:00Z"
  const DayEnd: string := "T23:59:59Z"

  /** The endpoint for the packages from `fromDate` on, or between the two
      dates when `toDate` is given. An empty `toDate` is false in the
      source's test and so counts as absent. */
  function CollectionEndpoint(fromDate: string, toDate: Option<string>): (url: string)
    ensures Collection + fromDate + DayStart <= url
    ensures toDate.None? || |toDate.value| == 0 ==> |url| == |Collection + fromDate + DayStart|
  {
    if toDate.Some? && |toDate.value| > 0 then
      Collection + fromDate + DayStart + "/" + toDate.value + DayEnd
    else
      Collection + fromDate + DayStart
  }

  /** An empty end date is the same as none. */
  lemma EmptyToDateIgnored(fromDate: string)
    ensures CollectionEndpoint(fromDate, Some("")) == CollectionEndpoint(fromDate, None)
  {
  }

  /** A range ends at the last second of the end date and extends the
      open-ended endpoint of the same start. */
  lemma RangeExtendsOpenEnded(fromDate: string, toDate: string)
    requires |toDate| > 0
    ensures CollectionEndpoint(fromDate, Some(toDate))
            == CollectionEndpoint(fromDate, None) + "/" + toDate + DayEnd
  {
  }

  /** The end date can be read back from a range endpoint. */
  lemma RangeEndpointInjective(fromDate: string, t1: string, t2: string)
    requires |t1| > 0 && |t2| > 0
    requires CollectionEndpoint(fromDate, Some(t1)) == CollectionEndpoint(fromDate, Some(t2))
    ensures t1 == t2
  {
    var p := Collection + fromDate + DayStart + "/";
    assert CollectionEndpoint(fromDate, Some(t1)) == p + t1 + DayEnd;
    assert CollectionEndpoint(fromDate, Some(t2)) == p + t2 + DayEnd;
    assert t1 == (p + t1 + DayEnd)[|p|..|p| + |t1|];
    assert t2 == (p + t2 + DayEnd)[|p|..|p| + |t2|];
  }

  /** The request: the endpoint with the page size and the key. The page
      size defaults to 100. */
  function PackagesRequest(fromDate: string, toDate: Option<string>, pageSize: Option<nat>, apiKey: string): (url: string)
    ensures CollectionEndpoint(fromDate, toDate) + "?pageSize=" <= url
    ensures |url| >= |apiKey| && url[|url| - |apiKey|..] == apiKey
  {
    var size := if pageSize.Some? then pageSize.value else 100;
    (CollectionEndpoint(fromDate, toDate) + "?pageSize=") + NatToString(size) + ("&api_key=" + apiKey)
  }

  /** Without a page size the request asks for 100 packages. */
  lemma DefaultPageSize(fromDate: string, toDate: Option<string>, apiKey: string)
    ensures PackagesRequest(fromDate, toDate, None, apiKey) == PackagesRequest(fromDate, toDate, Some(100), apiKey)
  {
  }

  /** The page size can be read back from a request. */
  lemma PackagesRequestInjective(fromDate: string, toDate: Option<string>, n1: nat, n2: nat, apiKey: string)
    requires PackagesRequest(fromDate, toDate, Some(n1), apiKey) == PackagesRequest(fromDate, toDate, Some(n2), apiKey)
    ensures n1 == n2
  {
    var p := CollectionEndpoint(fromDate, toDate) + "?pageSize=";
    var k := "&api_key=" + apiKey;
    assert PackagesRequest(fromDate, toDate, Some(n1), apiKey) == p + NatToString(n1) + k;
    assert PackagesRequest(fromDate, toDate, Some(n2), apiKey) == p + NatToString(n2) + k;
    Seqs.MiddleInjective(p, NatToString(n1), NatToString(n2), k);
    NatToStringInjective(n1, n2);
  }

  /** `hasTranscriptForDate` asks for the one day, one package. */
  function DayRequest(date: string, apiKey: string): (url: string)
    ensures |date| > 0 ==> Collection + date + DayStart + "/" + date + DayEnd + "?pageSize=1" <= url
  {
    PackagesRequest(date, Some(date), Some(1), apiKey)
  }

  // ---------------------------------------------------------------------------
  // Package addresses
  // ---------------------------------------------------------------------------

  const Content: string := "https://www.govinfo.gov/content/pkg/"

  /** The section names of the transcript pages. */
  function SectionName(c: Chamber): (name: string)
    ensures |name| == (if c == Senate then 6 else 5)
  {
    match c
    case Senate => "senate"
    case House => "house"
  }

  /** The HTML page of one chamber's section of a package. */
  function TranscriptHtmlUrl(packageId: string, section: Chamber): (url: string)
    ensures |url| == |Content| + 2 * |packageId| + |SectionName(section)| + 11
    ensures Content + packageId + "/html/" <= url
  {
    Content + packageId + "/html/" + packageId + "-" + SectionName(section) + ".htm"
  }

  /** Different packages or sections have different transcript pages. The
      two section names differ in length by one, so equal lengths force the
      same section. */
  lemma TranscriptHtmlUrlInjective(p1: string, s1: Chamber, p2: string, s2: Chamber)
    requires TranscriptHtmlUrl(p1, s1) == TranscriptHtmlUrl(p2, s2)
    ensures p1 == p2 && s1 == s2
  {
    assert |p1| == |p2| && s1 == s2;
    var u := TranscriptHtmlUrl(p1, s1);
    assert p1 == u[|Content|..|Content| + |p1|];
    assert p2 == TranscriptHtmlUrl(p2, s2)[|Content|..|Content| + |p2|];
  }

  datatype Format = Html | Pdf | Xml

  function FormatName(f: Format): string {
    match f
    case Html => "html"
    case Pdf => "pdf"
    case Xml => "xml"
  }

  /** The whole package in one format; HTML when none is asked for. The
      format names both the directory and the file extension. */
  function PackageDownloadUrl(packageId: string, format: Option<Format>): (url: string)
    ensures var f := if format.Some? then format.value else Html;
            && Content + packageId + "/" + FormatName(f) + "/" <= url
            && |url| >= |FormatName(f)| + 1
            && url[|url| - |FormatName(f)| - 1..] == "." + FormatName(f)
  {
    var f := if format.Some? then format.value else Html;
    Content + packageId + "/" + FormatName(f) + "/" + packageId + "." + FormatName(f)
  }

  /** The last four characters of a download address for each format. */
  function FormatEnding(f: Format): string {
    match f
    case Html => "html"
    case Pdf => ".pdf"
    case Xml => ".xml"
  }

  lemma DownloadUrlShape(p: string, f: Format)
    ensures var u := PackageDownloadUrl(p, Some(f));
            && |u| == |Content| + 2 * |p| + 2 * |FormatName(f)| + 3
            && u[|u| - 4..] == FormatEnding(f)
            && u[|Content|..|Content| + |p|] == p
  {
    DownloadUrlPackage(p, f);
    DownloadUrlEnding(p, f);
  }

  lemma DownloadUrlPackage(p: string, f: Format)
    ensures var u := PackageDownloadUrl(p, Some(f));
            |u| >= |Content| + |p| && u[|Content|..|Content| + |p|] == p
  {
    var u := PackageDownloadUrl(p, Some(f));
    var head := Content + p;
    assert u == head + ("/" + FormatName(f) + "/" + p + "." + FormatName(f));
    assert u[|Content|..|Content| + |p|] == head[|Content|..];
  }

  lemma DownloadUrlEnding(p: string, f: Format)
    ensures var u := PackageDownloadUrl(p, Some(f)); |u| >= 4 && u[|u| - 4..] == FormatEnding(f)
  {
    var u := PackageDownloadUrl(p, Some(f));
    var tail := "." + FormatName(f);
    assert u == (Content + p + "/" + FormatName(f) + "/" + p) + tail;
    assert u[|u| - 4..] == tail[|tail| - 4..];
    EndingOfName(f);
  }

  lemma EndingOfName(f: Format)
    ensures var tail := "." + FormatName(f); |tail| >= 4 && tail[|tail| - 4..] == FormatEnding(f)
  {
    match f
    case Html => assert "." + FormatName(f) == ".html";
    case Pdf => assert "." + FormatName(f) == ".pdf";
    case Xml => assert "." + FormatName(f) == ".xml";
  }

  /** Different packages or formats have different download addresses. */
  lemma PackageDownloadUrlInjective(p1: string, f1: Format, p2: string, f2: Format)
    requires PackageDownloadUrl(p1, Some(f1)) == PackageDownloadUrl(p2, Some(f2))
    ensures p1 == p2 && f1 == f2
  {
    DownloadUrlShape(p1, f1);
    DownloadUrlShape(p2, f2);
    assert FormatEnding(f1) == FormatEnding(f2);
  }

  /** Without a format the HTML address is built. */
  lemma DownloadDefaultsToHtml(packageId: string)
    ensures PackageDownloadUrl(packageId, None) == PackageDownloadUrl(packageId, Some(Html))
  {
  }

  // ---------------------------------------------------------------------------
  // Page search link
  // ---------------------------------------------------------------------------

  const PageSearch: string := "https://www.congress.gov/congressional-record/search?pageSort=relevancy&pageNumber="
  const ChamberParam: string := "&chamber="

  /** The chamber of a page: Senate exactly when the id starts with an
      upper-case `S`. */
  function PageChamber(pageNumber: string): (c: Chamber)
    ensures c == Senate <==> |pageNumber| > 0 && pageNumber[0] == 'S'
  {
    if StartsWith(pageNumber, "S") then Senate else House
  }

  /** The search link for a page of the record. */
  function PageUrl(pageNumber: string): (url: string)
    ensures |url| == |PageSearch| + |pageNumber| + |ChamberParam| + |SectionName(PageChamber(pageNumber))|
    ensures url[..|PageSearch|] == PageSearch
    ensures url[|PageSearch|..|PageSearch| + |pageNumber|] == pageNumber
    ensures url[|PageSearch| + |pageNumber|..] == ChamberParam + SectionName(PageChamber(pageNumber))
  {
    PageSearch + pageNumber + ChamberParam + SectionName(PageChamber(pageNumber))
  }

  /** Different pages have different links. */
  lemma PageUrlInjective(p1: string, p2: string)
    requires PageUrl(p1) == PageUrl(p2)
    ensures p1 == p2
  {
  }

  /** A page id read from a `[[Page ...]]` marker names the chamber by its
      letter: `S` links to the Senate search, `H` to the House search. */
  lemma MarkerPageChamber(line: string)
    requires Markers.FindPage(line).Some?
    ensures var id := Markers.FindPage(line).value;
            (PageChamber(id) == Senate <==> id[0] == 'S')
            && (PageChamber(id) == House <==> id[0] == 'H')
  {
  }
}

=== FILE: grouping.dfy ===
/** `groupConsecutiveSegments` of src/lib/parser.ts: consecutive segments of
    the same speaker with the same procedural flag become one. */
module Grouping {
  import opened Strings
  import opened Scanner

  /** Two segments belong to one turn when speaker and procedural flag agree. */
  predicate SameTurn(a: Segment, b: Segment) {
    a.speaker == b.speaker && a.isProceduralSpeaker == b.isProceduralSpeaker
  }

  /** The separator put between merged texts. */
  const Gap: string := "\n\n"

  /** `segment` folded into `last`: texts joined, the later page kept. The
      merged segment is still the earlier one's turn; its text starts with the
      earlier text and ends with the later one, a blank line between them. */
  function Merge(last: Segment, segment: Segment): (m: Segment)
    ensures SameTurn(m, last) && m.pageNumber == segment.pageNumber
    ensures |m.text| == |last.text| + |Gap| + |segment.text|
    ensures m.text[..|last.text|] == last.text && m.text[|last.text| + |Gap|..] == segment.text
  {
    last.(text := last.text + Gap + segment.text, pageNumber := segment.pageNumber)
  }

  /** One round of the loop: merge into the last output segment when it is the
      same turn, otherwise append a copy. */
  function Push(grouped: seq<Segment>, segment: Segment): (r: seq<Segment>)
    ensures |r| > 0 && r[..|r| - 1] <= grouped && r[|r| - 1].pageNumber == segment.pageNumber
    ensures SameTurn(r[|r| - 1], segment)
  {
    if |grouped| > 0 && SameTurn(grouped[|grouped| - 1], segment) then
      grouped[..|grouped| - 1] + [Merge(grouped[|grouped| - 1], segment)]
    else
      grouped + [segment]
  }

  /** The grouped list, built left to right. The input is a value and so is
      never changed. */
  function Group(segments: seq<Segment>): (r: seq<Segment>)
    ensures |r| <= |segments|
    ensures |r| == 0 <==> |segments| == 0
    ensures |segments| > 0 ==> r[|r| - 1].pageNumber == segments[|segments| - 1].pageNumber
    decreases |segments|
  {
    if |segments| == 0 then []
    else Push(Group(segments[..|segments| - 1]), segments[|segments| - 1])
  }

  /** No two neighbours form one turn. */
  predicate Separated(segs: seq<Segment>) {
    forall i :: 0 < i < |segs| ==> !SameTurn(segs[i - 1], segs[i])
  }

  /** The texts of a list of segments. */
  function Texts(segs: seq<Segment>): (ts: seq<string>)
    ensures |ts| == |segs|
  {
    seq(|segs|, i requires 0 <= i < |segs| => segs[i].text)
  }

  /** The turn of a segment: its speaker and flag. */
  datatype Turn = Turn(speaker: string, procedural: bool)

  function Turns(segs: seq<Segment>): (ts: seq<Turn>)
    ensures |ts| == |segs|
  {
    seq(|segs|, i requires 0 <= i < |segs| => Turn(segs[i].speaker, segs[i].isProceduralSpeaker))
  }

  /** A list with each run of equal neighbours shrunk to one element: the
      reference for what grouping does to the turns. */
  function Squeeze(ts: seq<Turn>): seq<Turn>
    decreases |ts|
  {
    if |ts| == 0 then []
    else
      var r := Squeeze(ts[..|ts| - 1]);
      if |r| > 0 && r[|r| - 1] == ts[|ts| - 1] then r else r + [ts[|ts| - 1]]
  }

  lemma TurnsSnoc(segs: seq<Segment>, s: Segment)
    ensures Turns(segs + [s]) == Turns(segs) + [Turn(s.speaker, s.isProceduralSpeaker)]
  {
  }

  /** One round of the loop keeps neighbours apart. */
  lemma PushSeparated(g: seq<Segment>, s: Segment)
    requires Separated(g)
    ensures Separated(Push(g, s))
  {
    var r := Push(g, s);
    if |g| > 0 && SameTurn(g[|g| - 1], s) {
      assert r[..|r| - 1] == g[..|g| - 1];
      forall i | 0 < i < |r| ensures !SameTurn(r[i - 1], r[i]) {
        assert r[i - 1] == g[i - 1];
        if i < |r| - 1 {
          assert r[i] == g[i];
        } else {
          assert SameTurn(r[i], g[i]);
        }
      }
    } else {
      assert r == g + [s];
      forall i | 0 < i < |r| ensures !SameTurn(r[i - 1], r[i]) {
        if i < |r| - 1 {
          assert r[i - 1] == g[i - 1] && r[i] == g[i];
        }
      }
    }
  }

  /** The output of grouping has no two neighbours of one turn. */
  lemma {:induction false} GroupSeparated(segments: seq<Segment>)
    ensures Separated(Group(segments))
    decreases |segments|
  {
    if |segments| > 0 {
      GroupSeparated(segments[..|segments| - 1]);
      PushSeparated(Group(segments[..|segments| - 1]), segments[|segments| - 1]);
    }
  }

  /** Grouping a list that already has no two neighbours of one turn leaves it
      as it is. */
  lemma {:induction false} GroupSeparatedNoop(segments: seq<Segment>)
    requires Separated(segments)
    ensures Group(segments) == segments
    decreases |segments|
  {
    if |segments| > 0 {
      var init := segments[..|segments| - 1];
      assert Separated(init) by {
        forall i | 0 < i < |init| ensures !SameTurn(init[i - 1], init[i]) {
          assert init[i - 1] == segments[i - 1] && init[i] == segments[i];
        }
      }
      GroupSeparatedNoop(init);
      assert segments == init + [segments[|segments| - 1]];
    }
  }

  /** Grouping twice changes nothing more. */
  lemma GroupIdempotent(segments: seq<Segment>)
    ensures Group(Group(segments)) == Group(segments)
  {
    GroupSeparated(segments);
    GroupSeparatedNoop(Group(segments));
  }

  /** One round adds the segment's turn unless it repeats the last one. */
  lemma PushTurns(g: seq<Segment>, s: Segment)
    ensures var t := Turn(s.speaker, s.isProceduralSpeaker);
            Turns(Push(g, s)) == if |g| > 0 && Turns(g)[|g| - 1] == t then Turns(g) else Turns(g) + [t]
  {
    var t := Turn(s.speaker, s.isProceduralSpeaker);
    if |g| > 0 && SameTurn(g[|g| - 1], s) {
      var r := Push(g, s);
      assert |r| == |g|;
      assert forall i :: 0 <= i < |g| - 1 ==> r[i] == g[i];
      assert Turns(r) == Turns(g);
    } else {
      TurnsSnoc(g, s);
    }
  }

  /** The turns of the output are the turns of the input with each run of
      equal neighbours shrunk to one. */
  lemma {:induction false} GroupTurns(segments: seq<Segment>)
    ensures Turns(Group(segments)) == Squeeze(Turns(segments))
    decreases |segments|
  {
    if |segments| > 0 {
      var init := segments[..|segments| - 1];
      var s := segments[|segments| - 1];
      GroupTurns(init);
      assert segments == init + [s];
      TurnsSnoc(init, s);
      var ts := Turns(segments);
      assert ts[..|ts| - 1] == Turns(init);
      PushTurns(Group(init), s);
    }
  }

  /** One round adds the segment's text to the joined text. */
  lemma PushText(g: seq<Segment>, s: Segment)
    ensures JoinWith(Texts(Push(g, s)), Gap) ==
              if |g| == 0 then s.text else JoinWith(Texts(g), Gap) + Gap + s.text
  {
    if |g| > 0 && SameTurn(g[|g| - 1], s) {
      var front := g[..|g| - 1];
      var last := g[|g| - 1];
      assert g == front + [last];
      assert Texts(g) == Texts(front) + [last.text];
      assert Texts(Push(g, s)) == Texts(front) + [last.text + Gap + s.text];
      JoinWithSnoc(Texts(front), last.text, Gap);
      JoinWithSnoc(Texts(front), last.text + Gap + s.text, Gap);
    } else {
      assert Texts(Push(g, s)) == Texts(g) + [s.text];
      JoinWithSnoc(Texts(g), s.text, Gap);
    }
  }

  /** Joining all texts with the blank-line separator gives the same text
      before and after grouping: nothing is lost, reordered or added. */
  lemma {:induction false} GroupKeepsText(segments: seq<Segment>)
    ensures JoinWith(Texts(Group(segments)), Gap) == JoinWith(Texts(segments), Gap)
    decreases |segments|
  {
    if |segments| > 0 {
      var init := segments[..|segments| - 1];
      var s := segments[|segments| - 1];
      GroupKeepsText(init);
      assert segments == init + [s];
      assert Texts(segments) == Texts(init) + [s.text];
      JoinWithSnoc(Texts(init), s.text, Gap);
      PushText(Group(init), s);
    }
  }
}

=== FILE: markers.dfy ===
/** Page markers `[[Page S1234]]` and the text clean-up of src/lib/parser.ts:
    the page pattern (first marker of a line), the global marker removal and
    `cleanText`. */
module Markers {
  import opened Wrappers
  import opened Strings
  import Seqs

  /** The fixed opening of a marker. */
  const Opening: string := "[[Page "

  /** A complete marker: the opening, `S` or `H`, at least one digit, `]]`. */
  ghost predicate IsMarker(m: string) {
    && |m| >= 11
    && m[..7] == Opening
    && (m[7] == 'S' || m[7] == 'H')
    && AllDigits(m[8..|m| - 2])
    && m[|m| - 2..] == "]]"
  }

  /** The marker pattern tried at index `i`: the length of the marker that
      starts there, if any. The digit run is greedy and followed by `]`, which
      is not a digit, so the pattern has at most one match at `i`. */
  function MarkerAt(s: string, i: nat): (r: Option<nat>)
    ensures r.Some? ==> r.value >= 11 && i + r.value <= |s|
  {
    if OccursAt(s, Opening, i) && i + 7 < |s| && (s[i + 7] == 'S' || s[i + 7] == 'H') then
      var d := Span(s, i + 8, IsDigit);
      if d > 0 && OccursAt(s, "]]", i + 8 + d) then Some(10 + d) else None
    else None
  }

  /** What the matcher reports at `i` is a marker. */
  lemma MarkerAtSound(s: string, i: nat)
    requires MarkerAt(s, i).Some?
    ensures IsMarker(s[i..i + MarkerAt(s, i).value])
  {
    var n := MarkerAt(s, i).value;
    var d := Span(s, i + 8, IsDigit);
    assert n == 10 + d;
    var m := s[i..i + n];
    assert m[..7] == s[i..i + 7];
    var digits := m[8..|m| - 2];
    assert forall j :: 0 <= j < d ==> digits[j] == s[i + 8 + j];
    assert AllDigits(digits) by { SpanDigits(s, i + 8); }
    assert m[|m| - 2..] == s[i + 8 + d..i + 8 + d + 2];
  }

  /** Every marker in the text is found by the matcher at its position, with
      its length. */
  lemma MarkerAtComplete(s: string, i: nat, n: nat)
    requires i + n <= |s| && IsMarker(s[i..i + n])
    ensures MarkerAt(s, i) == Some(n)
  {
    var m := s[i..i + n];
    assert s[i..i + 7] == m[..7];
    assert s[i + 7] == m[7];
    var d := Span(s, i + 8, IsDigit);
    var digits := m[8..|m| - 2];
    assert forall j :: i + 8 <= j < i + n - 2 ==> IsDigit(s[j]) by {
      forall j | i + 8 <= j < i + n - 2 ensures IsDigit(s[j]) {
        assert s[j] == digits[j - i - 8];
      }
    }
    assert s[i + n - 2] == m[|m| - 2..][0];
    assert d == n - 10;
    assert s[i + 8 + d..i + 8 + d + 2] == m[|m| - 2..];
  }

  /** The matcher finds exactly the markers: it reports length `n` at `i` if
      and only if the `n` characters from `i` form a marker. */
  lemma MarkerAtIff(s: string, i: nat, n: nat)
    ensures MarkerAt(s, i) == Some(n) <==> i + n <= |s| && IsMarker(s[i..i + n])
  {
    if MarkerAt(s, i) == Some(n) {
      MarkerAtSound(s, i);
    }
    if i + n <= |s| && IsMarker(s[i..i + n]) {
      MarkerAtComplete(s, i, n);
    }
  }

  /** A marker starts with `[`. */
  lemma MarkerAtBracket(s: string, i: nat)
    ensures MarkerAt(s, i).Some? ==> i < |s| && s[i] == '['
  {
    if MarkerAt(s, i).Some? {
      assert s[i..i + 7][0] == '[';
    }
  }

  /** The page id inside the marker that starts at `i`: the letter and the
      digits. */
  function MarkerId(s: string, i: nat): (id: string)
    requires MarkerAt(s, i).Some?
    ensures |id| >= 2 && (id[0] == 'S' || id[0] == 'H') && AllDigits(id[1..])
    ensures Opening + id + "]]" == s[i..i + MarkerAt(s, i).value]
  {
    var n := MarkerAt(s, i).value;
    var id := s[i + 7..i + n - 2];
    assert s[i..i + n] == s[i..i + 7] + id + s[i + n - 2..i + n];
    assert forall j :: 1 <= j < |id| ==> id[j] == s[i + 7 + j];
    assert AllDigits(id[1..]) by {
      forall j | 0 <= j < |id| - 1 ensures IsDigit(id[1..][j]) {
        assert id[1..][j] == s[i + 8 + j];
      }
    }
    id
  }

  /** The leftmost marker at or after `from`, as its position. */
  function FirstMarkerFrom(s: string, from: nat): (r: Option<nat>)
    ensures r.Some? ==> from <= r.value < |s| && MarkerAt(s, r.value).Some?
    ensures r.Some? ==> forall j :: from <= j < r.value ==> MarkerAt(s, j).None?
    ensures r.None? ==> forall j :: from <= j ==> MarkerAt(s, j).None?
    decreases |s| - from
  {
    if from >= |s| then None
    else if MarkerAt(s, from).Some? then Some(from)
    else FirstMarkerFrom(s, from + 1)
  }

  /** `line.match(PAGE_PATTERN)`: the id of the leftmost marker in the line. */
  function FindPage(line: string): (r: Option<string>)
    ensures r.Some? <==> exists i :: MarkerAt(line, i).Some?
    ensures r.Some? ==> exists i: nat ::
              && MarkerAt(line, i).Some? && r.value == MarkerId(line, i)
              && forall j :: 0 <= j < i ==> MarkerAt(line, j).None?
  {
    match FirstMarkerFrom(line, 0)
    case Some(i) => Some(MarkerId(line, i))
    case None => None
  }

  /** `replace(/\[\[Page [SH]\d+\]\]/g, '')` from index `i`: markers are
      removed left to right without overlap; the text left behind is not
      searched again. */
  function RemoveMarkersFrom(s: string, i: nat): (r: string)
    ensures |r| <= |s| - i || (i > |s| && |r| == 0)
    decreases |s| - i
  {
    if i >= |s| then ""
    else match MarkerAt(s, i)
      case Some(n) => RemoveMarkersFrom(s, i + n)
      case None => [s[i]] + RemoveMarkersFrom(s, i + 1)
  }

  function RemoveMarkers(s: string): string {
    RemoveMarkersFrom(s, 0)
  }

  /** With no marker from `i` on, removal keeps the text from `i` unchanged. */
  lemma {:induction false} RemoveMarkersFromNone(s: string, i: nat)
    requires i <= |s|
    requires forall j :: i <= j ==> MarkerAt(s, j).None?
    ensures RemoveMarkersFrom(s, i) == s[i..]
    decreases |s| - i
  {
    if i < |s| {
      RemoveMarkersFromNone(s, i + 1);
      assert s[i..] == [s[i]] + s[i + 1..];
    }
  }

  /** A line without a page marker loses nothing to marker removal. */
  lemma RemoveMarkersNoPage(s: string)
    requires FindPage(s).None?
    ensures RemoveMarkers(s) == s
  {
    RemoveMarkersFromNone(s, 0);
  }

  /** A marker found at `i` is skipped as a whole. */
  lemma SkipMarker(s: string, i: nat, n: nat)
    requires i < |s| && MarkerAt(s, i) == Some(n)
    ensures RemoveMarkersFrom(s, i) == RemoveMarkersFrom(s, i + n)
  {
  }

  /** No marker starts in the tail `b` of `s` when `b` itself has none. */
  lemma NoMarkerInTail(s: string, b: string, j: nat)
    requires |b| <= |s| && s[|s| - |b|..] == b && FindPage(b).None?
    requires |s| - |b| <= j
    ensures MarkerAt(s, j).None?
  {
    var k := |s| - |b|;
    if j <= |s| {
      assert s[j..] == b[j - k..] by {
        assert s[j..] == s[k..][j - k..];
      }
      MarkerAtSuffix(s, j, b, j - k);
    }
  }

  /** The matcher looks only forward. */
  lemma MarkerAtSuffix(s: string, i: nat, t: string, j: nat)
    requires i <= |s| && j <= |t| && s[i..] == t[j..]
    ensures MarkerAt(s, i).Some? == MarkerAt(t, j).Some?
    ensures MarkerAt(s, i).Some? ==> MarkerAt(s, i).value == MarkerAt(t, j).value
    ensures MarkerAt(s, i) == MarkerAt(t, j)
  {
    forall n: nat ensures MarkerAt(s, i) == Some(n) <==> MarkerAt(t, j) == Some(n) {
      MarkerAtIff(s, i, n);
      MarkerAtIff(t, j, n);
      if i + n <= |s| {
        assert s[i..i + n] == s[i..][..n] == t[j..][..n] == t[j..j + n];
      }
    }
  }

  /** The matcher agrees on a text and its prefix for markers inside the prefix. */
  lemma MarkerAtPrefix(a: string, x: string, j: nat, n: nat)
    requires j + n <= |a|
    ensures MarkerAt(a + x, j) == Some(n) <==> MarkerAt(a, j) == Some(n)
  {
    MarkerAtIff(a + x, j, n);
    MarkerAtIff(a, j, n);
    assert (a + x)[j..j + n] == a[j..j + n];
  }

  /** A character where no marker starts is kept. */
  lemma KeepChar(s: string, i: nat)
    requires i < |s| && MarkerAt(s, i).None?
    ensures RemoveMarkersFrom(s, i) == [s[i]] + RemoveMarkersFrom(s, i + 1)
  {
  }

  /** Where no marker starts, removal copies the text. */
  lemma {:induction false} RemoveMarkersPlain(s: string, i: nat, j: nat)
    requires i <= j <= |s|
    requires forall q :: i <= q < j ==> MarkerAt(s, q).None?
    ensures RemoveMarkersFrom(s, i) == s[i..j] + RemoveMarkersFrom(s, j)
    decreases j - i
  {
    if i < j {
      KeepChar(s, i);
      RemoveMarkersPlain(s, i + 1, j);
      assert s[i..j] == [s[i]] + s[i + 1..j];
      Seqs.Assoc([s[i]], s[i + 1..j], RemoveMarkersFrom(s, j));
    }
  }

  /** Past the second character, a marker holds no `[`. */
  lemma MarkerBrackets(m: string, q: nat)
    requires 2 <= q < |m|
    ensures IsMarker(m) ==> m[q] != '['
  {
    if IsMarker(m) {
      if q < 7 {
        assert m[q] == m[..7][q];
      } else if q >= |m| - 2 {
        assert m[q] == m[|m| - 2..][q - (|m| - 2)];
      } else if q > 7 {
        assert m[q] == m[8..|m| - 2][q - 8];
      }
    }
  }

  /** A text with `[` after its first character, followed by another `[`
      unless it ends there, is no marker. */
  lemma NotMarkerStraddle(w: string, q: nat)
    requires 1 <= q < |w| && w[q] == '['
    requires q + 1 < |w| ==> w[q + 1] == '['
    ensures !IsMarker(w)
  {
    if q == 1 {
      assert |w| >= 7 ==> w[..7][2] == w[2];
    } else {
      MarkerBrackets(w, q);
    }
  }

  /** In front of a marker, a text without markers gains none: a marker
      starting in it would have to run into the `[[` that follows. */
  lemma NoMarkerBefore(a: string, m: string, b: string, j: nat)
    requires FindPage(a).None? && IsMarker(m) && j < |a|
    ensures MarkerAt(a + m + b, j).None?
  {
    var s := a + m + b;
    assert m[0] == '[' && m[1] == '[' by { assert m[..7] == Opening; }
    forall n: nat ensures MarkerAt(s, j) != Some(n) {
      MarkerAtIff(s, j, n);
      if j + n <= |a| {
        assert s == a + (m + b);
        MarkerAtPrefix(a, m + b, j, n);
      } else if j + n <= |s| {
        var w := s[j..j + n];
        var q := |a| - j;
        assert w[q] == m[0];
        if q + 1 < |w| {
          assert w[q + 1] == m[1];
        }
        NotMarkerStraddle(w, q);
      }
    }
  }

  /** Removing the markers of a text made of a marker-free part, a marker and
      any rest drops that marker and goes on with the rest on its own. */
  lemma RemoveOneMarker(a: string, m: string, b: string)
    requires IsMarker(m) && FindPage(a).None?
    ensures RemoveMarkers(a + m + b) == a + RemoveMarkers(b)
  {
    var s := a + m + b;
    var i, e := |a|, |a| + |m|;
    RemoveBeforeMarker(a, m, b);
    MarkerInMiddle(a, m, b);
    Advance(s, i, e);
    assert b[0..] == b;
    RemoveMarkersSuffix(s, e, b, 0);
  }

  lemma MarkerInMiddle(a: string, m: string, b: string)
    requires IsMarker(m)
    ensures |a| + |m| + |b| == |a + m + b| && MarkerAt(a + m + b, |a|) == Some(|m|)
    ensures (a + m + b)[|a| + |m|..] == b
  {
    var s := a + m + b;
    assert s[|a|..|a| + |m|] == m;
    MarkerAtComplete(s, |a|, |m|);
  }

  /** Removal looks only forward: two texts that agree from some point on
      lose the same markers from there. */
  lemma {:induction false} RemoveMarkersSuffix(s: string, k: nat, t: string, j: nat)
    requires k <= |s| && j <= |t| && s[k..] == t[j..]
    ensures RemoveMarkersFrom(s, k) == RemoveMarkersFrom(t, j)
    decreases |s| - k
  {
    if k < |s| {
      MarkerAtSuffix(s, k, t, j);
      var n := if MarkerAt(s, k).Some? then MarkerAt(s, k).value else 1;
      SuffixShift(s, k, t, j, n);
      var k', j' := k + n, j + n;
      RemoveMarkersSuffix(s, k', t, j');
      SameStep(s, k, t, j, n, k', j');
    } else {
      assert |t[j..]| == 0;
    }
  }

  /** One step of removal on two texts whose next marker, or next character,
      is the same, and whose removals agree after it. */
  lemma SameStep(s: string, k: nat, t: string, j: nat, n: nat, k': nat, j': nat)
    requires k < |s| && j < |t| && s[k] == t[j] && MarkerAt(s, k) == MarkerAt(t, j)
    requires n == if MarkerAt(s, k).Some? then MarkerAt(s, k).value else 1
    requires k' == k + n && j' == j + n
    requires RemoveMarkersFrom(s, k') == RemoveMarkersFrom(t, j')
    ensures RemoveMarkersFrom(s, k) == RemoveMarkersFrom(t, j)
  {
    Advance(s, k, k');
    Advance(t, j, j');
  }

  /** One step of removal: past the marker starting at `i`, or past the
      character there, which is kept. */
  lemma Advance(s: string, i: nat, i': nat)
    requires i < |s| && i' == i + (if MarkerAt(s, i).Some? then MarkerAt(s, i).value else 1)
    ensures RemoveMarkersFrom(s, i) ==
              if MarkerAt(s, i).Some? then RemoveMarkersFrom(s, i') else [s[i]] + RemoveMarkersFrom(s, i')
  {
  }

  /** Texts that agree from some point on agree further on, and at that point. */
  lemma SuffixShift(s: string, k: nat, t: string, j: nat, n: nat)
    requires k + n <= |s| && j <= |t| && s[k..] == t[j..] && 0 < n
    ensures j + n <= |t| && s[k + n..] == t[j + n..] && s[k] == t[j]
  {
    assert s[k..][n..] == s[k + n..];
    assert t[j..][n..] == t[j + n..];
    assert s[k..][0] == t[j..][0];
  }

  /** The marker-free text in front of a marker is copied. */
  lemma RemoveBeforeMarker(a: string, m: string, b: string)
    requires IsMarker(m) && FindPage(a).None?
    ensures RemoveMarkersFrom(a + m + b, 0) == a + RemoveMarkersFrom(a + m + b, |a|)
  {
    var s := a + m + b;
    forall q | 0 <= q < |a| ensures MarkerAt(s, q).None? {
      NoMarkerBefore(a, m, b, q);
    }
    RemoveMarkersPlain(s, 0, |a|);
    assert s[0..|a|] == a;
  }

  /** `cleanText`: collapse white-space runs to one space, remove page
      markers, trim. */
  function CleanText(text: string): (r: string)
    ensures |r| == 0 || (!IsWs(r[0]) && !IsWs(r[|r| - 1]))
  {
    Trim(RemoveMarkers(CollapseWs(text)))
  }

  /** A text whose collapsed form is a marker-free part, a marker and a rest
      is cleaned to the part followed by the rest with its markers removed,
      trimmed: the marker is gone and nothing else of the part is touched. */
  lemma CleanTextDropsMarker(text: string, a: string, m: string, b: string)
    requires IsMarker(m) && FindPage(a).None?
    requires CollapseWs(text) == a + m + b
    ensures CleanText(text) == Trim(a + RemoveMarkers(b))
  {
    RemoveOneMarker(a, m, b);
  }

  /** Without page markers, cleaning is collapsing and trimming: the result is
      single-spaced, has no white space at either end, and keeps every
      non-white-space character of the input in order. */
  lemma CleanTextWithoutMarkers(text: string)
    requires FindPage(CollapseWs(text)).None?
    ensures CleanText(text) == Trim(CollapseWs(text))
    ensures SingleSpaced(CleanText(text))
    ensures NonWs(CleanText(text)) == NonWs(text)
  {
    var c := CollapseWs(text);
    RemoveMarkersNoPage(c);
    CollapseWsSingleSpaced(text);
    CollapseWsKeepsContent(text);
    TrimSingleSpaced(c);
    TrimKeepsContent(c);
  }
}

=== FILE: scanner.dfy ===
/** The line scanner of `parseCongressionalRecordHtml` in src/lib/parser.ts:
    one pass over the lines of the record, each line being a page marker, a
    speaker line, a continuation of the current speech, or a possible
    agenda heading before anyone speaks. */
module Scanner {
  import opened Wrappers
  import opened Strings
  import Seqs
  import opened Agenda
  import opened Markers
  import opened SpeakerLines

  datatype Chamber = Senate | House

  /** One uninterrupted speech. */
  datatype Segment = Segment(speaker: string, text: string, pageNumber: string, isProceduralSpeaker: bool)

  /** What the scan has gathered so far: the current speaker (`null` before
      the first speaker line), their text, the current page, their procedural
      flag, and the segments, agenda items and pages found. */
  datatype ScanState = ScanState(
    speaker: Option<string>, text: string, page: string, procedural: bool,
    segments: seq<Segment>, items: seq<AgendaItem>, pages: seq<string>)

  datatype Transcript = Transcript(
    segments: seq<Segment>, agendaItems: seq<AgendaItem>, chamber: Chamber, date: string, pages: seq<string>)

  const Start: ScanState := ScanState(None, "", "", false, [], [], [])

  /** When the speech in progress is saved. The source saves it when its raw
      text is not all white space (`TrimmedText`), although what it saves is
      the cleaned text, which can then be empty; `CleanedText` is the rule the
      non-empty-text promise needs: save when the cleaned text is not empty. */
  datatype FlushRule = TrimmedText | CleanedText

  predicate Saves(rule: FlushRule, text: string) {
    match rule
    case TrimmedText => Trim(text) != ""
    case CleanedText => CleanText(text) != ""
  }

  /** The segments once the current speech is saved: only when there is a
      speaker and the rule accepts their text. */
  function Flush(st: ScanState, rule: FlushRule): (segs: seq<Segment>)
    ensures |st.segments| <= |segs| <= |st.segments| + 1
    ensures segs[..|st.segments|] == st.segments
    ensures |segs| > |st.segments| ==> st.speaker.Some? && Saves(rule, st.text)
  {
    if st.speaker.Some? && Saves(rule, st.text) then
      st.segments + [Segment(st.speaker.value, CleanText(st.text), st.page, st.procedural)]
    else st.segments
  }

  /** The agenda items with the detection, if any, added at segment index `at`. */
  function AddItem(items: seq<AgendaItem>, d: Option<Detection>, at: nat): seq<AgendaItem> {
    match d
    case Some(x) => items + [AgendaItem(x.title, x.kind, x.billNumber, at)]
    case None => items
  }

  /** The agenda item a line announces: for a speaker line, the text after
      the name; before anyone speaks, a line whose trimmed text is longer than
      ten characters; page lines and continuation lines announce none. */
  function LineDetection(line: string, speaking: bool): Option<Detection> {
    if IsPageLine(line) then None
    else if IsSpeakerLine(line) then DetectAgendaItem(Remainder(line, MatchSpeaker(line).value))
    else if !speaking && |Trim(line)| > 10 then DetectAgendaItem(line)
    else None
  }

  /** The page marker test comes first, then the speaker test; other lines
      either continue the current speech or, before any speaker, may be an
      agenda heading longer than ten characters. Segments and agenda items
      are only ever added, one at a time; a segment is saved only at a
      speaker line while someone is speaking; only a page line moves the
      page. */
  function Step(st: ScanState, line: string, rule: FlushRule): (r: ScanState)
    ensures st.segments <= r.segments && |r.segments| <= |st.segments| + 1
    ensures |r.segments| > |st.segments| ==> st.speaker.Some? && IsSpeakerLine(line)
    ensures st.items <= r.items && |r.items| <= |st.items| + 1
    ensures r.speaker.Some? <==> st.speaker.Some? || IsSpeakerLine(line)
    ensures !IsPageLine(line) ==> r.page == st.page && r.pages == st.pages
    ensures r.items == AddItem(st.items, LineDetection(line, st.speaker.Some?), |r.segments|)
  {
    match FindPage(line)
    case Some(id) =>
      st.(page := id, pages := if id in st.pages then st.pages else st.pages + [id])
    case None =>
      match MatchSpeaker(line)
      case Some(m) =>
        var segs := Flush(st, rule);
        var rest := Remainder(line, m);
        ScanState(Some(Label(m)), rest, st.page, IsProcedural(m.name),
                  segs, AddItem(st.items, DetectAgendaItem(rest), |segs|), st.pages)
      case None =>
        if st.speaker.Some? then st.(text := st.text + " " + Trim(line))
        else if |Trim(line)| > 10 then st.(items := AddItem(st.items, DetectAgendaItem(line), |st.segments|))
        else st
  }

  /** The state after the loop over `lines`: someone is speaking exactly
      when some line was a speaker line, and the saved segments plus the
      speech in progress never outnumber the speaker lines. */
  function Scan(lines: seq<string>, rule: FlushRule): (r: ScanState)
    ensures r.speaker.None? <==> CountSpeakerLines(lines) == 0
    ensures |r.segments| + (if r.speaker.Some? then 1 else 0) <= CountSpeakerLines(lines)
    decreases |lines|
  {
    if |lines| == 0 then Start else Step(Scan(lines[..|lines| - 1], rule), lines[|lines| - 1], rule)
  }

  /** The transcript of a list of lines: the last speech is saved, agenda
      items are de-duplicated, the date is left for the caller. Its segments
      are those of the record's blocks (see `SavedSegments`): one per speaker
      line whose speech the rule accepts, in order, each with the speaker of
      its line, the cleaned speech up to the next speaker line and the page
      current at that point. Its agenda items are those the lines announce
      (see `DetectedItems`), de-duplicated by title. Its pages are the page
      ids, each once, in order of first appearance. */
  function ParseLines(lines: seq<string>, chamber: Chamber, rule: FlushRule): (r: Transcript)
    ensures r.segments == SavedSegments(lines, rule)
    ensures r.pages == Seqs.Dedup(PageIds(lines))
    ensures r.agendaItems == DeduplicateAgendaItems(DetectedItems(lines, rule))
    ensures |r.segments| <= CountSpeakerLines(lines)
    ensures r.chamber == chamber && r.date == ""
  {
    var st := Scan(lines, rule);
    ScanFollows(lines, rule);
    ScanItems(lines, rule);
    ScanPages(lines, rule);
    FlushFollows(lines, st, rule);
    Transcript(Flush(st, rule), DeduplicateAgendaItems(st.items), chamber, "", st.pages)
  }

  /** The text of the `<pre>` blocks, each followed by a line break. */
  function JoinBlocks(blocks: seq<string>): string
    decreases |blocks|
  {
    if |blocks| == 0 then "" else JoinBlocks(blocks[..|blocks| - 1]) + blocks[|blocks| - 1] + "\n"
  }

  /** The content the scan reads: the `<pre>` texts, or the body text when
      they are all white space. */
  function Content(blocks: seq<string>, body: string): string {
    var content := JoinBlocks(blocks);
    if Trim(content) == "" then body else content
  }

  /** `parseCongressionalRecordHtml` once the HTML is read: `blocks` are the
      texts of the `<pre>` elements and `body` the text of `<body>`. The
      record is read from its `<pre>` blocks unless every one of them is
      white space, and then from its body. */
  function ParseRecord(blocks: seq<string>, body: string, chamber: Chamber, rule: FlushRule): (r: Transcript)
    ensures (forall k :: 0 <= k < |blocks| ==> AllWs(blocks[k])) ==>
              r == ParseLines(SplitOn(body, "\n"), chamber, rule)
    ensures (exists k :: 0 <= k < |blocks| && !AllWs(blocks[k])) ==>
              r == ParseLines(SplitOn(JoinBlocks(blocks), "\n"), chamber, rule)
  {
    JoinBlocksAllWs(blocks);
    ParseLines(SplitOn(Content(blocks, body), "\n"), chamber, rule)
  }

  /** Text made only of white space, block by block. */
  lemma {:induction false} JoinBlocksAllWs(blocks: seq<string>)
    ensures AllWs(JoinBlocks(blocks)) <==> forall k :: 0 <= k < |blocks| ==> AllWs(blocks[k])
    decreases |blocks|
  {
    if |blocks| > 0 {
      var init, last := blocks[..|blocks| - 1], blocks[|blocks| - 1];
      JoinBlocksAllWs(init);
      AllWsAppend(JoinBlocks(init) + last, "\n");
      AllWsAppend(JoinBlocks(init), last);
      assert forall k :: 0 <= k < |init| ==> init[k] == blocks[k];
    }
  }

  // ---------------------------------------------------------------------------
  // Line kinds
  // ---------------------------------------------------------------------------

  predicate IsPageLine(line: string) {
    FindPage(line).Some?
  }

  /** A speaker line that is not also a page line. */
  predicate IsSpeakerLine(line: string) {
    FindPage(line).None? && MatchSpeaker(line).Some?
  }

  /** The page ids of the page lines, in order. */
  function PageIds(lines: seq<string>): seq<string>
    decreases |lines|
  {
    if |lines| == 0 then []
    else
      var ids := PageIds(lines[..|lines| - 1]);
      match FindPage(lines[|lines| - 1])
      case Some(id) => ids + [id]
      case None => ids
  }

  /** The id of the last page line, or the empty string. */
  function LastPage(lines: seq<string>): string
    decreases |lines|
  {
    if |lines| == 0 then ""
    else
      match FindPage(lines[|lines| - 1])
      case Some(id) => id
      case None => LastPage(lines[..|lines| - 1])
  }

  function CountSpeakerLines(lines: seq<string>): nat {
    Seqs.CountWhere(lines, IsSpeakerLine)
  }

  // ---------------------------------------------------------------------------
  // Single steps
  // ---------------------------------------------------------------------------

  /** A page line touches nothing but the current page and the page list,
      which gains the id exactly when it is new. */
  lemma PageLineStep(st: ScanState, line: string, rule: FlushRule)
    requires IsPageLine(line)
    ensures var st' := Step(st, line, rule);
            && st'.page == FindPage(line).value
            && (st'.pages == st.pages <==> FindPage(line).value in st.pages)
            && st'.speaker == st.speaker && st'.text == st.text && st'.procedural == st.procedural
            && st'.segments == st.segments && st'.items == st.items
  {
  }

  /** A continuation line adds every visible character of the line to the
      current speech, after those already there, and nothing else changes. */
  lemma ContinuationStep(st: ScanState, line: string, rule: FlushRule)
    requires st.speaker.Some? && !IsPageLine(line) && MatchSpeaker(line).None?
    ensures NonWs(Step(st, line, rule).text) == NonWs(st.text) + NonWs(line)
    ensures Step(st, line, rule).(text := st.text) == st
  {
    assert Step(st, line, rule) == st.(text := st.text + " " + Trim(line));
    JoinKeepsContent(st.text, line);
  }

  /** Joining with a space and the trimmed line keeps the visible characters
      of both. */
  lemma JoinKeepsContent(text: string, line: string)
    ensures NonWs(text + " " + Trim(line)) == NonWs(text) + NonWs(line)
  {
    var a, t := text + " ", Trim(line);
    NonWsAppend(a, t);
    NonWsAppend(text, " ");
    NonWsOfAllWs(" ");
    TrimKeepsContent(line);
    assert NonWs(a + t) == NonWs(a) + NonWs(t);
    assert NonWs(a) == NonWs(text);
    assert NonWs(t) == NonWs(line);
  }

  // ---------------------------------------------------------------------------
  // What the scan keeps true
  // ---------------------------------------------------------------------------

  lemma PrefixOfSnoc(lines: seq<string>)
    requires |lines| > 0
    ensures lines == lines[..|lines| - 1] + [lines[|lines| - 1]]
  {
  }

  /** The page list holds each page id once, in order of first appearance,
      and the current page is that of the last page line. */
  lemma {:induction false} ScanPages(lines: seq<string>, rule: FlushRule)
    ensures Scan(lines, rule).pages == Seqs.Dedup(PageIds(lines))
    ensures Scan(lines, rule).page == LastPage(lines)
    decreases |lines|
  {
    if |lines| > 0 {
      var init, line := lines[..|lines| - 1], lines[|lines| - 1];
      ScanPages(init, rule);
      StepPages(Scan(init, rule), line, rule);
      match FindPage(line)
      case Some(id) =>
        Seqs.DedupSnoc(PageIds(init), id);
        assert PageIds(lines) == PageIds(init) + [id];
        assert LastPage(lines) == id;
      case None =>
        assert PageIds(lines) == PageIds(init);
        assert LastPage(lines) == LastPage(init);
    }
  }

  /** A page line adds its id, when new, and makes it current; other lines
      leave both alone. */
  lemma StepPages(st: ScanState, line: string, rule: FlushRule)
    ensures FindPage(line).Some? ==>
              && Step(st, line, rule).page == FindPage(line).value
              && Step(st, line, rule).pages ==
                   if FindPage(line).value in st.pages then st.pages else st.pages + [FindPage(line).value]
    ensures FindPage(line).None? ==> Step(st, line, rule).page == st.page && Step(st, line, rule).pages == st.pages
  {
  }

  /** The current page, when there is one, is in the page list. */
  lemma {:induction false} LastPageListed(lines: seq<string>)
    ensures LastPage(lines) == "" || LastPage(lines) in PageIds(lines)
    decreases |lines|
  {
    if |lines| > 0 {
      LastPageListed(lines[..|lines| - 1]);
    }
  }

  /** There is a current speaker exactly when some line was a speaker line. */
  lemma {:induction false} ScanSpeaker(lines: seq<string>, rule: FlushRule)
    ensures Scan(lines, rule).speaker.None? <==> CountSpeakerLines(lines) == 0
    decreases |lines|
  {
    if |lines| > 0 {
      var init := lines[..|lines| - 1];
      ScanSpeaker(init, rule);
      StepSpeaker(Scan(init, rule), lines[|lines| - 1], rule);
    }
  }

  lemma StepSpeaker(st: ScanState, line: string, rule: FlushRule)
    ensures Step(st, line, rule).speaker.None? <==> st.speaker.None? && !IsSpeakerLine(line)
  {
  }

  lemma StepBeforeSpeaker(st: ScanState, line: string, rule: FlushRule)
    requires st.speaker.None? && st.segments == []
    requires forall k :: 0 <= k < |st.items| ==> st.items[k].startSegmentIndex == 0
    ensures Step(st, line, rule).speaker.None? ==>
              Step(st, line, rule).segments == [] &&
              forall k :: 0 <= k < |Step(st, line, rule).items| ==> Step(st, line, rule).items[k].startSegmentIndex == 0
  {
    var st' := Step(st, line, rule);
    match FindPage(line)
    case Some(id) =>
      assert st'.items == st.items && st'.segments == st.segments;
    case None =>
      match MatchSpeaker(line)
      case Some(m) =>
        assert st'.speaker.Some?;
      case None =>
        if |Trim(line)| > 10 {
          assert st'.items == AddItem(st.items, DetectAgendaItem(line), 0);
        } else {
          assert st' == st;
        }
  }

  /** Until someone speaks, no segment exists and every agenda item points at
      segment 0. */
  lemma {:induction false} ScanBeforeSpeaker(lines: seq<string>, rule: FlushRule)
    ensures Scan(lines, rule).speaker.None? ==>
              Scan(lines, rule).segments == [] && forall k :: 0 <= k < |Scan(lines, rule).items| ==> Scan(lines, rule).items[k].startSegmentIndex == 0
    decreases |lines|
  {
    if |lines| > 0 {
      var init := lines[..|lines| - 1];
      ScanBeforeSpeaker(init, rule);
      StepSpeaker(Scan(init, rule), lines[|lines| - 1], rule);
      if Scan(init, rule).speaker.None? {
        StepBeforeSpeaker(Scan(init, rule), lines[|lines| - 1], rule);
      }
    }
  }

  /** Agenda items are never ahead of the segments and their indices never
      decrease. */
  ghost predicate ItemsInOrder(items: seq<AgendaItem>, bound: nat) {
    && (forall k :: 0 <= k < |items| ==> items[k].startSegmentIndex <= bound)
    && (forall k, l :: 0 <= k < l < |items| ==> items[k].startSegmentIndex <= items[l].startSegmentIndex)
  }

  lemma AddItemInOrder(items: seq<AgendaItem>, d: Option<Detection>, at: nat, bound: nat)
    requires ItemsInOrder(items, at) && at <= bound
    ensures ItemsInOrder(AddItem(items, d, at), bound)
  {
  }

  lemma {:induction false} ScanItemsInOrder(lines: seq<string>, rule: FlushRule)
    ensures ItemsInOrder(Scan(lines, rule).items, |Scan(lines, rule).segments|)
    decreases |lines|
  {
    if |lines| > 0 {
      var init := lines[..|lines| - 1];
      ScanItemsInOrder(init, rule);
      StepItemsInOrder(Scan(init, rule), lines[|lines| - 1], rule);
    }
  }

  lemma StepItemsInOrder(st: ScanState, line: string, rule: FlushRule)
    requires ItemsInOrder(st.items, |st.segments|)
    ensures ItemsInOrder(Step(st, line, rule).items, |Step(st, line, rule).segments|)
  {
    var st' := Step(st, line, rule);
    match FindPage(line)
    case Some(_) =>
      assert st'.items == st.items && st'.segments == st.segments;
    case None =>
      match MatchSpeaker(line)
      case Some(m) =>
        var segs := Flush(st, rule);
        assert st'.items == AddItem(st.items, DetectAgendaItem(Remainder(line, m)), |segs|) && st'.segments == segs;
        AddItemInOrder(st.items, DetectAgendaItem(Remainder(line, m)), |segs|, |segs|);
      case None =>
        assert st'.segments == st.segments;
        if st.speaker.None? && |Trim(line)| > 10 {
          assert st'.items == AddItem(st.items, DetectAgendaItem(line), |st.segments|);
          AddItemInOrder(st.items, DetectAgendaItem(line), |st.segments|, |st.segments|);
        } else {
          assert st'.items == st.items;
        }
  }

  /** Saved segments plus the speech in progress never outnumber the speaker
      lines. */
  lemma {:induction false} ScanSegmentCount(lines: seq<string>, rule: FlushRule)
    ensures |Scan(lines, rule).segments| + (if Scan(lines, rule).speaker.Some? then 1 else 0) <= CountSpeakerLines(lines)
    decreases |lines|
  {
    if |lines| > 0 {
      ScanSegmentCount(lines[..|lines| - 1], rule);
    }
  }

  /** A speaker label is an honorific, a space and a name, and the flag is
      the procedural test on that name. */
  ghost predicate Labelled(speaker: string, flag: bool) {
    exists k, name :: 0 <= k < |Honorifics| && speaker == Honorifics[k] + " " + name && flag == IsProcedural(name)
  }

  /** A saved segment: its text is cleaned (no white space at either end),
      its page is empty or a listed page, and its label and flag agree. */
  ghost predicate GoodSegment(seg: Segment, pages: seq<string>) {
    && (|seg.text| == 0 || (!IsWs(seg.text[0]) && !IsWs(seg.text[|seg.text| - 1])))
    && (seg.pageNumber == "" || seg.pageNumber in pages)
    && Labelled(seg.speaker, seg.isProceduralSpeaker)
  }

  ghost predicate GoodState(st: ScanState) {
    && (st.page == "" || st.page in st.pages)
    && (forall k :: 0 <= k < |st.segments| ==> GoodSegment(st.segments[k], st.pages))
    && (st.speaker.Some? ==> Labelled(st.speaker.value, st.procedural))
  }

  lemma LabelOfMatch(m: SpeakerMatch)
    requires m.title in Honorifics
    ensures Labelled(Label(m), IsProcedural(m.name))
  {
    var k :| 0 <= k < |Honorifics| && Honorifics[k] == m.title;
    assert Label(m) == Honorifics[k] + " " + m.name;
  }

  lemma FlushGood(st: ScanState, rule: FlushRule)
    requires GoodState(st)
    ensures forall k :: 0 <= k < |Flush(st, rule)| ==> GoodSegment(Flush(st, rule)[k], st.pages)
  {
  }

  lemma GoodSegmentsGrow(segs: seq<Segment>, pages: seq<string>, id: string)
    requires forall k :: 0 <= k < |segs| ==> GoodSegment(segs[k], pages)
    ensures forall k :: 0 <= k < |segs| ==> GoodSegment(segs[k], pages + [id])
  {
    forall k | 0 <= k < |segs| ensures GoodSegment(segs[k], pages + [id]) {
      assert segs[k].pageNumber in pages ==> segs[k].pageNumber in pages + [id];
    }
  }

  lemma StepGood(st: ScanState, line: string, rule: FlushRule)
    requires GoodState(st)
    ensures GoodState(Step(st, line, rule))
  {
    var st' := Step(st, line, rule);
    match FindPage(line)
    case Some(id) =>
      if id !in st.pages {
        GoodSegmentsGrow(st.segments, st.pages, id);
      }
    case None =>
      match MatchSpeaker(line)
      case Some(m) =>
        FlushGood(st, rule);
        LabelOfMatch(m);
        assert st' == ScanState(Some(Label(m)), st'.text, st.page, IsProcedural(m.name), Flush(st, rule), st'.items, st.pages);
        SpeakerStateGood(st, m, st'.text, Flush(st, rule), st'.items);
      case None =>
        assert st' == st.(text := st'.text, items := st'.items);
  }

  /** The state just after a speaker line is good when the saved segments are. */
  lemma SpeakerStateGood(st: ScanState, m: SpeakerMatch, text: string, segs: seq<Segment>, items: seq<AgendaItem>)
    requires GoodState(st) && Labelled(Label(m), IsProcedural(m.name))
    requires forall k :: 0 <= k < |segs| ==> GoodSegment(segs[k], st.pages)
    ensures GoodState(ScanState(Some(Label(m)), text, st.page, IsProcedural(m.name), segs, items, st.pages))
  {
  }

  lemma {:induction false} ScanGood(lines: seq<string>, rule: FlushRule)
    ensures GoodState(Scan(lines, rule))
    decreases |lines|
  {
    if |lines| > 0 {
      ScanGood(lines[..|lines| - 1], rule);
      StepGood(Scan(lines[..|lines| - 1], rule), lines[|lines| - 1], rule);
    }
  }

  // ---------------------------------------------------------------------------
  // The segments, block by block
  // ---------------------------------------------------------------------------

  /** The index of the last speaker line, if any. */
  function LastSpeakerLine(lines: seq<string>): Option<nat> {
    Seqs.LastWhere(lines, IsSpeakerLine)
  }

  /** What a line after the speaker line adds to the speech: nothing for a
      page line, otherwise a space and the trimmed line. */
  function Piece(line: string): string {
    if IsPageLine(line) then "" else " " + Trim(line)
  }

  function Pieces(lines: seq<string>): string
    decreases |lines|
  {
    if |lines| == 0 then "" else Pieces(lines[..|lines| - 1]) + Piece(lines[|lines| - 1])
  }

  /** The speech of a block: what follows the speaker's name on its first
      line, then the pieces of the lines after it. */
  function Speech(block: seq<string>): string
    requires |block| > 0 && IsSpeakerLine(block[0])
  {
    Remainder(block[0], MatchSpeaker(block[0]).value) + Pieces(block[1..])
  }

  /** The segment of a block read while `page` is the current page. */
  function BlockSegment(block: seq<string>, page: string): Segment
    requires |block| > 0 && IsSpeakerLine(block[0])
  {
    var m := MatchSpeaker(block[0]).value;
    Segment(Label(m), CleanText(Speech(block)), page, IsProcedural(m.name))
  }

  /** The segments of a record read as blocks, each starting at a speaker
      line: the last block runs to the end and is saved, on the page of the
      last page line, when the rule accepts its speech; the earlier ones are
      the segments of the record up to the last speaker line. */
  function SavedSegments(lines: seq<string>, rule: FlushRule): seq<Segment>
    decreases |lines|
  {
    match LastSpeakerLine(lines)
    case None => []
    case Some(i) =>
      SavedSegments(lines[..i], rule) +
      (if Saves(rule, Speech(lines[i..])) then [BlockSegment(lines[i..], LastPage(lines))] else [])
  }

  /** The agenda items of a record, line by line: each line adds the item
      it announces (see `LineDetection`; it speaks after a speaker line),
      pointing at the number of segments saved before that line. */
  function DetectedItems(lines: seq<string>, rule: FlushRule): seq<AgendaItem>
    decreases |lines|
  {
    if |lines| == 0 then []
    else
      var init := lines[..|lines| - 1];
      AddItem(DetectedItems(init, rule), LineDetection(lines[|lines| - 1], LastSpeakerLine(init).Some?),
              |SavedSegments(init, rule)|)
  }

  /** The scan's state against the blocks: before any speaker line there is
      no speaker and no segment; after one, the speaker, flag and text are
      those of the last block and the segments are those of the record up to
      it. */
  ghost predicate FollowsBlocks(lines: seq<string>, st: ScanState, rule: FlushRule) {
    match LastSpeakerLine(lines)
    case None => st.speaker.None? && st.segments == []
    case Some(i) =>
      var m := MatchSpeaker(lines[i]).value;
      && st.speaker == Some(Label(m)) && st.procedural == IsProcedural(m.name)
      && st.text == Speech(lines[i..]) && st.segments == SavedSegments(lines[..i], rule)
  }

  lemma {:induction false} SpeechSnoc(block: seq<string>, line: string)
    requires |block| > 0 && IsSpeakerLine(block[0])
    ensures Speech(block + [line]) == Speech(block) + Piece(line)
  {
    var rest, first := block[1..], block[0];
    var r := Remainder(first, MatchSpeaker(first).value);
    assert (block + [line])[0] == first;
    assert (block + [line])[1..] == rest + [line];
    PiecesSnoc(rest, line);
    Seqs.Assoc(r, Pieces(rest), Piece(line));
  }

  lemma PiecesSnoc(lines: seq<string>, line: string)
    ensures Pieces(lines + [line]) == Pieces(lines) + Piece(line)
  {
    assert (lines + [line])[..|lines|] == lines;
  }

  /** Saving the speech in progress yields the segments of the blocks. */
  lemma FlushFollows(lines: seq<string>, st: ScanState, rule: FlushRule)
    requires FollowsBlocks(lines, st, rule) && st.page == LastPage(lines)
    ensures Flush(st, rule) == SavedSegments(lines, rule)
  {
    match LastSpeakerLine(lines)
    case None =>
      assert SavedSegments(lines, rule) == [];
    case Some(i) =>
      var m := MatchSpeaker(lines[i]).value;
      assert BlockSegment(lines[i..], LastPage(lines)) == Segment(st.speaker.value, CleanText(st.text), st.page, st.procedural);
  }

  /** What a step does to the speaker, flag, text and segments: a speaker
      line starts a new speech after saving the one in progress; any other
      line adds its piece to the speech in progress, if there is one. */
  lemma StepSpeech(st: ScanState, line: string, rule: FlushRule)
    ensures IsSpeakerLine(line) ==>
              var m := MatchSpeaker(line).value;
              && Step(st, line, rule).speaker == Some(Label(m))
              && Step(st, line, rule).procedural == IsProcedural(m.name)
              && Step(st, line, rule).text == Remainder(line, m)
              && Step(st, line, rule).segments == Flush(st, rule)
    ensures !IsSpeakerLine(line) ==>
              && Step(st, line, rule).speaker == st.speaker
              && Step(st, line, rule).procedural == st.procedural
              && Step(st, line, rule).segments == st.segments
              && (st.speaker.Some? ==> Step(st, line, rule).text == st.text + Piece(line))
  {
    if !IsSpeakerLine(line) && IsPageLine(line) {
      assert st.text + Piece(line) == st.text;
    }
  }

  lemma FollowsSpeakerLine(init: seq<string>, line: string, st': ScanState, rule: FlushRule)
    requires IsSpeakerLine(line)
    requires var m := MatchSpeaker(line).value;
             && st'.speaker == Some(Label(m)) && st'.procedural == IsProcedural(m.name)
             && st'.text == Remainder(line, m) && st'.segments == SavedSegments(init, rule)
    ensures FollowsBlocks(init + [line], st', rule)
  {
    var lines := init + [line];
    Seqs.LastWhereSnoc(init, line, IsSpeakerLine);
    Seqs.SliceSnoc(init, line, |init|);
    assert lines[|init|..] == [line];
    assert [line][1..] == [];
  }

  lemma FollowsOtherLine(init: seq<string>, line: string, st: ScanState, st': ScanState, rule: FlushRule)
    requires FollowsBlocks(init, st, rule) && !IsSpeakerLine(line)
    requires st'.speaker == st.speaker && st'.procedural == st.procedural && st'.segments == st.segments
    requires st.speaker.Some? ==> st'.text == st.text + Piece(line)
    ensures FollowsBlocks(init + [line], st', rule)
  {
    var lines := init + [line];
    Seqs.LastWhereSnoc(init, line, IsSpeakerLine);
    match LastSpeakerLine(init)
    case None =>
    case Some(i) =>
      Seqs.SliceSnoc(init, line, i);
      SpeechSnoc(init[i..], line);
  }

  lemma StepFollows(init: seq<string>, line: string, st: ScanState, rule: FlushRule)
    requires FollowsBlocks(init, st, rule) && st.page == LastPage(init)
    ensures FollowsBlocks(init + [line], Step(st, line, rule), rule)
  {
    StepSpeech(st, line, rule);
    if IsSpeakerLine(line) {
      FlushFollows(init, st, rule);
      FollowsSpeakerLine(init, line, Step(st, line, rule), rule);
    } else {
      FollowsOtherLine(init, line, st, Step(st, line, rule), rule);
    }
  }

  lemma {:induction false} ScanFollows(lines: seq<string>, rule: FlushRule)
    ensures FollowsBlocks(lines, Scan(lines, rule), rule)
    decreases |lines|
  {
    if |lines| > 0 {
      var init, line := lines[..|lines| - 1], lines[|lines| - 1];
      ScanFollows(init, rule);
      ScanPages(init, rule);
      PrefixOfSnoc(lines);
      StepFollows(init, line, Scan(init, rule), rule);
    }
  }

  /** A step adds the item its line announces at the number of segments the
      blocks saved before the line. */
  lemma StepItems(init: seq<string>, line: string, st: ScanState, rule: FlushRule)
    requires FollowsBlocks(init, st, rule) && st.page == LastPage(init)
    ensures Step(st, line, rule).items ==
              AddItem(st.items, LineDetection(line, LastSpeakerLine(init).Some?), |SavedSegments(init, rule)|)
  {
    assert st.speaker.Some? <==> LastSpeakerLine(init).Some?;
    if IsSpeakerLine(line) {
      StepSpeech(st, line, rule);
      FlushFollows(init, st, rule);
    } else if LastSpeakerLine(init).None? {
      StepSpeech(st, line, rule);
      assert SavedSegments(init, rule) == [];
    }
  }

  /** The scan gathers exactly the agenda items the lines announce. */
  lemma {:induction false} ScanItems(lines: seq<string>, rule: FlushRule)
    ensures Scan(lines, rule).items == DetectedItems(lines, rule)
    decreases |lines|
  {
    if |lines| > 0 {
      var init, line := lines[..|lines| - 1], lines[|lines| - 1];
      ScanItems(init, rule);
      ScanFollows(init, rule);
      ScanPages(init, rule);
      StepItems(init, line, Scan(init, rule), rule);
    }
  }

  // ---------------------------------------------------------------------------
  // The transcript
  // ---------------------------------------------------------------------------

  /** The transcript's pages are the page ids of the record, each once, in
      order of first appearance; every segment's text is cleaned and its page
      is one of them or empty; every segment is labelled with an honorific
      and a name whose procedural test gives its flag. */
  lemma ParseLinesSegments(lines: seq<string>, chamber: Chamber, rule: FlushRule)
    ensures var t := ParseLines(lines, chamber, rule);
            && t.pages == Seqs.Dedup(PageIds(lines))
            && t.chamber == chamber && t.date == ""
            && (forall k :: 0 <= k < |t.segments| ==> GoodSegment(t.segments[k], t.pages))
            && |t.segments| <= CountSpeakerLines(lines)
  {
    ScanPages(lines, rule);
    ScanGood(lines, rule);
    FlushGood(Scan(lines, rule), rule);
    ScanSegmentCount(lines, rule);
  }

  /** The de-duplicated agenda items keep their order along the segments and
      point at most one past the last segment. */
  lemma ParseLinesItems(lines: seq<string>, chamber: Chamber, rule: FlushRule)
    ensures ItemsInOrder(ParseLines(lines, chamber, rule).agendaItems, |ParseLines(lines, chamber, rule).segments|)
  {
    var st := Scan(lines, rule);
    ScanItemsInOrder(lines, rule);
    DeduplicateKeepsIndexOrder(st.items);
    Seqs.DedupByFirstOccurrences(st.items, TitleKey);
    var r := DeduplicateAgendaItems(st.items);
    forall k | 0 <= k < |r| ensures r[k].startSegmentIndex <= |Flush(st, rule)| {
      assert r[k] == st.items[Seqs.FirstKeyIndex(st.items, TitleKey, TitleKey(r[k]))];
    }
  }

  /** A record in which nobody speaks has no segments. */
  lemma ParseLinesSilent(lines: seq<string>, chamber: Chamber, rule: FlushRule)
    requires forall i :: 0 <= i < |lines| ==> !IsSpeakerLine(lines[i])
    ensures ParseLines(lines, chamber, rule).segments == []
    ensures forall k :: 0 <= k < |ParseLines(lines, chamber, rule).agendaItems| ==>
              ParseLines(lines, chamber, rule).agendaItems[k].startSegmentIndex == 0
  {
    Seqs.CountWhereZero(lines, IsSpeakerLine);
    ScanSpeaker(lines, rule);
    ScanBeforeSpeaker(lines, rule);
    Seqs.DedupByFirstOccurrences(Scan(lines, rule).items, TitleKey);
  }

  // ---------------------------------------------------------------------------
  // Empty segment texts
  // ---------------------------------------------------------------------------

  /** Under the corrected rule no saved segment has empty text. */
  ghost predicate NonEmptyTexts(segs: seq<Segment>) {
    forall k :: 0 <= k < |segs| ==> segs[k].text != ""
  }

  lemma StepNonEmptyTexts(st: ScanState, line: string)
    requires NonEmptyTexts(st.segments)
    ensures NonEmptyTexts(Step(st, line, CleanedText).segments)
    ensures NonEmptyTexts(Flush(st, CleanedText))
  {
    FlushNonEmptyTexts(st);
    match FindPage(line)
    case Some(_) =>
      assert Step(st, line, CleanedText).segments == st.segments;
    case None =>
      match MatchSpeaker(line)
      case Some(_) =>
        assert Step(st, line, CleanedText).segments == Flush(st, CleanedText);
      case None =>
        assert Step(st, line, CleanedText).segments == st.segments;
  }

  lemma FlushNonEmptyTexts(st: ScanState)
    requires NonEmptyTexts(st.segments)
    ensures NonEmptyTexts(Flush(st, CleanedText))
  {
    if st.speaker.Some? && Saves(CleanedText, st.text) {
      var segs := Flush(st, CleanedText);
      forall k | 0 <= k < |segs| ensures segs[k].text != "" {
        if k < |st.segments| {
          assert segs[k] == st.segments[k];
        }
      }
    }
  }

  lemma {:induction false} ScanNonEmptyTexts(lines: seq<string>)
    ensures NonEmptyTexts(Scan(lines, CleanedText).segments)
    decreases |lines|
  {
    if |lines| > 0 {
      ScanNonEmptyTexts(lines[..|lines| - 1]);
      StepNonEmptyTexts(Scan(lines[..|lines| - 1], CleanedText), lines[|lines| - 1]);
    }
  }

  /** The corrected rule keeps the promise that every segment has text. */
  lemma ParseLinesNonEmptyTexts(lines: seq<string>, chamber: Chamber)
    ensures forall k :: 0 <= k < |ParseLines(lines, chamber, CleanedText).segments| ==>
              ParseLines(lines, chamber, CleanedText).segments[k].text != ""
  {
    ScanNonEmptyTexts(lines);
    StepNonEmptyTexts(Scan(lines, CleanedText), "");
  }

  /** A page marker split over two lines: neither half is a page line, the
      speech joins them with a space, and cleaning removes the marker so
      formed. */
  const SmithLine: string := "  Mr. SMITH."
  const FirstHalf: string := "[[Page"
  const SecondHalf: string := "S1]]"
  const SplitMarker: seq<string> := [SmithLine] + [FirstHalf] + [SecondHalf]

  /** A line without `[` holds no page marker. */
  lemma NoBracketNoPage(line: string)
    requires forall i :: 0 <= i < |line| ==> line[i] != '['
    ensures FindPage(line).None?
  {
    forall i: nat ensures MarkerAt(line, i).None? {
      MarkerAtBracket(line, i);
    }
  }

  /** A text is not contained where no slice of its length equals it. */
  lemma NotContained(s: string, t: string)
    requires forall j: nat :: !OccursAt(s, t, j)
    ensures !Contains(s, t)
  {
  }

  lemma SmithShape()
    ensures ShapeAt(SmithLine, 2, "Mr.", 6, 11)
  {
    var line := SmithLine;
    assert line[..2] == "  ";
    assert line[2..5] == "Mr.";
    assert line[5..6] == " ";
  }

  /** `SMITH` contains none of the four procedural words. */
  lemma NotProceduralSmith()
    ensures !IsProcedural("SMITH")
  {
    var u := ToUpper("SMITH");
    assert u == "SMITH";
    NotContained(u, "PRESIDING OFFICER");
    NotContained(u, "SPEAKER");
    assert u[0..5][0] == 'S';
    NotContained(u, "CLERK");
    NotContained(u, "CHAIR");
    IsProceduralReduced("SMITH");
  }

  lemma SmithNoPage()
    ensures FindPage(SmithLine).None?
  {
    NoBracketNoPage(SmithLine);
  }

  lemma SmithName()
    ensures Trim(SmithLine[6..11]) == "SMITH"
  {
    assert SmithLine[6..11] == "SMITH";
    TrimNoop("SMITH");
  }

  /** The speaker line of the example. */
  lemma SmithMatch()
    ensures MatchSpeaker(SmithLine) == Some(SpeakerMatch("Mr.", "SMITH", 12))
  {
    SmithShape();
    MatchSpeakerComplete(SmithLine, 2, "Mr.", 6, 11);
    SmithName();
  }

  const AfterSmith: ScanState := ScanState(Some("Mr. SMITH"), "", "", false, [], [], [])

  lemma SmithRest()
    ensures Remainder(SmithLine, SpeakerMatch("Mr.", "SMITH", 12)) == ""
    ensures DetectAgendaItem("") == None
    ensures Label(SpeakerMatch("Mr.", "SMITH", 12)) == "Mr. SMITH"
  {
    assert SmithLine[12..] == "";
    assert Trim("") == "";
  }

  lemma SmithStep(rule: FlushRule)
    ensures Step(Start, SmithLine, rule) == AfterSmith
  {
    var m := SpeakerMatch("Mr.", "SMITH", 12);
    SmithNoPage();
    SmithMatch();
    SmithRest();
    NotProceduralSmith();
  }

  /** A continuation line without white space at its ends is added as it
      is. */
  lemma PlainContinuation(st: ScanState, line: string, rule: FlushRule)
    requires st.speaker.Some? && FindPage(line).None? && |line| > 0 && !IsWs(line[0]) && !IsWs(line[|line| - 1])
    ensures Step(st, line, rule) == st.(text := st.text + " " + line)
  {
    assert MatchSpeaker(line).None?;
    TrimNoop(line);
  }

  /** A line shorter than a marker holds none. */
  lemma ShortNoPage(line: string)
    requires |line| < 11
    ensures FindPage(line).None?
  {
  }

  /** One more line is one more step. */
  lemma ScanSnoc(lines: seq<string>, line: string, rule: FlushRule)
    ensures Scan(lines + [line], rule) == Step(Scan(lines, rule), line, rule)
  {
    assert (lines + [line])[..|lines|] == lines;
  }

  lemma JoinedText()
    ensures "" + " " + FirstHalf == " [[Page"
    ensures " [[Page" + " " + SecondHalf == " [[Page S1]]"
  {
  }

  lemma SplitMarkerFirst(rule: FlushRule)
    ensures Scan([SmithLine], rule) == AfterSmith
  {
    ScanSnoc([], SmithLine, rule);
    assert [] + [SmithLine] == [SmithLine];
    SmithStep(rule);
  }

  lemma FirstHalfStep(rule: FlushRule)
    ensures Step(AfterSmith, FirstHalf, rule) == AfterSmith.(text := " [[Page")
  {
    ShortNoPage(FirstHalf);
    PlainContinuation(AfterSmith, FirstHalf, rule);
    JoinedText();
  }

  lemma SecondHalfStep(rule: FlushRule)
    ensures Step(AfterSmith.(text := " [[Page"), SecondHalf, rule) == AfterSmith.(text := " [[Page S1]]")
  {
    ShortNoPage(SecondHalf);
    PlainContinuation(AfterSmith.(text := " [[Page"), SecondHalf, rule);
    JoinedText();
  }

  lemma SplitMarkerSecond(rule: FlushRule)
    ensures Scan([SmithLine] + [FirstHalf], rule) == AfterSmith.(text := " [[Page")
  {
    ScanSnoc([SmithLine], FirstHalf, rule);
    SplitMarkerFirst(rule);
    FirstHalfStep(rule);
  }

  /** The state after the whole example: the speech is the marker, joined. */
  lemma SplitMarkerState(rule: FlushRule)
    ensures Scan(SplitMarker, rule) == AfterSmith.(text := Joined)
  {
    ScanSnoc([SmithLine] + [FirstHalf], SecondHalf, rule);
    SplitMarkerSecond(rule);
    SecondHalfStep(rule);
  }

  const Joined: string := " [[Page S1]]"

  lemma JoinedShape()
    ensures Trim(Joined) != ""
    ensures CollapseWs(Joined) == Joined
  {
    assert !IsWs(Joined[1]);
    assert SingleSpaced(Joined) by {
      assert Joined == [' ', '[', '[', 'P', 'a', 'g', 'e', ' ', 'S', '1', ']', ']'];
      forall i | 0 <= i < |Joined| ensures IsWs(Joined[i]) <==> i == 0 || i == 7 {
      }
    }
    CollapseWsSingleSpacedNoop(Joined);
  }

  lemma JoinedMarker()
    ensures MarkerAt(Joined, 0).None?
    ensures MarkerAt(Joined, 1) == Some(11)
  {
    MarkerAtBracket(Joined, 0);
    var m := Joined[1..12];
    assert m == "[[Page S1]]";
    assert m[..7] == Opening;
    assert m[8..9] == ['1'];
    assert m[9..] == "]]";
    MarkerAtComplete(Joined, 1, 11);
  }

  /** Cleaning the joined text leaves nothing. */
  lemma SplitMarkerCleans()
    ensures Trim(Joined) != ""
    ensures CleanText(Joined) == ""
  {
    JoinedShape();
    RemoveJoined();
    assert AllWs(" ");
  }

  /** Removing the marker from the joined text leaves the leading space. */
  lemma RemoveJoined()
    ensures RemoveMarkers(Joined) == " "
  {
    JoinedMarker();
    assert RemoveMarkersFrom(Joined, 12) == "";
    assert RemoveMarkersFrom(Joined, 1) == RemoveMarkersFrom(Joined, 12);
    assert RemoveMarkersFrom(Joined, 0) == [Joined[0]] + RemoveMarkersFrom(Joined, 1);
  }

  /** As written, the record of the example yields one segment whose text is
      empty, against the promise that every segment has text; with the
      corrected rule it yields none. */
  lemma EmptySegmentAsWritten()
    ensures |ParseLines(SplitMarker, Senate, TrimmedText).segments| == 1
    ensures ParseLines(SplitMarker, Senate, TrimmedText).segments[0].text == ""
    ensures ParseLines(SplitMarker, Senate, CleanedText).segments == []
  {
    SplitMarkerState(TrimmedText);
    SplitMarkerState(CleanedText);
    SplitMarkerCleans();
    SegmentsOfState(SplitMarker, Senate, TrimmedText, AfterSmith.(text := Joined));
    SegmentsOfState(SplitMarker, Senate, CleanedText, AfterSmith.(text := Joined));
  }

  /** The transcript's segments are the final state's, with its speech saved. */
  lemma SegmentsOfState(lines: seq<string>, chamber: Chamber, rule: FlushRule, st: ScanState)
    requires Scan(lines, rule) == st
    ensures ParseLines(lines, chamber, rule).segments == Flush(st, rule)
  {
  }
}

=== FILE: seqs.dfy ===
/** Keep-first de-duplication by a string key: the loops in the source that skip an element
    whose key was already seen (`pages.includes`, `bills.includes`, the `seen`
    set of agenda titles, the sidebar's `acc.find` on `bioguideId`). */
module Seqs {
  import opened Wrappers

  function Id<T>(x: T): T { x }

  /** The keys of `xs`, in order. */
  function Keys<T>(xs: seq<T>, key: T -> string): (ks: seq<string>)
    ensures |ks| == |xs|
  {
    seq(|xs|, i requires 0 <= i < |xs| => key(xs[i]))
  }

  /** No two elements of `xs` share a key. */
  ghost predicate DistinctKeys<T>(xs: seq<T>, key: T -> string) {
    forall i, j :: 0 <= i < j < |xs| ==> key(xs[i]) != key(xs[j])
  }

  /** Index of the first element of `xs` whose key is `k`. */
  ghost function FirstKeyIndex<T>(xs: seq<T>, key: T -> string, k: string): (i: nat)
    requires k in Keys(xs, key)
    ensures i < |xs| && key(xs[i]) == k
    ensures forall j :: 0 <= j < i ==> key(xs[j]) != k
    decreases |xs|
  {
    if key(xs[0]) == k then 0
    else
      assert k in Keys(xs[1..], key) by {
        var j :| 0 <= j < |xs| && Keys(xs, key)[j] == k;
        assert Keys(xs[1..], key)[j - 1] == k;
      }
      var i := FirstKeyIndex(xs[1..], key, k);
      assert forall j :: 1 <= j <= i ==> xs[j] == xs[1..][j - 1];
      1 + i
  }

  /** Keep the first element for each key, in input order. It is written on the
      prefix, as the state of the left-to-right loop after one more element. */
  function DedupBy<T>(xs: seq<T>, key: T -> string): (r: seq<T>)
    ensures |r| <= |xs|
    decreases |xs|
  {
    if |xs| == 0 then []
    else
      var d := DedupBy(xs[..|xs| - 1], key);
      var x := xs[|xs| - 1];
      if key(x) in Keys(d, key) then d else d + [x]
  }

  /** De-duplicating strings by themselves. */
  function Dedup(xs: seq<string>): seq<string> {
    DedupBy(xs, Id)
  }

  lemma KeysAppend<T>(xs: seq<T>, x: T, key: T -> string)
    ensures Keys(xs + [x], key) == Keys(xs, key) + [key(x)]
  {
  }

  /** The de-duplicated sequence has the same keys as its input. */
  lemma {:induction false} DedupBySameKeys<T>(xs: seq<T>, key: T -> string)
    ensures forall k :: k in Keys(DedupBy(xs, key), key) <==> k in Keys(xs, key)
    decreases |xs|
  {
    if |xs| > 0 {
      var init := xs[..|xs| - 1];
      var x := xs[|xs| - 1];
      DedupBySameKeys(init, key);
      assert xs == init + [x];
      KeysAppend(init, x, key);
      var d := DedupBy(init, key);
      if key(x) !in Keys(d, key) {
        KeysAppend(d, x, key);
      }
    }
  }

  /** No two kept elements share a key. */
  lemma {:induction false} DedupByDistinctKeys<T>(xs: seq<T>, key: T -> string)
    ensures DistinctKeys(DedupBy(xs, key), key)
    decreases |xs|
  {
    if |xs| > 0 {
      var init := xs[..|xs| - 1];
      var x := xs[|xs| - 1];
      DedupByDistinctKeys(init, key);
      var d := DedupBy(init, key);
      if key(x) !in Keys(d, key) {
        var r := d + [x];
        forall i, j | 0 <= i < j < |r| ensures key(r[i]) != key(r[j]) {
          if j == |d| {
            assert Keys(d, key)[i] == key(r[i]);
          } else {
            assert r[i] == d[i] && r[j] == d[j];
          }
        }
      }
    }
  }

  /** Each kept element is the first element of the input with its key, and
      the kept elements appear in the order their keys first occur. */
  lemma {:induction false} DedupByFirstOccurrences<T>(xs: seq<T>, key: T -> string)
    ensures forall i :: 0 <= i < |DedupBy(xs, key)| ==> key(DedupBy(xs, key)[i]) in Keys(xs, key)
    ensures forall i :: 0 <= i < |DedupBy(xs, key)| ==>
              DedupBy(xs, key)[i] == xs[FirstKeyIndex(xs, key, key(DedupBy(xs, key)[i]))]
    ensures forall i, j :: 0 <= i < j < |DedupBy(xs, key)| ==>
              FirstKeyIndex(xs, key, key(DedupBy(xs, key)[i])) < FirstKeyIndex(xs, key, key(DedupBy(xs, key)[j]))
    decreases |xs|
  {
    if |xs| > 0 {
      var init := xs[..|xs| - 1];
      DedupByFirstOccurrences(init, key);
      assert xs == init + [xs[|xs| - 1]];
      DedupByStep(init, xs[|xs| - 1], key);
    }
  }

  /** `r` holds, in order, the first element of `xs` for some of its keys. */
  ghost predicate KeptFirst<T>(xs: seq<T>, r: seq<T>, key: T -> string) {
    && (forall i :: 0 <= i < |r| ==> key(r[i]) in Keys(xs, key))
    && (forall i :: 0 <= i < |r| ==> r[i] == xs[FirstKeyIndex(xs, key, key(r[i]))])
    && (forall i, j :: 0 <= i < j < |r| ==>
          FirstKeyIndex(xs, key, key(r[i])) < FirstKeyIndex(xs, key, key(r[j])))
  }

  /** One loop step keeps the kept elements first of their keys. */
  lemma DedupByStep<T>(xs: seq<T>, x: T, key: T -> string)
    requires KeptFirst(xs, DedupBy(xs, key), key)
    ensures KeptFirst(xs + [x], DedupBy(xs + [x], key), key)
  {
    var d := DedupBy(xs, key);
    assert (xs + [x])[..|xs|] == xs;
    KeptStayFirst(xs, x, key);
    if key(x) in Keys(d, key) {
      assert DedupBy(xs + [x], key) == d;
    } else {
      DedupBySameKeys(xs, key);
      FirstKeyIndexNew(xs, x, key);
      assert DedupBy(xs + [x], key) == d + [x];
      KeptNew(xs, x, key);
    }
  }

  /** A new key's element joins the kept ones at the end. */
  lemma KeptNew<T>(xs: seq<T>, x: T, key: T -> string)
    requires KeptFirst(xs, DedupBy(xs, key), key)
    requires forall i :: 0 <= i < |DedupBy(xs, key)| ==>
              && key(DedupBy(xs, key)[i]) in Keys(xs + [x], key)
              && FirstKeyIndex(xs + [x], key, key(DedupBy(xs, key)[i])) == FirstKeyIndex(xs, key, key(DedupBy(xs, key)[i]))
              && DedupBy(xs, key)[i] == (xs + [x])[FirstKeyIndex(xs + [x], key, key(DedupBy(xs, key)[i]))]
    requires key(x) in Keys(xs + [x], key) && FirstKeyIndex(xs + [x], key, key(x)) == |xs|
    ensures KeptFirst(xs + [x], DedupBy(xs, key) + [x], key)
  {
    var d := DedupBy(xs, key);
    var r, ys := d + [x], xs + [x];
    assert ys[|xs|] == x;
    forall i | 0 <= i < |r|
      ensures key(r[i]) in Keys(ys, key) && r[i] == ys[FirstKeyIndex(ys, key, key(r[i]))]
    {
      if i < |d| { assert r[i] == d[i]; } else { assert r[i] == x; }
    }
    forall i, j | 0 <= i < j < |r|
      ensures FirstKeyIndex(ys, key, key(r[i])) < FirstKeyIndex(ys, key, key(r[j]))
    {
      assert r[i] == d[i];
      if j < |d| { assert r[j] == d[j]; } else { assert r[j] == x; }
    }
  }

  /** Appending an element leaves each kept element the first of its key. */
  lemma KeptStayFirst<T>(xs: seq<T>, x: T, key: T -> string)
    requires forall i :: 0 <= i < |DedupBy(xs, key)| ==> key(DedupBy(xs, key)[i]) in Keys(xs, key)
    requires forall i :: 0 <= i < |DedupBy(xs, key)| ==>
               DedupBy(xs, key)[i] == xs[FirstKeyIndex(xs, key, key(DedupBy(xs, key)[i]))]
    ensures forall i :: 0 <= i < |DedupBy(xs, key)| ==>
              && key(DedupBy(xs, key)[i]) in Keys(xs + [x], key)
              && FirstKeyIndex(xs + [x], key, key(DedupBy(xs, key)[i])) == FirstKeyIndex(xs, key, key(DedupBy(xs, key)[i]))
              && DedupBy(xs, key)[i] == (xs + [x])[FirstKeyIndex(xs + [x], key, key(DedupBy(xs, key)[i]))]
  {
    var d := DedupBy(xs, key);
    forall i | 0 <= i < |d|
      ensures key(d[i]) in Keys(xs + [x], key)
      ensures FirstKeyIndex(xs + [x], key, key(d[i])) == FirstKeyIndex(xs, key, key(d[i]))
      ensures d[i] == (xs + [x])[FirstKeyIndex(xs + [x], key, key(d[i]))]
    {
      FirstKeyIndexPrefix(xs, x, key, key(d[i]));
    }
  }

  /** A key first seen in the appended element first occurs there. */
  lemma FirstKeyIndexNew<T>(xs: seq<T>, x: T, key: T -> string)
    requires key(x) !in Keys(xs, key)
    ensures key(x) in Keys(xs + [x], key)
    ensures FirstKeyIndex(xs + [x], key, key(x)) == |xs|
  {
    KeysAppend(xs, x, key);
    assert forall j :: 0 <= j < |xs| ==> key((xs + [x])[j]) == Keys(xs, key)[j];
  }

  /** Appending an element does not move the first occurrence of a key already present. */
  lemma FirstKeyIndexPrefix<T>(xs: seq<T>, x: T, key: T -> string, k: string)
    requires k in Keys(xs, key)
    ensures k in Keys(xs + [x], key)
    ensures FirstKeyIndex(xs + [x], key, k) == FirstKeyIndex(xs, key, k)
  {
    KeysAppend(xs, x, key);
    var a := FirstKeyIndex(xs, key, k);
    var b := FirstKeyIndex(xs + [x], key, k);
    assert (xs + [x])[a] == xs[a];
  }

  /** The set of keys of `xs`. */
  ghost function KeySet<T>(xs: seq<T>, key: T -> string): set<string> {
    set i | 0 <= i < |xs| :: key(xs[i])
  }

  /** The number of kept elements is the number of distinct keys of the input,
      and nothing is kept only when the input is empty. */
  lemma DedupByCount<T>(xs: seq<T>, key: T -> string)
    ensures |DedupBy(xs, key)| == |KeySet(xs, key)|
    ensures |DedupBy(xs, key)| == 0 <==> |xs| == 0
  {
    var r := DedupBy(xs, key);
    DedupBySameKeys(xs, key);
    DedupByDistinctKeys(xs, key);
    var ks := set i | 0 <= i < |xs| :: key(xs[i]);
    KeySetEq(r, xs, key);
    DistinctKeysCount(r, key);
    if |xs| > 0 {
      assert key(xs[0]) in ks;
    }
  }

  /** Two sequences with the same keys have the same key set. */
  lemma KeySetEq<T>(xs: seq<T>, ys: seq<T>, key: T -> string)
    requires forall k :: k in Keys(xs, key) <==> k in Keys(ys, key)
    ensures (set i | 0 <= i < |xs| :: key(xs[i])) == (set i | 0 <= i < |ys| :: key(ys[i]))
  {
    var a := set i | 0 <= i < |xs| :: key(xs[i]);
    var b := set i | 0 <= i < |ys| :: key(ys[i]);
    forall k | k in a ensures k in b {
      var i :| 0 <= i < |xs| && key(xs[i]) == k;
      assert Keys(xs, key)[i] == k;
      assert k in Keys(ys, key);
      var j :| 0 <= j < |ys| && Keys(ys, key)[j] == k;
    }
    forall k | k in b ensures k in a {
      var i :| 0 <= i < |ys| && key(ys[i]) == k;
      assert Keys(ys, key)[i] == k;
      assert k in Keys(xs, key);
      var j :| 0 <= j < |xs| && Keys(xs, key)[j] == k;
    }
  }

  /** A sequence with distinct keys has exactly as many elements as keys. */
  lemma {:induction false} DistinctKeysCount<T>(xs: seq<T>, key: T -> string)
    requires DistinctKeys(xs, key)
    ensures |set i | 0 <= i < |xs| :: key(xs[i])| == |xs|
    decreases |xs|
  {
    if |xs| > 0 {
      var init := xs[..|xs| - 1];
      assert DistinctKeys(init, key);
      DistinctKeysCount(init, key);
      var k := key(xs[|xs| - 1]);
      var a := set i | 0 <= i < |init| :: key(init[i]);
      var b := set i | 0 <= i < |xs| :: key(xs[i]);
      assert b == a + {k} by {
        forall k' | k' in b ensures k' in a + {k} {
          var i :| 0 <= i < |xs| && key(xs[i]) == k';
          if i < |xs| - 1 { assert init[i] == xs[i]; }
        }
        forall k' | k' in a ensures k' in b {
          var i :| 0 <= i < |init| && key(init[i]) == k';
          assert xs[i] == init[i];
        }
      }
      assert k !in a;
    }
  }

  /** An order that holds along the input still holds along the de-duplicated
      sequence, which keeps elements in input order. */
  lemma DedupByKeepsOrder<T>(xs: seq<T>, key: T -> string, rank: T -> int)
    requires forall i, j :: 0 <= i < j < |xs| ==> rank(xs[i]) <= rank(xs[j])
    ensures forall i, j :: 0 <= i < j < |DedupBy(xs, key)| ==>
              rank(DedupBy(xs, key)[i]) <= rank(DedupBy(xs, key)[j])
  {
    var r := DedupBy(xs, key);
    DedupByFirstOccurrences(xs, key);
    forall i, j | 0 <= i < j < |r| ensures rank(r[i]) <= rank(r[j]) {
      var a := FirstKeyIndex(xs, key, key(r[i]));
      var b := FirstKeyIndex(xs, key, key(r[j]));
      assert r[i] == xs[a] && r[j] == xs[b];
    }
  }

  /** A sequence whose keys are already distinct is left unchanged. */
  lemma {:induction false} DedupByDistinct<T>(xs: seq<T>, key: T -> string)
    requires DistinctKeys(xs, key)
    ensures DedupBy(xs, key) == xs
    decreases |xs|
  {
    if |xs| > 0 {
      var init := xs[..|xs| - 1];
      var x := xs[|xs| - 1];
      assert DistinctKeys(init, key);
      DedupByDistinct(init, key);
      assert forall i :: 0 <= i < |init| ==> init[i] == xs[i];
      assert key(x) !in Keys(init, key);
      assert xs == init + [x];
    }
  }

  // ---------------------------------------------------------------------------
  // De-duplicating strings
  // ---------------------------------------------------------------------------

  lemma KeysId(xs: seq<string>)
    ensures Keys(xs, Id) == xs
  {
    forall i | 0 <= i < |xs| ensures Keys(xs, Id)[i] == xs[i] {
      assert Keys(xs, Id)[i] == Id(xs[i]);
    }
  }

  /** Index of the first occurrence of `k` in `xs`. */
  ghost function FirstIndex(xs: seq<string>, k: string): (i: nat)
    requires k in xs
    ensures i < |xs| && xs[i] == k
    ensures forall j :: 0 <= j < i ==> xs[j] != k
  {
    KeysId(xs);
    FirstKeyIndex(xs, Id, k)
  }

  /** Keep-first de-duplication of strings: the result holds each string of
      the input exactly once, in order of first occurrence, and is empty only
      when the input is. */
  lemma DedupSpec(xs: seq<string>)
    ensures forall i, j :: 0 <= i < j < |Dedup(xs)| ==> Dedup(xs)[i] != Dedup(xs)[j]
    ensures forall k :: k in Dedup(xs) <==> k in xs
    ensures forall i, j :: 0 <= i < j < |Dedup(xs)| ==>
              FirstIndex(xs, Dedup(xs)[i]) < FirstIndex(xs, Dedup(xs)[j])
    ensures |Dedup(xs)| == 0 <==> |xs| == 0
  {
    var r := Dedup(xs);
    KeysId(xs);
    KeysId(r);
    DedupBySameKeys(xs, Id);
    DedupByDistinctKeys(xs, Id);
    DedupByFirstOccurrences(xs, Id);
    DedupByCount(xs, Id);
  }

  /** One more string: it is kept exactly when it has not been seen. */
  lemma DedupSnoc(xs: seq<string>, x: string)
    ensures Dedup(xs + [x]) == if x in Dedup(xs) then Dedup(xs) else Dedup(xs) + [x]
  {
    assert (xs + [x])[..|xs|] == xs;
    KeysId(Dedup(xs));
  }

  // ---------------------------------------------------------------------------
  // Counting
  // ---------------------------------------------------------------------------

  /** How many elements of `xs` satisfy `p`. */
  function CountWhere<T>(xs: seq<T>, p: T -> bool): (n: nat)
    ensures n <= |xs|
    decreases |xs|
  {
    if |xs| == 0 then 0 else CountWhere(xs[..|xs| - 1], p) + (if p(xs[|xs| - 1]) then 1 else 0)
  }

  /** Nothing is counted exactly when no element satisfies `p`. */
  lemma {:induction false} CountWhereZero<T>(xs: seq<T>, p: T -> bool)
    ensures CountWhere(xs, p) == 0 <==> forall i :: 0 <= i < |xs| ==> !p(xs[i])
    decreases |xs|
  {
    if |xs| > 0 {
      var init := xs[..|xs| - 1];
      CountWhereZero(init, p);
      if CountWhere(xs, p) == 0 {
        forall i | 0 <= i < |xs| ensures !p(xs[i]) {
          if i < |init| { assert xs[i] == init[i]; }
        }
      } else if CountWhere(init, p) > 0 {
        var i :| 0 <= i < |init| && p(init[i]);
        assert xs[i] == init[i];
      }
    }
  }

  /** The index of the last element of `xs` that satisfies `p`, if any. */
  function LastWhere<T>(xs: seq<T>, p: T -> bool): (r: Option<nat>)
    ensures r.Some? ==> r.value < |xs| && p(xs[r.value])
    ensures r.Some? ==> forall q :: r.value < q < |xs| ==> !p(xs[q])
    ensures r.None? ==> forall q :: 0 <= q < |xs| ==> !p(xs[q])
    decreases |xs|
  {
    if |xs| == 0 then None
    else if p(xs[|xs| - 1]) then Some(|xs| - 1)
    else
      var r := LastWhere(xs[..|xs| - 1], p);
      assert forall q :: 0 <= q < |xs| - 1 ==> xs[..|xs| - 1][q] == xs[q];
      r
  }

  /** One more element is the last one found when it satisfies `p`. */
  lemma LastWhereSnoc<T>(xs: seq<T>, x: T, p: T -> bool)
    ensures LastWhere(xs + [x], p) == if p(x) then Some(|xs|) else LastWhere(xs, p)
  {
    assert (xs + [x])[..|xs|] == xs;
  }

  /** Slices of `xs + [x]` that start or end inside `xs`. */
  lemma SliceSnoc<T>(xs: seq<T>, x: T, i: nat)
    requires i <= |xs|
    ensures (xs + [x])[i..] == xs[i..] + [x]
    ensures (xs + [x])[..i] == xs[..i]
  {
  }

  /** Moving the first element of `xs` onto the end of `pre` keeps every
      prefix `pre + xs[..i]` the same. */
  lemma ShiftPrefix<T>(pre: seq<T>, xs: seq<T>, i: nat)
    requires 1 <= i <= |xs|
    ensures (pre + [xs[0]]) + xs[1..][..i - 1] == pre + xs[..i]
  {
    assert xs[..i] == [xs[0]] + xs[1..][..i - 1];
  }

  /** Regrouping a concatenation of three pieces. */
  lemma Assoc<T>(a: seq<T>, b: seq<T>, c: seq<T>)
    ensures a + (b + c) == (a + b) + c
  {
  }

  /** Regrouping a concatenation of four pieces. */
  lemma Regroup<T>(a: seq<T>, b: seq<T>, c: seq<T>, d: seq<T>)
    ensures a + ((b + c) + d) == ((a + b) + c) + d
  {
  }

  /** The middle of `p + a + k` can be read back when `p` and `k` are fixed. */
  lemma MiddleInjective<T>(p: seq<T>, a: seq<T>, b: seq<T>, k: seq<T>)
    requires p + a + k == p + b + k
    ensures a == b
  {
    assert |a| == |b|;
    assert a == (p + a + k)[|p|..|p| + |a|];
    assert b == (p + b + k)[|p|..|p| + |b|];
  }
}

=== FILE: sidebar.dfy ===
/** The speaker list of src/components/chat/SessionSidebar.tsx: speakers are
    de-duplicated by `bioguideId`, keeping the first, and the list is shown
    under a "Speakers (n)" header only when it is not empty. */
module Sidebar {
  import opened Wrappers
  import opened Strings
  import Seqs

  /** A member as the sidebar receives it. */
  datatype Member = Member(
    bioguideId: string, firstName: string, lastName: string,
    party: string, state: string, photoUrl: Option<string>)

  function BioguideId(m: Member): string { m.bioguideId }

  /** `uniqueSpeakers`: the `reduce` that appends a speaker unless one with
      the same `bioguideId` is already kept. The kept speakers are a
      subsequence of the input: each is the first speaker with its id, they
      keep the input order, no two share an id, and every id of the input is
      kept. */
  function UniqueSpeakers(speakers: seq<Member>): (r: seq<Member>)
    ensures forall i :: 0 <= i < |r| ==> BioguideId(r[i]) in Seqs.Keys(speakers, BioguideId)
    ensures forall i :: 0 <= i < |r| ==> r[i] == speakers[FirstPlace(speakers, r[i])]
    ensures forall i, j :: 0 <= i < j < |r| ==> FirstPlace(speakers, r[i]) < FirstPlace(speakers, r[j])
    ensures forall i, j :: 0 <= i < j < |r| ==> BioguideId(r[i]) != BioguideId(r[j])
    ensures forall k :: 0 <= k < |speakers| ==> BioguideId(speakers[k]) in Seqs.Keys(r, BioguideId)
  {
    Seqs.DedupByFirstOccurrences(speakers, BioguideId);
    Seqs.DedupByDistinctKeys(speakers, BioguideId);
    Seqs.DedupBySameKeys(speakers, BioguideId);
    assert forall k :: 0 <= k < |speakers| ==> BioguideId(speakers[k]) in Seqs.Keys(speakers, BioguideId) by {
      forall k | 0 <= k < |speakers| ensures BioguideId(speakers[k]) in Seqs.Keys(speakers, BioguideId) {
        assert Seqs.Keys(speakers, BioguideId)[k] == BioguideId(speakers[k]);
      }
    }
    Seqs.DedupBy(speakers, BioguideId)
  }

  /** Where the first speaker with the id of `m` sits in `speakers`. */
  ghost function FirstPlace(speakers: seq<Member>, m: Member): nat
    requires BioguideId(m) in Seqs.Keys(speakers, BioguideId)
  {
    Seqs.FirstKeyIndex(speakers, BioguideId, BioguideId(m))
  }

  /** The header: "Speakers (n)" with the number of kept speakers, or no
      section at all when there is none, which happens exactly when the
      speaker list is empty. */
  function SpeakersHeader(speakers: seq<Member>): (h: Option<string>)
    ensures h.None? <==> |speakers| == 0
  {
    var n := |UniqueSpeakers(speakers)|;
    Seqs.DedupByCount(speakers, BioguideId);
    if n > 0 then Some("Speakers (" + NatToString(n) + ")") else None
  }

  /** The distinct ids among the speakers. */
  ghost function Ids(speakers: seq<Member>): set<string> {
    set i | 0 <= i < |speakers| :: speakers[i].bioguideId
  }

  /** The count shown is the number of distinct ids, and the section is left
      out exactly when there are no speakers. */
  lemma SpeakersHeaderCount(speakers: seq<Member>)
    ensures |UniqueSpeakers(speakers)| == |Ids(speakers)|
    ensures SpeakersHeader(speakers).None? <==> |speakers| == 0
    ensures SpeakersHeader(speakers).Some? ==>
              SpeakersHeader(speakers).value == "Speakers (" + NatToString(|Ids(speakers)|) + ")"
  {
    Seqs.DedupByCount(speakers, BioguideId);
    var a := Seqs.KeySet(speakers, BioguideId);
    assert a == Ids(speakers) by {
      forall x | x in a ensures x in Ids(speakers) {
        var i :| 0 <= i < |speakers| && x == BioguideId(speakers[i]);
      }
      forall x | x in Ids(speakers) ensures x in a {
        var i :| 0 <= i < |speakers| && x == speakers[i].bioguideId;
        assert x == BioguideId(speakers[i]);
      }
    }
  }
}

=== FILE: speakerlines.dfy ===
/** Speaker lines of src/lib/parser.ts: the speaker pattern
    `^\s{2,}(Mr\.|Ms\.|Mrs\.|The)\s+([A-Z][A-Z\s\-']+)\.` and the
    procedural-speaker test. */
module SpeakerLines {
  import opened Wrappers
  import opened Strings

  /** The honorific alternatives, in the pattern's order; case matters. */
  const Honorifics: seq<string> := ["Mr.", "Ms.", "Mrs.", "The"]

  /** A character of the name class `[A-Z\s\-']`. */
  predicate NameChar(c: char) {
    IsUpper(c) || IsWs(c) || c == '-' || c == '\''
  }

  /** What a speaker line yields: the honorific, the trimmed name, and where
      the match ends (just after the closing dot). */
  datatype SpeakerMatch = SpeakerMatch(title: string, name: string, end: nat)

  /** The speaker pattern read as a way of cutting the line: two or more
      white-space characters up to `w`, an honorific there, white space up to
      `b`, a run of name characters from `b` to `c` that is at least two long
      and starts with a capital, and a dot at `c`. */
  ghost predicate ShapeAt(line: string, w: nat, title: string, b: nat, c: nat) {
    && 2 <= w && w + |title| < b && b + 2 <= c < |line|
    && AllWs(line[..w])
    && title in Honorifics && line[w..w + |title|] == title
    && AllWs(line[w + |title|..b])
    && IsUpper(line[b]) && (forall j :: b <= j < c ==> NameChar(line[j]))
    && line[c] == '.'
  }

  /** The first honorific alternative, from the `k`-th on, that occurs at `i`. */
  function HonorificAt(line: string, i: nat, k: nat): (r: Option<string>)
    requires k <= |Honorifics|
    ensures r.Some? ==> r.value in Honorifics && OccursAt(line, r.value, i)
    decreases |Honorifics| - k
  {
    if k == |Honorifics| then None
    else if OccursAt(line, Honorifics[k], i) then Some(Honorifics[k])
    else HonorificAt(line, i, k + 1)
  }

  /** Where the pieces of a speaker line begin: the honorific at `w`, the
      name run from `b` to the dot at `c`. */
  datatype Cut = Cut(w: nat, title: string, b: nat, c: nat)

  /** The cut a speaker line has: the white-space lead, the honorific, the
      white-space gap and the name run, each taken as long as it goes.
      Each repetition in the pattern is greedy and followed by a character
      outside its class, and the honorifics differ at a position all of them
      have, so the pattern can match in one way only. */
  function SpeakerCut(line: string): (r: Option<Cut>)
    ensures r.Some? ==> r.value.title in Honorifics && r.value.c < |line|
  {
    var w := Span(line, 0, IsWs);
    if w < 2 then None
    else match HonorificAt(line, w, 0)
      case None => None
      case Some(h) => NameCut(line, w, h)
  }

  /** The rest of the cut once the honorific `h` is found at `w`. */
  function NameCut(line: string, w: nat, h: string): (r: Option<Cut>)
    requires w + |h| <= |line|
    ensures r.Some? ==> r.value.w == w && r.value.title == h && r.value.c < |line|
  {
    var a := w + |h|;
    var g := Span(line, a, IsWs);
    var b := a + g;
    var n := Span(line, b, NameChar);
    if g >= 1 && n >= 2 && IsUpper(line[b]) && b + n < |line| && line[b + n] == '.' then
      Some(Cut(w, h, b, b + n))
    else None
  }

  /** `line.match(SPEAKER_PATTERN)`: the honorific, the trimmed name, and
      the end of the match. */
  function MatchSpeaker(line: string): (r: Option<SpeakerMatch>)
    ensures r.Some? ==> r.value.title in Honorifics && r.value.end <= |line|
  {
    match SpeakerCut(line)
    case None => None
    case Some(k) => Some(SpeakerMatch(k.title, Trim(line[k.b..k.c]), k.c + 1))
  }

  /** The speaker label `${title} ${name}`. */
  function Label(m: SpeakerMatch): string {
    m.title + " " + m.name
  }

  /** `line.replace(SPEAKER_PATTERN, '').trim()`: what follows the match, trimmed. */
  function Remainder(line: string, m: SpeakerMatch): string
    requires m.end <= |line|
  {
    Trim(line[m.end..])
  }

  /** The cut the matcher finds has the speaker shape. */
  lemma SpeakerCutSound(line: string)
    requires SpeakerCut(line).Some?
    ensures var k := SpeakerCut(line).value; ShapeAt(line, k.w, k.title, k.b, k.c)
  {
    var k := SpeakerCut(line).value;
    var w := Span(line, 0, IsWs);
    assert HonorificAt(line, w, 0) == Some(k.title);
    SpanWs(line, 0);
    assert line[0..w] == line[..w];
    NameCutSound(line, w, k.title);
  }

  /** The rest of the cut has the rest of the shape. */
  lemma NameCutSound(line: string, w: nat, h: string)
    requires 2 <= w && w + |h| <= |line| && AllWs(line[..w])
    requires h in Honorifics && OccursAt(line, h, w)
    requires NameCut(line, w, h).Some?
    ensures var k := NameCut(line, w, h).value; ShapeAt(line, w, h, k.b, k.c)
  {
    SpanWs(line, w + |h|);
  }

  /** A line the matcher accepts has the speaker shape; the name is the
      trimmed run and the match ends just after the dot. */
  lemma MatchSpeakerSound(line: string)
    requires MatchSpeaker(line).Some?
    ensures exists w: nat, b: nat, c: nat :: ShapeAt(line, w, MatchSpeaker(line).value.title, b, c) &&
              MatchSpeaker(line).value.name == Trim(line[b..c]) &&
              MatchSpeaker(line).value.end == c + 1
  {
    SpeakerCutSound(line);
  }

  /** Two different honorifics never occur at the same place. */
  lemma HonorificsExclusive(line: string, i: nat, h: string, h': string)
    requires h in Honorifics && h' in Honorifics && h != h'
    requires OccursAt(line, h, i)
    ensures !OccursAt(line, h', i)
  {
    SecondAndThird(line, h, i);
    SecondAndThird(line, h', i);
    assert h == "Mr." || h == "Ms." || h == "Mrs." || h == "The";
    assert h' == "Mr." || h' == "Ms." || h' == "Mrs." || h' == "The";
  }

  /** An occurrence fixes the characters it covers. */
  lemma SecondAndThird(s: string, t: string, i: nat)
    requires |t| >= 3
    ensures OccursAt(s, t, i) ==> s[i + 1] == t[1] && s[i + 2] == t[2]
  {
    if OccursAt(s, t, i) {
      assert s[i..i + |t|][1] == t[1] && s[i..i + |t|][2] == t[2];
    }
  }

  /** The honorific search finds the honorific that occurs. */
  lemma HonorificAtFinds(line: string, i: nat, h: string, k: nat)
    requires h in Honorifics && OccursAt(line, h, i) && k <= |Honorifics|
    requires forall j :: 0 <= j < k ==> Honorifics[j] != h
    ensures HonorificAt(line, i, k) == Some(h)
    decreases |Honorifics| - k
  {
    if k < |Honorifics| && Honorifics[k] != h {
      HonorificsExclusive(line, i, h, Honorifics[k]);
      HonorificAtFinds(line, i, h, k + 1);
    }
  }

  /** The white-space lead of a speaker shape is the whole leading run. */
  lemma ShapeLead(line: string, w: nat, title: string, b: nat, c: nat)
    requires ShapeAt(line, w, title, b, c)
    ensures Span(line, 0, IsWs) == w
  {
    RunExact(line, 0, line[..w], IsWs);
    assert line[w] == title[0];
    SpanExact(line, 0, w, IsWs);
  }

  /** The gap and the name run of a speaker shape are the longest runs. */
  lemma ShapeRuns(line: string, w: nat, title: string, b: nat, c: nat)
    requires ShapeAt(line, w, title, b, c)
    ensures Span(line, w + |title|, IsWs) == b - w - |title|
    ensures Span(line, b, NameChar) == c - b
  {
    var a := w + |title|;
    RunExact(line, a, line[a..b], IsWs);
    SpanExact(line, a, b - a, IsWs);
    SpanExact(line, b, c - b, NameChar);
  }

  /** Every speaker shape in a line is the cut the matcher finds. */
  lemma SpeakerCutComplete(line: string, w: nat, title: string, b: nat, c: nat)
    requires ShapeAt(line, w, title, b, c)
    ensures SpeakerCut(line) == Some(Cut(w, title, b, c))
  {
    ShapeLead(line, w, title, b, c);
    HonorificAtFinds(line, w, title, 0);
    ShapeRuns(line, w, title, b, c);
    SpeakerCutOfRuns(line, w, title, b, c);
  }

  /** The matcher's cut, from the lengths of its runs. */
  lemma SpeakerCutOfRuns(line: string, w: nat, title: string, b: nat, c: nat)
    requires 2 <= w && w + |title| < b && b + 2 <= c < |line|
    requires Span(line, 0, IsWs) == w && HonorificAt(line, w, 0) == Some(title)
    requires Span(line, w + |title|, IsWs) == b - w - |title| && Span(line, b, NameChar) == c - b
    requires IsUpper(line[b]) && line[c] == '.'
    ensures SpeakerCut(line) == Some(Cut(w, title, b, c))
  {
    NameCutOfRuns(line, w, title, b, c);
  }

  lemma NameCutOfRuns(line: string, w: nat, title: string, b: nat, c: nat)
    requires w + |title| < b && b + 2 <= c < |line|
    requires Span(line, w + |title|, IsWs) == b - w - |title| && Span(line, b, NameChar) == c - b
    requires IsUpper(line[b]) && line[c] == '.'
    ensures NameCut(line, w, title) == Some(Cut(w, title, b, c))
  {
  }

  /** Every line of the speaker shape is accepted, and the match is the one
      the shape describes: the speaker pattern has no other reading. */
  lemma MatchSpeakerComplete(line: string, w: nat, title: string, b: nat, c: nat)
    requires ShapeAt(line, w, title, b, c)
    ensures MatchSpeaker(line) == Some(SpeakerMatch(title, Trim(line[b..c]), c + 1))
  {
    SpeakerCutComplete(line, w, title, b, c);
    MatchOfCut(line, w, title, b, c);
  }

  /** The match read off a cut. */
  lemma MatchOfCut(line: string, w: nat, title: string, b: nat, c: nat)
    requires SpeakerCut(line) == Some(Cut(w, title, b, c))
    ensures MatchSpeaker(line) == Some(SpeakerMatch(title, Trim(line[b..c]), c + 1))
  {
  }

  /** The characters of a slice are those of the line. */
  lemma RunExact(line: string, k: nat, piece: string, p: char -> bool)
    requires k + |piece| <= |line| && line[k..k + |piece|] == piece
    requires forall i :: 0 <= i < |piece| ==> p(piece[i])
    ensures forall j :: k <= j < k + |piece| ==> p(line[j])
  {
    forall j | k <= j < k + |piece| ensures p(line[j]) {
      assert line[j] == piece[j - k];
    }
  }

  /** A line is recognised as a speaker line exactly when it has the shape. */
  lemma MatchSpeakerIff(line: string)
    ensures MatchSpeaker(line).Some? <==> exists w: nat, title, b: nat, c: nat :: ShapeAt(line, w, title, b, c)
  {
    if MatchSpeaker(line).Some? {
      MatchSpeakerSound(line);
    }
    if exists w: nat, title, b: nat, c: nat :: ShapeAt(line, w, title, b, c) {
      var w, title, b, c :| ShapeAt(line, w, title, b, c);
      MatchSpeakerComplete(line, w, title, b, c);
    }
  }

  // ---------------------------------------------------------------------------
  // Procedural speakers
  // ---------------------------------------------------------------------------

  /** `PROCEDURAL_SPEAKERS`, as listed in the source. */
  const ProceduralSpeakers: seq<string> := [
    "PRESIDING OFFICER", "ACTING PRESIDENT pro tempore", "PRESIDENT pro tempore",
    "SPEAKER", "SPEAKER pro tempore", "CLERK", "READING CLERK", "CHIEF CLERK",
    "CHAIR", "CHAIRMAN", "CHAIRWOMAN"]

  /** Some listed entry is a substring of the upper-cased name. */
  predicate IsProcedural(name: string) {
    exists k :: 0 <= k < |ProceduralSpeakers| && Contains(ToUpper(name), ProceduralSpeakers[k])
  }

  /** The list reduces to four words: the entries spelled with lower-case
      `pro tempore` can never occur in an upper-cased name, and the others
      contain `PRESIDING OFFICER`, `SPEAKER`, `CLERK` or `CHAIR`. */
  lemma IsProceduralReduced(name: string)
    ensures IsProcedural(name) <==> ProceduralWord(ToUpper(name))
  {
    if IsProcedural(name) {
      var k :| 0 <= k < |ProceduralSpeakers| && Contains(ToUpper(name), ProceduralSpeakers[k]);
      EntryGivesWord(name, k);
    }
    if ProceduralWord(ToUpper(name)) {
      WordGivesEntry(ToUpper(name));
    }
  }

  /** One of the four words that decide the procedural test. */
  predicate ProceduralWord(u: string) {
    Contains(u, "PRESIDING OFFICER") || Contains(u, "SPEAKER") || Contains(u, "CLERK") || Contains(u, "CHAIR")
  }

  /** Each entry found in an upper-cased name brings one of the four words. */
  lemma EntryGivesWord(name: string, k: nat)
    requires k < |ProceduralSpeakers| && Contains(ToUpper(name), ProceduralSpeakers[k])
    ensures ProceduralWord(ToUpper(name))
  {
    var u := ToUpper(name);
    var e := ProceduralSpeakers[k];
    if k == 1 || k == 2 || k == 4 {
      TemporeNeverInUpper(name, k);
      assert false;
    } else if k == 6 || k == 7 {
      ClerkEntries(k);
      ContainsTransitive(u, e, "CLERK");
    } else if k == 9 || k == 10 {
      ChairEntries(k);
      ContainsTransitive(u, e, "CHAIR");
    }
  }

  /** The `pro tempore` entries never occur in an upper-cased name. */
  lemma TemporeNeverInUpper(name: string, k: nat)
    requires k == 1 || k == 2 || k == 4
    ensures !Contains(ToUpper(name), ProceduralSpeakers[k])
  {
    TemporeEndsLower(k);
    var e := ProceduralSpeakers[k];
    LowerNeverInUpper(name, e, |e| - 1);
  }

  /** The `pro tempore` entries end in a lower-case letter. */
  lemma TemporeEndsLower(k: nat)
    requires k == 1 || k == 2 || k == 4
    ensures var e := ProceduralSpeakers[k]; |e| > 0 && IsLower(e[|e| - 1])
  {
    var e := ProceduralSpeakers[k];
    assert e[|e| - 7..] == "tempore";
  }

  /** `READING CLERK` and `CHIEF CLERK` end in `CLERK`. */
  lemma ClerkEntries(k: nat)
    requires k == 6 || k == 7
    ensures Contains(ProceduralSpeakers[k], "CLERK")
  {
    var e := ProceduralSpeakers[k];
    assert e[|e| - 5..] == "CLERK";
    ContainsAt(e, "CLERK", |e| - 5);
  }

  /** `CHAIRMAN` and `CHAIRWOMAN` start with `CHAIR`. */
  lemma ChairEntries(k: nat)
    requires k == 9 || k == 10
    ensures Contains(ProceduralSpeakers[k], "CHAIR")
  {
    var e := ProceduralSpeakers[k];
    assert e[..5] == "CHAIR";
    ContainsAt(e, "CHAIR", 0);
  }

  /** A text with a lower-case letter never occurs in an upper-cased name. */
  lemma LowerNeverInUpper(name: string, e: string, q: nat)
    requires q < |e| && IsLower(e[q])
    ensures !Contains(ToUpper(name), e)
  {
    if Contains(ToUpper(name), e) {
      ContainsChar(ToUpper(name), e, q);
    }
  }

  /** Each of the four words is itself an entry. */
  lemma WordGivesEntry(u: string)
    requires ProceduralWord(u)
    ensures exists k :: 0 <= k < |ProceduralSpeakers| && Contains(u, ProceduralSpeakers[k])
  {
    if Contains(u, "PRESIDING OFFICER") { assert ProceduralSpeakers[0] == "PRESIDING OFFICER"; }
    else if Contains(u, "SPEAKER") { assert ProceduralSpeakers[3] == "SPEAKER"; }
    else if Contains(u, "CLERK") { assert ProceduralSpeakers[5] == "CLERK"; }
    else { assert ProceduralSpeakers[8] == "CHAIR"; }
  }
}

=== FILE: speakernames.dfy ===
/** `normalizeSpeakerName` of src/lib/parser.ts: the key under which a
    speaker is looked up among members. It drops a leading honorific, drops a
    trailing "of <State>" made of one word, trims and upper-cases. */
module SpeakerNames {
  import opened Wrappers
  import opened Strings
  import SpeakerLines

  /** The honorifics of the first replacement, lower-cased; it ignores case. */
  const LowerTitles: seq<string> := ["mr.", "ms.", "mrs.", "the"]

  /** The honorific `t` starts `s` (in any case) and white space follows it. */
  predicate TitleAt(s: string, t: string) {
    OccursAtIgnoreCase(s, t, 0) && |t| < |s| && IsWs(s[|t|])
  }

  /** The number of leading characters the first replacement removes: the
      first honorific that starts the text and is followed by white space,
      with the whole white-space run after it; 0 when there is none. */
  function TitleCut(s: string): (n: nat)
    ensures n <= |s|
    ensures n > 0 ==> exists t :: t in LowerTitles && TitleAt(s, t) && n == |t| + Span(s, |t|, IsWs)
  {
    if TitleAt(s, "mr.") then 3 + Span(s, 3, IsWs)
    else if TitleAt(s, "ms.") then 3 + Span(s, 3, IsWs)
    else if TitleAt(s, "mrs.") then 4 + Span(s, 4, IsWs)
    else if TitleAt(s, "the") then 3 + Span(s, 3, IsWs)
    else 0
  }

  /** No two honorifics agree on their first three letters. */
  lemma TitlesDiffer(t: string, u: string)
    requires t in LowerTitles && u in LowerTitles
    requires t[0] == u[0] && t[1] == u[1] && t[2] == u[2]
    ensures t == u
  {
  }

  /** At most one honorific starts a text. */
  lemma TitlesExclusive(s: string, t: string, u: string)
    requires t in LowerTitles && u in LowerTitles && TitleAt(s, t) && TitleAt(s, u)
    ensures t == u
  {
    assert ToLower(s[..|t|])[0] == LowerChar(s[0]) == ToLower(s[..|u|])[0];
    assert ToLower(s[..|t|])[1] == LowerChar(s[1]) == ToLower(s[..|u|])[1];
    assert ToLower(s[..|t|])[2] == LowerChar(s[2]) == ToLower(s[..|u|])[2];
    TitlesDiffer(t, u);
  }

  /** Every honorific followed by white space is removed with that white
      space. */
  lemma TitleCutComplete(s: string, t: string)
    requires t in LowerTitles && TitleAt(s, t)
    ensures TitleCut(s) == |t| + Span(s, |t|, IsWs)
  {
    if TitleAt(s, "mr.") {
      TitlesExclusive(s, t, "mr.");
    } else if TitleAt(s, "ms.") {
      TitlesExclusive(s, t, "ms.");
    } else if TitleAt(s, "mrs.") {
      TitlesExclusive(s, t, "mrs.");
    } else {
      TitlesExclusive(s, t, "the");
    }
  }

  /** The pattern `\s+of\s+\w+$` (ignoring case) matched from `i`, with `of`
      at `j` and the final word from `k`. The pattern matches at every
      position of the white-space run before `of`; the replacement takes the
      leftmost, so `i` starts that run. */
  ghost predicate OfShape(s: string, i: nat, j: nat, k: nat) {
    && i < j && j + 2 < k < |s|
    && (forall q :: i <= q < j ==> IsWs(s[q]))
    && (i == 0 || !IsWs(s[i - 1]))
    && OccursAtIgnoreCase(s, "of", j)
    && (forall q :: j + 2 <= q < k ==> IsWs(s[q]))
    && (forall q :: k <= q < |s| ==> IsWordChar(s[q]))
  }

  /** Where the trailing run of word characters starts. */
  function WordStart(s: string): (a: nat)
    ensures a <= |s|
  {
    |s| - BackSpan(s, IsWordChar)
  }

  /** Where the run of white space ending at `a` starts. */
  function GapStart(s: string, a: nat): (b: nat)
    requires a <= |s|
    ensures b <= a
  {
    a - BackSpan(s[..a], IsWs)
  }

  /** Where the second replacement cuts: reading from the end, the final
      word, the white space before it, `of`, and the white space before that. */
  function OfCut(s: string): (r: Option<nat>)
    ensures r.Some? ==> r.value < |s|
  {
    var a := WordStart(s);
    var b := GapStart(s, a);
    if a == |s| || b == a || b < 2 || !OccursAtIgnoreCase(s, "of", b - 2) then None
    else
      var i := GapStart(s, b - 2);
      if i == b - 2 then None else Some(i)
  }

  /** A cut the function reports is where the pattern matches. */
  lemma OfCutSound(s: string)
    requires OfCut(s).Some?
    ensures exists j: nat, k: nat :: OfShape(s, OfCut(s).value, j, k)
  {
    var a := WordStart(s);
    var b := GapStart(s, a);
    OfCutPoints(s);
    OfShapeAt(s, OfCut(s).value, b, a);
  }

  /** The points a reported cut is made of. */
  lemma OfCutPoints(s: string)
    requires OfCut(s).Some?
    ensures var a := WordStart(s);
            var b := GapStart(s, a);
            && 2 <= b < a < |s| && OccursAtIgnoreCase(s, "of", b - 2)
            && OfCut(s).value == GapStart(s, b - 2) < b - 2
  {
  }

  /** Those points have the shape of the pattern. */
  lemma OfShapeAt(s: string, i: nat, b: nat, a: nat)
    requires 2 <= b < a < |s| && WordStart(s) == a && GapStart(s, a) == b
    requires OccursAtIgnoreCase(s, "of", b - 2) && GapStart(s, b - 2) == i && i < b - 2
    ensures OfShape(s, i, b - 2, a)
  {
    GapRun(s, a);
    GapRun(s, b - 2);
    WordRun(s);
  }

  /** The trailing word is made of word characters. */
  lemma WordRun(s: string)
    ensures forall q :: WordStart(s) <= q < |s| ==> IsWordChar(s[q])
  {
  }

  /** The white-space run ending at `a` is white space and cannot be extended. */
  lemma GapRun(s: string, a: nat)
    requires a <= |s|
    ensures forall q :: GapStart(s, a) <= q < a ==> IsWs(s[q])
    ensures GapStart(s, a) == 0 || !IsWs(s[GapStart(s, a) - 1])
  {
    BackSpanPrefix(s, a, IsWs);
  }

  /** Where the pattern matches, the function cuts. */
  lemma OfCutComplete(s: string, i: nat, j: nat, k: nat)
    requires OfShape(s, i, j, k)
    ensures OfCut(s) == Some(i)
  {
    WordStartExact(s, k);
    OfNotWs(s, j);
    GapStartExact(s, k, j + 2);
    GapStartExact(s, j, i);
    OfCutOfPoints(s, i, j + 2, k);
  }

  /** The cut, from the three cut points. */
  lemma OfCutOfPoints(s: string, i: nat, b: nat, a: nat)
    requires 2 <= b < a < |s| && WordStart(s) == a && GapStart(s, a) == b
    requires OccursAtIgnoreCase(s, "of", b - 2) && i < b - 2 && GapStart(s, b - 2) == i
    ensures OfCut(s) == Some(i)
  {
  }

  /** The trailing word starts after the last character outside `\w`. */
  lemma WordStartExact(s: string, k: nat)
    requires 0 < k <= |s| && IsWs(s[k - 1])
    requires forall q :: k <= q < |s| ==> IsWordChar(s[q])
    ensures WordStart(s) == k
  {
    WsNotWord(s[k - 1]);
    BackSpanExact(s, |s| - k, IsWordChar);
  }

  /** The white-space run ending at `a` starts after the last character that
      is not white space. */
  lemma GapStartExact(s: string, a: nat, b: nat)
    requires b <= a <= |s|
    requires forall q :: b <= q < a ==> IsWs(s[q])
    requires b == 0 || !IsWs(s[b - 1])
    ensures GapStart(s, a) == b
  {
    BackSpanPrefixExact(s, a, a - b, IsWs);
  }

  /** White space is no word character. */
  lemma WsNotWord(c: char)
    ensures IsWs(c) ==> !IsWordChar(c)
  {
  }

  /** The `f` of an `of` is no white space. */
  lemma OfNotWs(s: string, j: nat)
    requires OccursAtIgnoreCase(s, "of", j)
    ensures !IsWs(s[j + 1])
  {
    assert ToLower(s[j..j + 2])[1] == LowerChar(s[j + 1]) == 'f';
    UpperCharWs(s[j + 1]);
  }

  /** The cut is the start of the match: it is reported exactly where the
      pattern matches. */
  lemma OfCutIff(s: string, i: nat)
    ensures OfCut(s) == Some(i) <==> exists j: nat, k: nat :: OfShape(s, i, j, k)
  {
    if OfCut(s) == Some(i) {
      OfCutSound(s);
    }
    if exists j: nat, k: nat :: OfShape(s, i, j, k) {
      var j: nat, k: nat :| OfShape(s, i, j, k);
      OfCutComplete(s, i, j, k);
    }
  }

  /** The text without its leading honorific. */
  function StripTitle(s: string): string {
    s[TitleCut(s)..]
  }

  /** The text without its trailing "of <word>". */
  function StripState(s: string): string {
    match OfCut(s)
    case Some(i) => s[..i]
    case None => s
  }

  /** `normalizeSpeakerName`. */
  function NormalizeSpeakerName(speaker: string): (r: string)
    ensures |r| <= |speaker| && NoLower(r)
    ensures |r| == 0 || (!IsWs(r[0]) && !IsWs(r[|r| - 1]))
  {
    UpperTrimmed(StripState(StripTitle(speaker)))
  }

  /** The last two steps: trim, then upper-case. */
  function UpperTrimmed(u: string): (r: string)
    ensures |r| <= |u| && NoLower(r)
    ensures |r| == 0 || (!IsWs(r[0]) && !IsWs(r[|r| - 1]))
  {
    var t := Trim(u);
    ToUpperEnds(t);
    ToUpper(t)
  }

  // ---------------------------------------------------------------------------
  // Speaker labels built by the scanner
  // ---------------------------------------------------------------------------

  /** A name as the speaker pattern captures it after trimming: it starts with
      a capital, holds only name characters and does not end in white space. */
  predicate ScannedName(n: string) {
    && |n| > 0 && IsUpper(n[0]) && !IsWs(n[|n| - 1])
    && forall q :: 0 <= q < |n| ==> SpeakerLines.NameChar(n[q])
  }

  /** Every name the speaker pattern yields has that form. */
  lemma MatchedNameScanned(line: string)
    requires SpeakerLines.MatchSpeaker(line).Some?
    ensures ScannedName(SpeakerLines.MatchSpeaker(line).value.name)
  {
    SpeakerLines.MatchSpeakerSound(line);
    var m := SpeakerLines.MatchSpeaker(line).value;
    var w: nat, b: nat, c: nat :| SpeakerLines.ShapeAt(line, w, m.title, b, c) && m.name == Trim(line[b..c]) && m.end == c + 1;
    RunScanned(line, b, c);
  }

  /** A run of name characters that starts with a capital is a scanned name
      once trimmed. */
  lemma RunScanned(line: string, b: nat, c: nat)
    requires b < c <= |line| && IsUpper(line[b])
    requires forall j :: b <= j < c ==> SpeakerLines.NameChar(line[j])
    ensures ScannedName(Trim(line[b..c]))
  {
    var run := line[b..c];
    assert run[0] == line[b];
    assert LeadWs(run) == 0;
    assert !AllWs(run);
    var n := Trim(run);
    assert forall q :: 0 <= q < |n| ==> n[q] == line[b + q];
  }

  /** The lower-cased honorifics of the speaker pattern are the ones the
      first replacement removes. */
  lemma HonorificLowered(title: string)
    requires title in SpeakerLines.Honorifics
    ensures ToLower(title) in LowerTitles && |ToLower(title)| == |title|
  {
    if title == "Mr." {
      assert ToLower(title) == "mr.";
    } else if title == "Ms." {
      assert ToLower(title) == "ms.";
    } else if title == "Mrs." {
      assert ToLower(title) == "mrs.";
    } else {
      assert ToLower(title) == "the";
    }
  }

  /** The first replacement removes exactly the honorific and the one space
      of a label. */
  lemma StripTitleOfLabel(title: string, name: string)
    requires title in SpeakerLines.Honorifics && ScannedName(name)
    ensures StripTitle(title + " " + name) == name
  {
    LabelTitleCut(title, name);
    assert (title + " " + name)[|title| + 1..] == name;
  }

  /** The cut of a label ends right after the one space. */
  lemma LabelTitleCut(title: string, name: string)
    requires title in SpeakerLines.Honorifics && |name| > 0 && !IsWs(name[0])
    ensures TitleCut(title + " " + name) == |title| + 1
  {
    var s := title + " " + name;
    var t := ToLower(title);
    HonorificLowered(title);
    assert s[..|t|] == title;
    assert s[|t|] == ' ';
    assert TitleAt(s, t);
    TitleCutComplete(s, t);
    assert s[|t| + 1] == name[0];
    SpanExact(s, |t|, 1, IsWs);
  }

  /** A name made of name characters has no lower-case letter, nor has any
      slice of it. */
  lemma ScannedSliceNoLower(n: string, x: nat, y: nat)
    requires forall q :: 0 <= q < |n| ==> SpeakerLines.NameChar(n[q])
    requires x <= y <= |n|
    ensures NoLower(n[x..y])
  {
    assert forall q :: x <= q < y ==> SpeakerLines.NameChar(n[q]);
  }

  /** Normalizing the label the scanner builds for a speaker gives back the
      scanned name, except that a trailing "OF <word>" is dropped too: the
      honorific goes, and the name is already trimmed and in capitals. */
  lemma NormalizeLabel(m: SpeakerLines.SpeakerMatch)
    requires m.title in SpeakerLines.Honorifics && ScannedName(m.name)
    ensures OfCut(m.name).None? ==> NormalizeSpeakerName(SpeakerLines.Label(m)) == m.name
    ensures OfCut(m.name).Some? ==>
              NormalizeSpeakerName(SpeakerLines.Label(m)) == Trim(m.name[..OfCut(m.name).value])
  {
    StripTitleOfLabel(m.title, m.name);
    var n := m.name;
    NormalizeSteps(SpeakerLines.Label(m), n, StripState(n));
    match OfCut(n)
    case None =>
      TrimNoop(n);
      ScannedSliceNoLower(n, 0, |n|);
      assert n[0..|n|] == n;
      ToUpperNoLower(n);
    case Some(i) =>
      TrimScannedPrefix(n, i);
  }

  /** The normalized name, from what the two replacements leave. */
  lemma NormalizeSteps(speaker: string, rest: string, kept: string)
    requires StripTitle(speaker) == rest && StripState(rest) == kept
    ensures NormalizeSpeakerName(speaker) == ToUpper(Trim(kept))
  {
  }

  /** A trimmed prefix of a scanned name is already in capitals. */
  lemma TrimScannedPrefix(n: string, i: nat)
    requires ScannedName(n) && i <= |n|
    ensures ToUpper(Trim(n[..i])) == Trim(n[..i])
  {
    var h := n[..i];
    var t := Trim(h);
    ScannedSliceNoLower(n, LeadWs(h), LeadWs(h) + |t|);
    assert t == n[LeadWs(h)..LeadWs(h) + |t|];
    ToUpperNoLower(t);
  }

  /** Normalizing the label of a scanned speaker line with no trailing
      "OF <word>" gives the scanned name. */
  lemma NormalizeMatchedLabel(line: string)
    requires SpeakerLines.MatchSpeaker(line).Some?
    requires OfCut(SpeakerLines.MatchSpeaker(line).value.name).None?
    ensures NormalizeSpeakerName(SpeakerLines.Label(SpeakerLines.MatchSpeaker(line).value)) ==
              SpeakerLines.MatchSpeaker(line).value.name
  {
    MatchedNameScanned(line);
    NormalizeLabel(SpeakerLines.MatchSpeaker(line).value);
  }

  // ---------------------------------------------------------------------------
  // The examples the source's comments give
  // ---------------------------------------------------------------------------

  const Kaptur: string := "Mr. KAPTUR of Ohio"
  const KapturRest: string := "KAPTUR of Ohio"
  const KapturName: string := "KAPTUR"

  lemma KapturTitle()
    ensures StripTitle(Kaptur) == KapturRest
  {
    assert ToLower(Kaptur[..3]) == "mr.";
    assert TitleAt(Kaptur, "mr.");
    SpanExact(Kaptur, 3, 1, IsWs);
    assert Kaptur[4..] == KapturRest;
  }

  lemma KapturState()
    ensures StripState(KapturRest) == KapturName
  {
    KapturOfShape();
    OfCutComplete(KapturRest, 6, 7, 10);
    KapturPrefix();
  }

  lemma KapturOfShape()
    ensures OfShape(KapturRest, 6, 7, 10)
  {
    assert ToLower(KapturRest[7..9]) == "of";
  }

  lemma KapturPrefix()
    ensures KapturRest[..6] == KapturName
  {
  }

  lemma KapturNameKept()
    ensures ToUpper(Trim(KapturName)) == KapturName
  {
    TrimNoop(KapturName);
    ToUpperNoLower(KapturName);
  }

  /** "Mr. KAPTUR of Ohio" is looked up as "KAPTUR". */
  lemma KapturExample()
    ensures NormalizeSpeakerName(Kaptur) == KapturName
  {
    KapturTitle();
    KapturState();
    NormalizeSteps(Kaptur, KapturRest, KapturName);
    KapturNameKept();
  }

  const Smith: string := "Mr. SMITH of New York"
  const SmithRest: string := "SMITH of New York"

  lemma SmithTitle()
    ensures StripTitle(Smith) == SmithRest
  {
    assert ToLower(Smith[..3]) == "mr.";
    assert TitleAt(Smith, "mr.");
    SpanExact(Smith, 3, 1, IsWs);
    assert Smith[4..] == SmithRest;
  }

  /** A state of two words is kept: the word before the last one is not `of`. */
  lemma SmithState()
    ensures StripState(SmithRest) == SmithRest
  {
    WordStartExact(SmithRest, 13);
    GapStartExact(SmithRest, 13, 12);
    assert ToLower(SmithRest[10..12])[0] == 'e';
  }

  lemma SmithUpper()
    ensures ToUpper(SmithRest) == "SMITH OF NEW YORK"
  {
  }

  /** "Mr. SMITH of New York" keeps its state: it becomes "SMITH OF NEW YORK". */
  lemma SmithExample()
    ensures NormalizeSpeakerName(Smith) == "SMITH OF NEW YORK"
  {
    SmithTitle();
    SmithState();
    NormalizeSteps(Smith, SmithRest, SmithRest);
    SmithTrimmed();
    SmithUpper();
  }

  lemma SmithTrimmed()
    ensures Trim(SmithRest) == SmithRest
  {
    assert SmithRest[0] == 'S' && SmithRest[|SmithRest| - 1] == 'k';
    TrimNoop(SmithRest);
  }
}

=== FILE: strings.dfy ===
/** Character classes, ASCII case mapping and the JavaScript string operations
    the source relies on (`trim`, `split`, `includes`, `indexOf`, `slice`,
    `replace(/\s+/g, ...)`, `parseInt`, number-to-string). */
module Strings {
  import opened Wrappers

  /** JavaScript's `\s` class, which is also the set `String.prototype.trim`
      removes: tab, line feed, vertical tab, form feed, carriage return, the
      Unicode space separators, the line and paragraph separators and the
      byte-order mark. */
  predicate IsWs(c: char) {
    || c == ' ' || c == '\t' || c == '\n' || c == '\r' || c == '\U{0B}' || c == '\U{0C}'
    || c == '\U{A0}' || c == '\U{1680}' || ('\U{2000}' <= c <= '\U{200A}')
    || c == '\U{2028}' || c == '\U{2029}' || c == '\U{202F}' || c == '\U{205F}'
    || c == '\U{3000}' || c == '\U{FEFF}'
  }

  /** JavaScript's `\d`. */
  predicate IsDigit(c: char) { '0' <= c <= '9' }

  predicate IsUpper(c: char) { 'A' <= c <= 'Z' }

  predicate IsLower(c: char) { 'a' <= c <= 'z' }

  /** JavaScript's `\w`. */
  predicate IsWordChar(c: char) { IsUpper(c) || IsLower(c) || IsDigit(c) || c == '_' }

  predicate AllWs(s: string) { forall i :: 0 <= i < |s| ==> IsWs(s[i]) }

  predicate NoWs(s: string) { forall i :: 0 <= i < |s| ==> !IsWs(s[i]) }

  predicate AllDigits(s: string) { forall i :: 0 <= i < |s| ==> IsDigit(s[i]) }

  predicate NoLower(s: string) { forall i :: 0 <= i < |s| ==> !IsLower(s[i]) }

  predicate NoUpper(s: string) { forall i :: 0 <= i < |s| ==> !IsUpper(s[i]) }

  // ---------------------------------------------------------------------------
  // Case mapping (ASCII letters only)
  // ---------------------------------------------------------------------------

  function UpperChar(c: char): char {
    if IsLower(c) then (c as int - 32) as char else c
  }

  function LowerChar(c: char): char {
    if IsUpper(c) then (c as int + 32) as char else c
  }

  function ToUpper(s: string): (r: string)
    ensures |r| == |s|
    ensures NoLower(r)
  {
    seq(|s|, i requires 0 <= i < |s| => UpperChar(s[i]))
  }

  function ToLower(s: string): (r: string)
    ensures |r| == |s|
    ensures NoUpper(r)
  {
    seq(|s|, i requires 0 <= i < |s| => LowerChar(s[i]))
  }

  /** Upper-casing keeps a text free of white space at either end. */
  lemma ToUpperEnds(s: string)
    requires |s| > 0 ==> !IsWs(s[0]) && !IsWs(s[|s| - 1])
    ensures |ToUpper(s)| == 0 || (!IsWs(ToUpper(s)[0]) && !IsWs(ToUpper(s)[|s| - 1]))
  {
    if |s| > 0 {
      UpperCharWs(s[0]);
      UpperCharWs(s[|s| - 1]);
    }
  }

  /** Upper-casing a character never changes whether it is white space. */
  lemma UpperCharWs(c: char)
    ensures IsWs(UpperChar(c)) <==> IsWs(c)
  {
    if IsLower(c) {
      assert 'A' <= UpperChar(c) <= 'Z';
    }
  }

  /** A string with no lower-case letter is its own upper-case form. */
  lemma ToUpperNoLower(s: string)
    requires NoLower(s)
    ensures ToUpper(s) == s
  {
  }

  lemma ToLowerNoUpper(s: string)
    requires NoUpper(s)
    ensures ToLower(s) == s
  {
  }

  lemma ToLowerAppend(a: string, b: string)
    ensures ToLower(a + b) == ToLower(a) + ToLower(b)
  {
  }

  /** Lower-casing commutes with taking a slice. */
  lemma ToLowerSlice(s: string, x: nat, y: nat)
    requires x <= y <= |s|
    ensures ToLower(s)[x..y] == ToLower(s[x..y])
  {
  }

  /** A slice is the concatenation of its two halves. */
  lemma SliceConcat(s: string, x: nat, y: nat, z: nat)
    requires x <= y <= z <= |s|
    ensures s[x..z] == s[x..y] + s[y..z]
  {
  }

  /** The lower-case pattern `p` occurs at `i` in `s` when letters are
      compared without regard to case (a regex with the `i` flag). */
  predicate OccursAtIgnoreCase(s: string, p: string, i: nat) {
    i + |p| <= |s| && ToLower(s[i..i + |p|]) == p
  }

  // ---------------------------------------------------------------------------
  // Runs of characters
  // ---------------------------------------------------------------------------

  /** Length of the longest run of characters satisfying `p` that starts at `k`. */
  function Span(s: string, k: nat, p: char -> bool): (n: nat)
    requires k <= |s|
    ensures k + n <= |s|
    ensures forall j :: k <= j < k + n ==> p(s[j])
    ensures k + n == |s| || !p(s[k + n])
    decreases |s| - k
  {
    if k < |s| && p(s[k]) then 1 + Span(s, k + 1, p) else 0
  }

  /** A run is the span exactly when it is as long as possible: every
      character in it satisfies `p` and the next one does not. */
  lemma SpanExact(s: string, k: nat, n: nat, p: char -> bool)
    requires k + n <= |s|
    requires forall j :: k <= j < k + n ==> p(s[j])
    requires k + n == |s| || !p(s[k + n])
    ensures Span(s, k, p) == n
  {
  }

  /** A white-space run is all white space. */
  lemma SpanWs(s: string, k: nat)
    requires k <= |s|
    ensures AllWs(s[k..k + Span(s, k, IsWs)])
  {
    var n := Span(s, k, IsWs);
    var t := s[k..k + n];
    assert forall j :: 0 <= j < n ==> t[j] == s[k + j];
  }

  /** A digit run is all digits. */
  lemma SpanDigits(s: string, k: nat)
    requires k <= |s|
    ensures AllDigits(s[k..k + Span(s, k, IsDigit)])
  {
    var n := Span(s, k, IsDigit);
    var t := s[k..k + n];
    assert forall j :: 0 <= j < n ==> t[j] == s[k + j];
  }

  /** Length of the longest run of characters satisfying `p` that ends `s`. */
  function BackSpan(s: string, p: char -> bool): (n: nat)
    ensures n <= |s|
    ensures forall j :: |s| - n <= j < |s| ==> p(s[j])
    ensures n == |s| || !p(s[|s| - n - 1])
  {
    if |s| > 0 && p(s[|s| - 1]) then 1 + BackSpan(s[..|s| - 1], p) else 0
  }

  /** A trailing run is the back span exactly when it is as long as possible. */
  lemma BackSpanExact(s: string, n: nat, p: char -> bool)
    requires n <= |s|
    requires forall j :: |s| - n <= j < |s| ==> p(s[j])
    requires n == |s| || !p(s[|s| - n - 1])
    ensures BackSpan(s, p) == n
  {
  }

  /** The back span of a prefix `s[..a]`, read as positions of `s`. */
  lemma BackSpanPrefix(s: string, a: nat, p: char -> bool)
    requires a <= |s|
    ensures forall q :: a - BackSpan(s[..a], p) <= q < a ==> p(s[q])
    ensures BackSpan(s[..a], p) == a || !p(s[a - BackSpan(s[..a], p) - 1])
  {
    var t := s[..a];
    assert forall q :: 0 <= q < a ==> t[q] == s[q];
  }

  /** The back span of a prefix, when the run it should have is known. */
  lemma BackSpanPrefixExact(s: string, a: nat, n: nat, p: char -> bool)
    requires n <= a <= |s|
    requires forall q :: a - n <= q < a ==> p(s[q])
    requires n == a || !p(s[a - n - 1])
    ensures BackSpan(s[..a], p) == n
  {
    var t := s[..a];
    assert forall q :: 0 <= q < a ==> t[q] == s[q];
    BackSpanExact(t, n, p);
  }

  // ---------------------------------------------------------------------------
  // trim
  // ---------------------------------------------------------------------------

  /** Number of leading whitespace characters. */
  function LeadWs(s: string): nat
    ensures LeadWs(s) <= |s|
  {
    Span(s, 0, IsWs)
  }

  /** `String.prototype.trim`: `s` is leading white space, then `r`, then
      trailing white space, and `r` neither starts nor ends with white space. */
  function Trim(s: string): (r: string)
    ensures |r| <= |s|
    ensures |r| > 0 ==> !IsWs(r[0]) && !IsWs(r[|r| - 1])
    ensures LeadWs(s) + |r| <= |s| && r == s[LeadWs(s)..LeadWs(s) + |r|]
    ensures AllWs(s[..LeadWs(s)]) && AllWs(s[LeadWs(s) + |r|..])
    ensures |r| == 0 <==> AllWs(s)
  {
    TrimFacts(s);
    s[LeadWs(s)..|s| - BackSpan(s[LeadWs(s)..], IsWs)]
  }

  /** `Trim`'s contract, about the slice its body takes. */
  lemma TrimFacts(s: string)
    ensures var a := LeadWs(s);
            var e := |s| - BackSpan(s[a..], IsWs);
            && a <= e
            && var r := s[a..e];
            && |r| <= |s|
            && (|r| > 0 ==> !IsWs(r[0]) && !IsWs(r[|r| - 1]))
            && LeadWs(s) + |r| <= |s| && r == s[LeadWs(s)..LeadWs(s) + |r|]
            && AllWs(s[..LeadWs(s)]) && AllWs(s[LeadWs(s) + |r|..])
            && (|r| == 0 <==> AllWs(s))
  {
    var a := LeadWs(s);
    var e := |s| - BackSpan(s[a..], IsWs);
    TrimSlice(s);
    TrimOfSlice(s, a, e);
  }

  /** The slice from `a` to `e`, stated in the terms of `Trim`'s contract. */
  lemma TrimOfSlice(s: string, a: nat, e: nat)
    requires a == LeadWs(s) && a <= e <= |s|
    requires e > a ==> !IsWs(s[a]) && !IsWs(s[e - 1])
    requires AllWs(s[..a]) && AllWs(s[e..])
    requires e == a <==> AllWs(s)
    ensures var r := s[a..e];
            && |r| <= |s|
            && (|r| > 0 ==> !IsWs(r[0]) && !IsWs(r[|r| - 1]))
            && LeadWs(s) + |r| <= |s| && r == s[LeadWs(s)..LeadWs(s) + |r|]
            && AllWs(s[..LeadWs(s)]) && AllWs(s[LeadWs(s) + |r|..])
            && (|r| == 0 <==> AllWs(s))
  {
  }

  /** The facts `Trim` promises, about the slice between the leading and
      the trailing white space. */
  lemma TrimSlice(s: string)
    ensures var a := LeadWs(s);
            var e := |s| - BackSpan(s[a..], IsWs);
            && a <= e
            && (e > a ==> !IsWs(s[a]) && !IsWs(s[e - 1]))
            && AllWs(s[..a]) && AllWs(s[e..])
            && (e == a <==> AllWs(s))
  {
    var a := LeadWs(s);
    var t := s[a..];
    var b := BackSpan(t, IsWs);
    assert a < |s| ==> !IsWs(s[a]);
    assert forall j :: 0 <= j < a ==> s[..a][j] == s[j];
    assert s[|s| - b..] == t[|t| - b..];
    if b < |t| {
      assert s[|s| - b - 1] == t[|t| - b - 1];
    } else {
      assert a == |s| && s[..a] == s;
    }
  }

  /** A string that neither starts nor ends with white space is its own trim. */
  lemma TrimNoop(s: string)
    requires |s| == 0 || (!IsWs(s[0]) && !IsWs(s[|s| - 1]))
    ensures Trim(s) == s
  {
    if |s| > 0 {
      assert LeadWs(s) == 0;
    }
  }

  lemma TrimIdempotent(s: string)
    ensures Trim(Trim(s)) == Trim(s)
  {
    TrimNoop(Trim(s));
  }

  // ---------------------------------------------------------------------------
  // replace(/\s+/g, rep)
  // ---------------------------------------------------------------------------

  /** `s.replace(/\s+/g, rep)`: every maximal run of white space becomes `rep`. */
  function ReplaceWsRuns(s: string, rep: string): string
    decreases |s|
  {
    if |s| == 0 then ""
    else if IsWs(s[0]) then rep + ReplaceWsRuns(s[Span(s, 0, IsWs)..], rep)
    else [s[0]] + ReplaceWsRuns(s[1..], rep)
  }

  /** `s.replace(/\s+/g, ' ')`. */
  function CollapseWs(s: string): string {
    ReplaceWsRuns(s, " ")
  }

  /** `s.replace(/\s+/g, '')`. */
  function RemoveWs(s: string): string {
    ReplaceWsRuns(s, "")
  }

  /** Reference definition: the non-white-space characters of `s`, in order. */
  function NonWs(s: string): string
    decreases |s|
  {
    if |s| == 0 then "" else (if IsWs(s[0]) then "" else [s[0]]) + NonWs(s[1..])
  }

  lemma {:induction false} NonWsOfAllWs(s: string)
    requires AllWs(s)
    ensures NonWs(s) == ""
    decreases |s|
  {
    if |s| > 0 { NonWsOfAllWs(s[1..]); }
  }

  lemma {:induction false} NonWsOfNoWs(s: string)
    requires NoWs(s)
    ensures NonWs(s) == s
    decreases |s|
  {
    if |s| > 0 { NonWsOfNoWs(s[1..]); }
  }

  /** Dropping white space removes a white-space run between two texts. */
  lemma NonWsGap(a: string, g: string, b: string)
    requires AllWs(g) && NoWs(b)
    ensures NonWs(a + g + b) == NonWs(a) + b
  {
    NonWsAppend(a + g, b);
    NonWsAppend(a, g);
    NonWsOfAllWs(g);
    NonWsOfNoWs(b);
  }

  lemma {:induction false} NonWsAppend(a: string, b: string)
    ensures NonWs(a + b) == NonWs(a) + NonWs(b)
    decreases |a|
  {
    if |a| > 0 {
      assert (a + b)[1..] == a[1..] + b;
      NonWsAppend(a[1..], b);
    } else {
      assert a + b == b;
    }
  }

  /** Lower-casing a character never changes whether it is white space. */
  lemma LowerCharWs(c: char)
    ensures IsWs(LowerChar(c)) <==> IsWs(c)
  {
    if IsUpper(c) {
      assert 'a' <= LowerChar(c) <= 'z';
    }
  }

  /** Lower-casing and dropping white space can be done in either order. */
  lemma {:induction false} NonWsToLower(s: string)
    ensures NonWs(ToLower(s)) == ToLower(NonWs(s))
    decreases |s|
  {
    if |s| > 0 {
      assert ToLower(s)[1..] == ToLower(s[1..]);
      NonWsToLower(s[1..]);
      LowerCharWs(s[0]);
      ToLowerAppend(if IsWs(s[0]) then "" else [s[0]], NonWs(s[1..]));
    }
  }

  /** The two orders of `toLowerCase` and `replace(/\s+/g, '')` agree. */
  lemma RemoveWsToLower(s: string)
    ensures RemoveWs(ToLower(s)) == ToLower(RemoveWs(s))
  {
    RemoveWsIsNonWs(ToLower(s));
    RemoveWsIsNonWs(s);
    NonWsToLower(s);
  }

  /** A string with no white space is unchanged by any white-space replacement. */
  lemma {:induction false} ReplaceWsRunsNoWs(s: string, rep: string)
    requires NoWs(s)
    ensures ReplaceWsRuns(s, rep) == s
    decreases |s|
  {
    if |s| > 0 {
      ReplaceWsRunsNoWs(s[1..], rep);
    }
  }

  /** A leading part without white space passes through run replacement. */
  lemma {:induction false} ReplaceWsRunsNoWsPrefix(x: string, rest: string, rep: string)
    requires NoWs(x)
    ensures ReplaceWsRuns(x + rest, rep) == x + ReplaceWsRuns(rest, rep)
    decreases |x|
  {
    if |x| > 0 {
      assert (x + rest)[1..] == x[1..] + rest;
      ReplaceWsRunsNoWsPrefix(x[1..], rest, rep);
    } else {
      assert x + rest == rest;
    }
  }

  /** A whole white-space run becomes one copy of the replacement. */
  lemma ReplaceWsRunsGap(g: string, y: string, rep: string)
    requires |g| > 0 && AllWs(g)
    requires |y| == 0 || !IsWs(y[0])
    ensures ReplaceWsRuns(g + y, rep) == rep + ReplaceWsRuns(y, rep)
  {
    var s := g + y;
    SpanExact(s, 0, |g|, IsWs);
    assert s[|g|..] == y;
  }

  /** With a non-empty replacement, only the empty text is replaced by the
      empty text. */
  lemma ReplaceWsRunsEmpty(s: string, rep: string)
    requires |rep| > 0
    ensures |ReplaceWsRuns(s, rep)| == 0 <==> |s| == 0
  {
  }

  /** Words separated by gaps: `words[0] + gaps[0] + words[1] + … + words[n]`. */
  function Spaced(words: seq<string>, gaps: seq<string>): string
    requires |words| == |gaps| + 1
    decreases |gaps|
  {
    if |gaps| == 0 then words[0] else words[0] + gaps[0] + Spaced(words[1..], gaps[1..])
  }

  /** Non-empty words without white space. */
  ghost predicate Words(words: seq<string>) {
    forall k :: 0 <= k < |words| ==> |words[k]| > 0 && NoWs(words[k])
  }

  /** Non-empty runs of white space. */
  ghost predicate Gaps(gaps: seq<string>) {
    forall k :: 0 <= k < |gaps| ==> |gaps[k]| > 0 && AllWs(gaps[k])
  }

  /** A spaced text starts with the first letter of its first word. */
  lemma SpacedStart(words: seq<string>, gaps: seq<string>)
    requires |words| == |gaps| + 1 && |words[0]| > 0
    ensures |Spaced(words, gaps)| > 0 && Spaced(words, gaps)[0] == words[0][0]
  {
    if |gaps| > 0 {
      assert Spaced(words, gaps) == words[0] + (gaps[0] + Spaced(words[1..], gaps[1..]));
    }
  }

  /** Words separated by white-space runs, with a white-space tail, come out
      joined by `rep`, followed by one `rep` when the tail is not empty. */
  lemma {:induction false} ReplaceWsRunsSpacedTail(words: seq<string>, gaps: seq<string>, tail: string, rep: string)
    requires |words| == |gaps| + 1 && Words(words) && Gaps(gaps) && AllWs(tail)
    ensures ReplaceWsRuns(Spaced(words, gaps) + tail, rep) == JoinWith(words, rep) + (if |tail| > 0 then rep else "")
    decreases |gaps|
  {
    if |gaps| == 0 {
      WordThenTail(words[0], tail, rep);
    } else {
      var ws, gs := words[1..], gaps[1..];
      assert Words(ws) && Gaps(gs) by {
        assert forall k :: 0 <= k < |ws| ==> ws[k] == words[k + 1];
        assert forall k :: 0 <= k < |gs| ==> gs[k] == gaps[k + 1];
      }
      var pad := if |tail| > 0 then rep else "";
      SpacedStart(ws, gs);
      ReplaceWsRunsSpacedTail(ws, gs, tail, rep);
      WordThenGap(words[0], gaps[0], Spaced(ws, gs), tail, rep);
      assert words[0] + rep + (JoinWith(ws, rep) + pad) == words[0] + rep + JoinWith(ws, rep) + pad;
    }
  }

  /** A word followed by white space. */
  lemma WordThenTail(w: string, tail: string, rep: string)
    requires NoWs(w) && AllWs(tail)
    ensures ReplaceWsRuns(w + tail, rep) == w + (if |tail| > 0 then rep else "")
  {
    ReplaceWsRunsNoWsPrefix(w, tail, rep);
    if |tail| > 0 {
      ReplaceWsRunsGap(tail, "", rep);
      assert tail + "" == tail;
    }
  }

  /** A word, a white-space run, then a text starting with a word. */
  lemma WordThenGap(w: string, g: string, x: string, tail: string, rep: string)
    requires NoWs(w) && |g| > 0 && AllWs(g) && |x| > 0 && !IsWs(x[0])
    ensures ReplaceWsRuns(w + g + x + tail, rep) == w + rep + ReplaceWsRuns(x + tail, rep)
  {
    assert w + g + x + tail == w + (g + (x + tail));
    ReplaceWsRunsNoWsPrefix(w, g + (x + tail), rep);
    ReplaceWsRunsGap(g, x + tail, rep);
  }

  /** A text of words separated by white-space runs, padded with white space
      at either end, becomes the words joined by `rep`, with one more `rep` at
      each padded end. */
  lemma ReplaceWsRunsSpaced(lead: string, words: seq<string>, gaps: seq<string>, tail: string, rep: string)
    requires |words| == |gaps| + 1 && Words(words) && Gaps(gaps) && AllWs(lead) && AllWs(tail)
    ensures ReplaceWsRuns(lead + Spaced(words, gaps) + tail, rep)
            == (if |lead| > 0 then rep else "") + JoinWith(words, rep) + (if |tail| > 0 then rep else "")
  {
    var body := Spaced(words, gaps) + tail;
    ReplaceWsRunsSpacedTail(words, gaps, tail, rep);
    assert lead + Spaced(words, gaps) + tail == lead + body;
    if |lead| > 0 {
      SpacedStart(words, gaps);
      ReplaceWsRunsGap(lead, body, rep);
    } else {
      assert lead + body == body;
    }
  }

  /** Each text lower-cased. */
  function LowerAll(ts: seq<string>): (r: seq<string>)
    ensures |r| == |ts|
  {
    seq(|ts|, i requires 0 <= i < |ts| => ToLower(ts[i]))
  }

  /** Lower-casing keeps words words and gaps gaps. */
  lemma LowerAllKeeps(words: seq<string>, gaps: seq<string>)
    requires Words(words) && Gaps(gaps)
    ensures Words(LowerAll(words)) && Gaps(LowerAll(gaps))
  {
    forall k, i | 0 <= k < |words| && 0 <= i < |words[k]| ensures !IsWs(LowerAll(words)[k][i]) {
      LowerCharWs(words[k][i]);
    }
    forall k, i | 0 <= k < |gaps| && 0 <= i < |gaps[k]| ensures IsWs(LowerAll(gaps)[k][i]) {
      LowerCharWs(gaps[k][i]);
    }
  }

  /** Lower-casing a spaced text lower-cases each word and gap. */
  lemma {:induction false} ToLowerSpaced(words: seq<string>, gaps: seq<string>)
    requires |words| == |gaps| + 1
    ensures ToLower(Spaced(words, gaps)) == Spaced(LowerAll(words), LowerAll(gaps))
    decreases |gaps|
  {
    if |gaps| > 0 {
      var ws, gs := words[1..], gaps[1..];
      ToLowerSpaced(ws, gs);
      ToLowerAppend(words[0] + gaps[0], Spaced(ws, gs));
      ToLowerAppend(words[0], gaps[0]);
      assert LowerAll(words)[1..] == LowerAll(ws);
      assert LowerAll(gaps)[1..] == LowerAll(gs);
    }
  }

  /** Removing white space keeps exactly the non-white-space characters. */
  lemma {:induction false} RemoveWsIsNonWs(s: string)
    ensures RemoveWs(s) == NonWs(s)
    decreases |s|
  {
    if |s| > 0 {
      if IsWs(s[0]) {
        var k := Span(s, 0, IsWs);
        assert s == s[..k] + s[k..];
        NonWsAppend(s[..k], s[k..]);
        NonWsOfAllWs(s[..k]);
        RemoveWsIsNonWs(s[k..]);
      } else {
        RemoveWsIsNonWs(s[1..]);
      }
    }
  }

  /** Collapsing white space loses no non-white-space character. */
  lemma {:induction false} CollapseWsKeepsContent(s: string)
    ensures NonWs(CollapseWs(s)) == NonWs(s)
    decreases |s|
  {
    if |s| > 0 {
      if IsWs(s[0]) {
        var k := Span(s, 0, IsWs);
        assert s == s[..k] + s[k..];
        NonWsAppend(s[..k], s[k..]);
        NonWsOfAllWs(s[..k]);
        NonWsAppend(" ", CollapseWs(s[k..]));
        CollapseWsKeepsContent(s[k..]);
      } else {
        NonWsAppend([s[0]], CollapseWs(s[1..]));
        CollapseWsKeepsContent(s[1..]);
      }
    }
  }

  /** A replacement without white space leaves no white space at all. */
  lemma {:induction false} ReplaceWsRunsShape(s: string, rep: string)
    requires NoWs(rep)
    ensures NoWs(ReplaceWsRuns(s, rep))
    decreases |s|
  {
    if |s| > 0 {
      if IsWs(s[0]) {
        ReplaceWsRunsShape(s[Span(s, 0, IsWs)..], rep);
      } else {
        ReplaceWsRunsShape(s[1..], rep);
      }
    }
  }

  /** `CollapseWs` leaves only plain spaces as white space, never two in a row. */
  predicate SingleSpaced(s: string) {
    && (forall i :: 0 <= i < |s| && IsWs(s[i]) ==> s[i] == ' ')
    && (forall i :: 0 <= i < |s| - 1 ==> !(IsWs(s[i]) && IsWs(s[i + 1])))
  }

  lemma {:induction false} CollapseWsSingleSpaced(s: string)
    ensures SingleSpaced(CollapseWs(s))
    ensures |CollapseWs(s)| > 0 && !IsWs(s[0]) ==> CollapseWs(s)[0] == s[0]
    decreases |s|
  {
    if |s| > 0 {
      if IsWs(s[0]) {
        var k := Span(s, 0, IsWs);
        var t := s[k..];
        CollapseWsSingleSpaced(t);
        var r := CollapseWs(t);
        assert CollapseWs(s) == " " + r;
        assert |t| > 0 ==> !IsWs(t[0]);
        assert |r| > 0 ==> r[0] == t[0];
      } else {
        CollapseWsSingleSpaced(s[1..]);
        var r := CollapseWs(s[1..]);
        assert CollapseWs(s) == [s[0]] + r;
      }
    }
  }

  /** A text is white space exactly when both its parts are. */
  lemma AllWsAppend(a: string, b: string)
    ensures AllWs(a + b) <==> AllWs(a) && AllWs(b)
  {
    if AllWs(a + b) {
      forall i | 0 <= i < |a| ensures IsWs(a[i]) {
        assert a[i] == (a + b)[i];
      }
      forall i | 0 <= i < |b| ensures IsWs(b[i]) {
        assert b[i] == (a + b)[|a| + i];
      }
    }
  }

  /** A single-spaced text is left as it is by collapsing. */
  lemma {:induction false} CollapseWsSingleSpacedNoop(s: string)
    requires SingleSpaced(s)
    ensures CollapseWs(s) == s
    decreases |s|
  {
    if |s| > 0 {
      var t := s[1..];
      assert SingleSpaced(t) by {
        assert forall i :: 0 <= i < |t| ==> t[i] == s[i + 1];
      }
      CollapseWsSingleSpacedNoop(t);
      if IsWs(s[0]) {
        assert Span(s, 0, IsWs) == 1 by {
          assert |s| > 1 ==> !IsWs(s[1]);
          SpanExact(s, 0, 1, IsWs);
        }
        assert s == " " + t;
      } else {
        assert s == [s[0]] + t;
      }
    }
  }

  /** Trimming keeps every non-white-space character. */
  lemma TrimKeepsContent(s: string)
    ensures NonWs(Trim(s)) == NonWs(s)
  {
    var l, r := LeadWs(s), Trim(s);
    assert s == s[..l] + r + s[l + |r|..];
    NonWsAppend(s[..l] + r, s[l + |r|..]);
    NonWsAppend(s[..l], r);
    NonWsOfAllWs(s[..l]);
    NonWsOfAllWs(s[l + |r|..]);
  }

  /** Trimming a single-spaced text leaves it single-spaced. */
  lemma TrimSingleSpaced(s: string)
    requires SingleSpaced(s)
    ensures SingleSpaced(Trim(s))
  {
    var l, r := LeadWs(s), Trim(s);
    assert forall i :: 0 <= i < |r| ==> r[i] == s[l + i];
  }

  // ---------------------------------------------------------------------------
  // indexOf / includes / startsWith / slice
  // ---------------------------------------------------------------------------

  /** `t` occurs in `s` starting at index `i`. */
  predicate OccursAt(s: string, t: string, i: nat) {
    i + |t| <= |s| && s[i..i + |t|] == t
  }

  /** `s.indexOf(t, from)`: the leftmost occurrence of `t` at or after `from`. */
  function IndexOf(s: string, t: string, from: nat): (r: Option<nat>)
    requires from <= |s|
    ensures r.Some? ==> from <= r.value <= |s| && OccursAt(s, t, r.value)
    ensures r.Some? ==> forall j :: from <= j < r.value ==> !OccursAt(s, t, j)
    ensures r.None? ==> forall j :: from <= j <= |s| ==> !OccursAt(s, t, j)
    decreases |s| - from
  {
    if OccursAt(s, t, from) then Some(from)
    else if from == |s| then None
    else IndexOf(s, t, from + 1)
  }

  /** `s.includes(t)`. */
  predicate Contains(s: string, t: string) {
    IndexOf(s, t, 0).Some?
  }

  /** `includes` holds exactly when some occurrence exists. */
  lemma ContainsAt(s: string, t: string, i: nat)
    requires OccursAt(s, t, i)
    ensures Contains(s, t)
  {
  }

  /** Every occurrence of `u` inside an occurrence of `t` is an occurrence in `s`. */
  lemma ContainsTransitive(s: string, t: string, u: string)
    requires Contains(s, t) && Contains(t, u)
    ensures Contains(s, u)
  {
    var i := IndexOf(s, t, 0).value;
    var j := IndexOf(t, u, 0).value;
    SliceOfSlice(s, i, |t|, j, |u|);
    ContainsAt(s, u, i + j);
  }

  /** Trimming adds no occurrence. */
  lemma TrimLacks(s: string, t: string)
    requires !Contains(s, t)
    ensures !Contains(Trim(s), t)
  {
    if Contains(Trim(s), t) {
      ContainsAt(s, Trim(s), LeadWs(s));
      ContainsTransitive(s, Trim(s), t);
    }
  }

  /** A prefix of the middle part occurs where the middle part starts. */
  lemma OccursInMiddle(a: string, m: string, b: string, p: string)
    requires p <= m
    ensures OccursAt(a + (m + b), p, |a|)
  {
    var s := a + (m + b);
    assert forall k :: 0 <= k < |p| ==> s[|a|..|a| + |p|][k] == p[k];
  }

  /** A slice of a slice is a slice. */
  lemma SliceOfSlice(s: string, i: nat, m: nat, j: nat, n: nat)
    requires i + m <= |s| && j + n <= m
    ensures s[i..i + m][j..j + n] == s[i + j..i + j + n]
  {
    var a, b := s[i..i + m][j..j + n], s[i + j..i + j + n];
    assert forall k :: 0 <= k < n ==> a[k] == b[k];
  }

  /** A character of `t` must appear in every string containing `t`. */
  lemma ContainsChar(s: string, t: string, k: nat)
    requires Contains(s, t) && k < |t|
    ensures t[k] in s
  {
    var i := IndexOf(s, t, 0).value;
    assert s[i + k] == t[k];
  }

  /** `s.startsWith(p)`. */
  predicate StartsWith(s: string, p: string) {
    OccursAt(s, p, 0)
  }

  /** `s.slice(0, n)`. */
  function Take(s: string, n: nat): (r: string)
    ensures |r| <= n && |r| <= |s|
    ensures |s| <= n ==> r == s
    ensures |s| > n ==> |r| == n
    ensures r == s[..|r|]
  {
    if |s| <= n then s else s[..n]
  }

  // ---------------------------------------------------------------------------
  // split / join
  // ---------------------------------------------------------------------------

  /** `s.split(sep)` for a non-empty separator. */
  function SplitOn(s: string, sep: string): (parts: seq<string>)
    requires |sep| > 0
    ensures |parts| > 0
    ensures forall k :: 0 <= k < |parts| ==> !Contains(parts[k], sep)
    decreases |s|
  {
    var first := IndexOf(s, sep, 0);
    if first.None? then [s]
    else
      var i := first.value;
      NoOccurrenceBefore(s, sep, i);
      var tail := SplitOn(s[i + |sep|..], sep);
      var parts := [s[..i]] + tail;
      assert forall k :: 1 <= k < |parts| ==> parts[k] == tail[k - 1];
      parts
  }

  /** The text before the leftmost occurrence of `t` does not contain `t`. */
  lemma NoOccurrenceBefore(s: string, t: string, i: nat)
    requires |t| > 0 && i <= |s| && IndexOf(s, t, 0) == Some(i)
    ensures !Contains(s[..i], t)
  {
    var head := s[..i];
    var r := IndexOf(head, t, 0);
    if r.Some? {
      var j := r.value;
      assert OccursAt(head, t, j);
      assert head[j..j + |t|] == s[j..j + |t|];
      assert OccursAt(s, t, j);
    }
  }

  /** `parts.join(sep)`. */
  function JoinWith(parts: seq<string>, sep: string): string {
    if |parts| == 0 then ""
    else if |parts| == 1 then parts[0]
    else parts[0] + sep + JoinWith(parts[1..], sep)
  }

  /** Joining one more part appends the separator and the part. */
  lemma {:induction false} JoinWithSnoc(parts: seq<string>, x: string, sep: string)
    ensures JoinWith(parts + [x], sep) == if |parts| == 0 then x else JoinWith(parts, sep) + sep + x
  {
    if |parts| >= 2 {
      assert (parts + [x])[1..] == parts[1..] + [x];
      JoinWithSnoc(parts[1..], x, sep);
    } else if |parts| == 1 {
      assert (parts + [x])[1..] == [x];
    }
  }

  /** Joining the pieces of a split with the same separator gives back the input. */
  lemma {:induction false} JoinSplit(s: string, sep: string)
    requires |sep| > 0
    ensures JoinWith(SplitOn(s, sep), sep) == s
    decreases |s|
  {
    var first := IndexOf(s, sep, 0);
    if first.Some? {
      var i := first.value;
      var rest := s[i + |sep|..];
      JoinSplit(rest, sep);
      var parts := SplitOn(s, sep);
      assert parts == [s[..i]] + SplitOn(rest, sep);
      assert parts[1..] == SplitOn(rest, sep);
      assert s == s[..i] + sep + rest;
    }
  }

  /** The first piece of a split is the text before the first separator. */
  lemma SplitHead(s: string, sep: string)
    requires |sep| > 0
    ensures IndexOf(s, sep, 0).None? ==> SplitOn(s, sep) == [s]
    ensures IndexOf(s, sep, 0).Some? ==>
              SplitOn(s, sep)[0] == s[..IndexOf(s, sep, 0).value] && |SplitOn(s, sep)| >= 2
  {
  }

  // ---------------------------------------------------------------------------
  // Decimal numbers
  // ---------------------------------------------------------------------------

  function DigitChar(d: nat): (c: char)
    requires d < 10
    ensures IsDigit(c)
  {
    ('0' as int + d) as char
  }

  /** `String(n)` for a natural number. */
  function NatToString(n: nat): (r: string)
    ensures |r| > 0 && AllDigits(r)
    decreases n
  {
    if n < 10 then [DigitChar(n)] else NatToString(n / 10) + [DigitChar(n % 10)]
  }

  /** `parseInt(d, 10)` of a string of decimal digits. */
  function DigitsValue(d: string): nat
    requires AllDigits(d)
    decreases |d|
  {
    if |d| == 0 then 0 else DigitsValue(d[..|d| - 1]) * 10 + (d[|d| - 1] as int - '0' as int)
  }

  /** Reading back a rendered number gives the number. */
  lemma {:induction false} NatToStringRoundTrip(n: nat)
    ensures DigitsValue(NatToString(n)) == n
    decreases n
  {
    if n >= 10 {
      NatToStringRoundTrip(n / 10);
      var r := NatToString(n);
      assert r[..|r| - 1] == NatToString(n / 10);
    }
  }

  /** Different numbers are rendered differently. */
  lemma NatToStringInjective(m: nat, n: nat)
    requires NatToString(m) == NatToString(n)
    ensures m == n
  {
    NatToStringRoundTrip(m);
    NatToStringRoundTrip(n);
  }

  /** A run of digits followed by a text that starts with a non-digit is
      determined by the concatenation. */
  lemma DigitsPrefixUnique(a1: string, r1: string, a2: string, r2: string)
    requires AllDigits(a1) && AllDigits(a2)
    requires |r1| > 0 && !IsDigit(r1[0]) && |r2| > 0 && !IsDigit(r2[0])
    requires a1 + r1 == a2 + r2
    ensures a1 == a2 && r1 == r2
  {
    var s := a1 + r1;
    assert a1 == s[..|a1|] && a2 == s[..|a2|];
    assert r1 == s[|a1|..] && r2 == s[|a2|..];
  }

  /** A text ending in a non-digit, followed by a run of digits, is
      determined by the concatenation. */
  lemma DigitsSuffixUnique(x1: string, d1: string, x2: string, d2: string)
    requires AllDigits(d1) && AllDigits(d2)
    requires |x1| > 0 && !IsDigit(x1[|x1| - 1]) && |x2| > 0 && !IsDigit(x2[|x2| - 1])
    requires x1 + d1 == x2 + d2
    ensures x1 == x2 && d1 == d2
  {
    var s := x1 + d1;
    assert x1 == s[..|x1|] && x2 == s[..|x2|];
    assert d1 == s[|x1|..] && d2 == s[|x2|..];
  }
}

=== FILE: translator.dfy ===
/** The deterministic parts of src/lib/translator.ts: the keyword rules that
    turn a procedural segment into a message without the language model, the
    SKIP decision on the model's reply, the clean-up of a translation reply,
    the bullet extraction used when the reply carries no usable JSON, and the
    window of recent speakers handed to each speech translation. The model
    and `JSON.parse` are parameters. */
module Translator {
  import opened Wrappers
  import opened Strings
  import opened Scanner
  import Seqs

  /** A chat message. The kind is free text: the rules and the fallback
      produce `system`, `vote_result`, `procedural` and `speech`, a parsed
      reply may carry anything. */
  datatype Message = Message(kind: string, content: string, originalExcerpt: string)

  /** The excerpt kept with a message: the first 200 characters. */
  function Excerpt(text: string): (r: string)
    ensures |r| <= 200 && r <= text
    ensures |r| == if |text| <= 200 then |text| else 200
    ensures |text| <= 200 ==> r == text
  {
    Take(text, 200)
  }

  // ---------------------------------------------------------------------------
  // The vote count pattern /yeas\s+(\d+)[,\s]+nays\s+(\d+)/i
  // ---------------------------------------------------------------------------

  const Yeas: string := "yeas"
  const Nays: string := "nays"

  /** A character of the class `[,\s]`. */
  predicate SepChar(c: char) { c == ',' || IsWs(c) }

  /** The three classes the vote pattern repeats. */
  datatype Class = Space | Digit | Separator

  predicate InClass(c: char, cl: Class) {
    match cl
    case Space => IsWs(c)
    case Digit => IsDigit(c)
    case Separator => SepChar(c)
  }

  /** How many characters a greedy repetition of the class takes from `k`.
      What the run consists of is stated by `RunSound` rather than here, to
      keep the matcher's unfolding small. */
  function Run(s: string, k: nat, cl: Class): (n: nat)
    requires k <= |s|
    ensures k + n <= |s|
    decreases |s| - k
  {
    if k < |s| && InClass(s[k], cl) then 1 + Run(s, k + 1, cl) else 0
  }

  /** The run is all of the class and is followed by the end of the text or
      by a character outside it. */
  lemma {:induction false} RunSound(s: string, k: nat, cl: Class)
    requires k <= |s|
    ensures forall j :: k <= j < k + Run(s, k, cl) ==> InClass(s[j], cl)
    ensures k + Run(s, k, cl) == |s| || !InClass(s[k + Run(s, k, cl)], cl)
    decreases |s| - k
  {
    if k < |s| && InClass(s[k], cl) {
      RunSound(s, k + 1, cl);
    }
  }

  /** A run of the class that cannot be extended is what `Run` takes. */
  lemma {:induction false} RunExact(s: string, k: nat, n: nat, cl: Class)
    requires k + n <= |s|
    requires forall j :: k <= j < k + n ==> InClass(s[j], cl)
    requires k + n == |s| || !InClass(s[k + n], cl)
    ensures Run(s, k, cl) == n
    decreases n
  {
    if n > 0 {
      RunExact(s, k + 1, n - 1, cl);
    }
  }

  /** The part `word\s+(\d+)` read as a way of cutting the text at `a`: the
      word in any case, white space, and the longest run of digits, from `b`
      to `c`. */
  ghost predicate CountShape(s: string, a: nat, word: string, b: nat, c: nat) {
    && a + |word| < b < c <= |s|
    && OccursAtIgnoreCase(s, word, a)
    && (forall j :: a + |word| <= j < b ==> IsWs(s[j]))
    && (forall j :: b <= j < c ==> IsDigit(s[j]))
    && (c == |s| || !IsDigit(s[c]))
  }

  /** The part `word\s+(\d+)` tried at `a`. White space is no digit, so the
      greedy runs leave only one way to match. */
  function CountAt(s: string, a: nat, word: string): (r: Option<(nat, nat)>)
    ensures r.Some? ==> a + |word| < r.value.0 < r.value.1 <= |s|
  {
    if !OccursAtIgnoreCase(s, word, a) then None
    else
      var b := a + |word| + Run(s, a + |word|, Space);
      var c := b + Run(s, b, Digit);
      if b == a + |word| || c == b then None else Some((b, c))
  }

  /** What `CountAt` finds has that shape. */
  lemma CountAtSound(s: string, a: nat, word: string)
    requires CountAt(s, a, word).Some?
    ensures CountShape(s, a, word, CountAt(s, a, word).value.0, CountAt(s, a, word).value.1)
  {
    var b := CountAt(s, a, word).value.0;
    RunSound(s, a + |word|, Space);
    RunSound(s, b, Digit);
  }

  /** Every cut of that shape is what `CountAt` finds. */
  lemma CountAtComplete(s: string, a: nat, word: string, b: nat, c: nat)
    requires CountShape(s, a, word, b, c)
    ensures CountAt(s, a, word) == Some((b, c))
  {
    RunExact(s, a + |word|, b - a - |word|, Space);
    RunExact(s, b, c - b, Digit);
  }

  /** Where the pieces of a vote count begin and end: the yeas digits from
      `b` to `c`, the word "nays" at `n`, the nays digits from `f` to `g`. */
  datatype VoteCut = VoteCut(b: nat, c: nat, n: nat, f: nat, g: nat)

  /** The whole vote pattern read as a way of cutting the text at `i`: the
      yeas part, a run of separators, the nays part. */
  ghost predicate VoteShapeAt(s: string, i: nat, k: VoteCut) {
    && CountShape(s, i, Yeas, k.b, k.c)
    && k.c < k.n <= |s|
    && (forall j :: k.c <= j < k.n ==> SepChar(s[j]))
    && CountShape(s, k.n, Nays, k.f, k.g)
  }

  /** The vote pattern tried at `i`. Every repetition is greedy and followed
      by a character outside its class, so there is at most one way to
      match, and it is this one. */
  function VoteCutAt(s: string, i: nat): (r: Option<VoteCut>)
    ensures r.Some? ==> i < r.value.b <= r.value.c <= r.value.f <= r.value.g <= |s|
  {
    var yeas := CountAt(s, i, Yeas);
    if yeas.None? then None
    else
      var c := yeas.value.1;
      var n := c + Run(s, c, Separator);
      if n == c then None
      else
        var nays := CountAt(s, n, Nays);
        if nays.None? then None
        else Some(VoteCut(yeas.value.0, c, n, nays.value.0, nays.value.1))
  }

  /** The matcher's cut is made of the two count parts and the separator
      run between them. */
  lemma VoteCutParts(s: string, i: nat)
    requires VoteCutAt(s, i).Some?
    ensures CountAt(s, i, Yeas) == Some((VoteCutAt(s, i).value.b, VoteCutAt(s, i).value.c))
    ensures var k := VoteCutAt(s, i).value; k.c < k.n == k.c + Run(s, k.c, Separator)
    ensures var k := VoteCutAt(s, i).value; CountAt(s, k.n, Nays) == Some((k.f, k.g))
  {
  }

  /** Two count parts with a separator run between them are the matcher's
      cut. */
  lemma VoteCutOfParts(s: string, i: nat, b: nat, c: nat, n: nat, f: nat, g: nat)
    requires CountAt(s, i, Yeas) == Some((b, c))
    requires c < n == c + Run(s, c, Separator)
    requires CountAt(s, n, Nays) == Some((f, g))
    ensures VoteCutAt(s, i) == Some(VoteCut(b, c, n, f, g))
  {
  }

  /** What the matcher finds at `i` has the vote shape. */
  lemma VoteCutSound(s: string, i: nat)
    requires VoteCutAt(s, i).Some?
    ensures VoteShapeAt(s, i, VoteCutAt(s, i).value)
  {
    var k := VoteCutAt(s, i).value;
    VoteCutParts(s, i);
    CountAtSound(s, i, Yeas);
    CountAtSound(s, k.n, Nays);
    RunSound(s, k.c, Separator);
  }

  /** A character whose lower-case form is a letter is a letter. */
  lemma LetterChar(c: char)
    requires IsLower(LowerChar(c))
    ensures IsLower(c) || IsUpper(c)
  {
  }

  /** A place where a lower-case word is matched without regard to case
      holds a letter, which is no separator. */
  lemma WordStartNotSep(s: string, p: string, i: nat)
    requires |p| > 0 && IsLower(p[0]) && OccursAtIgnoreCase(s, p, i)
    ensures !SepChar(s[i])
  {
    assert LowerChar(s[i]) == ToLower(s[i..i + |p|])[0];
    LetterChar(s[i]);
  }

  /** Every vote shape at `i` is what the matcher finds there. */
  lemma VoteCutComplete(s: string, i: nat, k: VoteCut)
    requires VoteShapeAt(s, i, k)
    ensures VoteCutAt(s, i) == Some(k)
  {
    CountAtComplete(s, i, Yeas, k.b, k.c);
    WordStartNotSep(s, Nays, k.n);
    RunExact(s, k.c, k.n - k.c, Separator);
    CountAtComplete(s, k.n, Nays, k.f, k.g);
    VoteCutOfParts(s, i, k.b, k.c, k.n, k.f, k.g);
  }

  /** The matcher at `i` finds a cut exactly when the text has the vote shape
      there. */
  lemma VoteCutIff(s: string, i: nat)
    ensures VoteCutAt(s, i).Some? <==> exists k :: VoteShapeAt(s, i, k)
  {
    if VoteCutAt(s, i).Some? {
      VoteCutSound(s, i);
    }
    if exists k :: VoteShapeAt(s, i, k) {
      var k :| VoteShapeAt(s, i, k);
      VoteCutComplete(s, i, k);
    }
  }

  /** The leftmost place at or after `from` where the vote pattern matches. */
  function FirstVoteFrom(s: string, from: nat): (r: Option<nat>)
    ensures r.Some? ==> from <= r.value && VoteCutAt(s, r.value).Some?
    ensures r.Some? ==> forall j :: from <= j < r.value ==> VoteCutAt(s, j).None?
    ensures r.None? ==> forall j :: from <= j ==> VoteCutAt(s, j).None?
    decreases |s| - from
  {
    if from >= |s| then None
    else if VoteCutAt(s, from).Some? then Some(from)
    else FirstVoteFrom(s, from + 1)
  }

  /** The two captured groups of a cut. */
  function Captures(s: string, k: VoteCut): (string, string)
    requires k.b <= k.c <= |s| && k.f <= k.g <= |s|
  {
    (s[k.b..k.c], s[k.f..k.g])
  }

  /** Both captured counts are non-empty runs of digits. */
  lemma CapturesDigits(s: string, i: nat)
    requires VoteCutAt(s, i).Some?
    ensures var v := Captures(s, VoteCutAt(s, i).value);
            |v.0| > 0 && AllDigits(v.0) && |v.1| > 0 && AllDigits(v.1)
  {
    var k := VoteCutAt(s, i).value;
    VoteCutSound(s, i);
    var v := Captures(s, k);
    assert forall j :: 0 <= j < |v.0| ==> v.0[j] == s[k.b + j];
    assert forall j :: 0 <= j < |v.1| ==> v.1[j] == s[k.f + j];
  }

  /** The two counts of `text.match(...)`: those of the leftmost vote in the
      text. */
  function VoteCounts(text: string): (r: Option<(string, string)>)
    ensures r.Some? ==> |r.value.0| > 0 && AllDigits(r.value.0) && |r.value.1| > 0 && AllDigits(r.value.1)
    ensures r.Some? <==> exists i: nat :: VoteCutAt(text, i).Some?
    ensures r.Some? ==> exists i: nat :: && VoteCutAt(text, i).Some?
                                    && (forall j :: 0 <= j < i ==> VoteCutAt(text, j).None?)
                                    && r.value == Captures(text, VoteCutAt(text, i).value)
  {
    match FirstVoteFrom(text, 0)
    case None => None
    case Some(i) =>
      CapturesDigits(text, i);
      Some(Captures(text, VoteCutAt(text, i).value))
  }

  // ---------------------------------------------------------------------------
  // The recognition pattern /senator from (\w+)/i
  // ---------------------------------------------------------------------------

  const SenatorFrom: string := "senator from "

  /** The pattern tried at `i`: the phrase in any case, then the longest run
      of word characters, which must not be empty. */
  function StateAt(s: string, i: nat): (r: Option<string>)
    ensures r.Some? ==> |r.value| > 0 && forall j :: 0 <= j < |r.value| ==> IsWordChar(r.value[j])
  {
    var a := i + |SenatorFrom|;
    if OccursAtIgnoreCase(s, SenatorFrom, i) && a < |s| && IsWordChar(s[a]) then
      var w := s[a..a + Span(s, a, IsWordChar)];
      assert forall j :: 0 <= j < |w| ==> w[j] == s[a + j];
      Some(w)
    else None
  }

  /** The state is the whole word after the phrase: it is followed by the end
      of the text or by a character that is no word character. */
  lemma StateAtWhole(s: string, i: nat)
    requires StateAt(s, i).Some?
    ensures var a := i + |SenatorFrom|;
            var e := a + |StateAt(s, i).value|;
            && e <= |s| && s[a..e] == StateAt(s, i).value
            && (e == |s| || !IsWordChar(s[e]))
  {
  }

  /** The leftmost place at or after `from` where the pattern matches. */
  function FirstStateFrom(s: string, from: nat): (r: Option<nat>)
    ensures r.Some? ==> from <= r.value && StateAt(s, r.value).Some?
    ensures r.Some? ==> forall j :: from <= j < r.value ==> StateAt(s, j).None?
    ensures r.None? ==> forall j :: from <= j ==> StateAt(s, j).None?
    decreases |s| - from
  {
    if from >= |s| then None
    else if StateAt(s, from).Some? then Some(from)
    else FirstStateFrom(s, from + 1)
  }

  /** The state word of the first recognition in the text. */
  function StateName(text: string): (r: Option<string>)
    ensures r.Some? <==> exists i: nat :: StateAt(text, i).Some?
    ensures r.Some? ==> exists i: nat :: StateAt(text, i) == r && forall j :: 0 <= j < i ==> StateAt(text, j).None?
  {
    match FirstStateFrom(text, 0)
    case None => None
    case Some(i) => StateAt(text, i)
  }

  /** A lower-case phrase matched without regard to case is contained in the
      lower-cased text, and so is each prefix of it. */
  lemma IgnoreCaseContains(s: string, p: string, i: nat, n: nat)
    requires OccursAtIgnoreCase(s, p, i) && n <= |p|
    ensures Contains(ToLower(s), p[..n])
  {
    ToLowerSlice(s, i, i + n);
    assert ToLower(s[i..i + |p|])[..n] == ToLower(s[i..i + n]);
    ContainsAt(ToLower(s), p[..n], i);
  }

  /** The source's `includes('senator from')` test before the pattern can
      never fail when the pattern matches. */
  lemma StateImpliesPhrase(text: string)
    ensures StateName(text).Some? ==> Contains(ToLower(text), "senator from")
  {
    if StateName(text).Some? {
      var i := FirstStateFrom(text, 0).value;
      IgnoreCaseContains(text, SenatorFrom, i, 12);
      assert SenatorFrom[..12] == "senator from";
    }
  }

  // ---------------------------------------------------------------------------
  // The procedural rules
  // ---------------------------------------------------------------------------

  const ReadIntoRecord: string := "Resolution read into the record"
  const VoteCalled: string := "Vote called"

  /** "Vote result: <yeas> yeas, <nays> nays". */
  function VoteResult(yeas: string, nays: string): string {
    "Vote result: " + yeas + " yeas, " + nays + " nays"
  }

  /** "Senator from <state> recognized". */
  function Recognized(state: string): string {
    "Senator from " + state + " recognized"
  }

  /** Which keyword rule a procedural text triggers, if any. */
  datatype Rule = ClerkReport | QuestionOn | VoteCount | Recognition

  /** The rules in the source's order on the lower-cased text. The vote rule
      needs both the phrase "yeas and nays" and a count; without a count the
      next rule is tried. */
  function RuleFor(text: string): (r: Option<Rule>)
    ensures var t := ToLower(text);
            && (r == Some(ClerkReport) <==> Contains(t, "clerk will report"))
            && (r == Some(QuestionOn) <==> !Contains(t, "clerk will report") && Contains(t, "question is on"))
            && (r == Some(VoteCount) <==>
                  !Contains(t, "clerk will report") && !Contains(t, "question is on")
                  && Contains(t, "yeas and nays") && VoteCounts(text).Some?)
            && (r == Some(Recognition) <==>
                  !Contains(t, "clerk will report") && !Contains(t, "question is on")
                  && !(Contains(t, "yeas and nays") && VoteCounts(text).Some?)
                  && StateName(text).Some?)
  {
    var t := ToLower(text);
    StateImpliesPhrase(text);
    if Contains(t, "clerk will report") then Some(ClerkReport)
    else if Contains(t, "question is on") then Some(QuestionOn)
    else if Contains(t, "yeas and nays") && VoteCounts(text).Some? then Some(VoteCount)
    else if Contains(t, "senator from") && StateName(text).Some? then Some(Recognition)
    else None
  }

  /** The message a rule produces; its excerpt is the text's first 200
      characters. */
  function RuleMessage(text: string): (r: Option<Message>)
    ensures r.Some? <==> RuleFor(text).Some?
    ensures r.Some? ==> r.value.originalExcerpt == Excerpt(text)
    ensures RuleFor(text) == Some(ClerkReport) ==> r.value.kind == "system" && r.value.content == ReadIntoRecord
    ensures RuleFor(text) == Some(QuestionOn) ==> r.value.kind == "system" && r.value.content == VoteCalled
    ensures RuleFor(text) == Some(VoteCount) ==>
              r.value.kind == "vote_result"
              && r.value.content == VoteResult(VoteCounts(text).value.0, VoteCounts(text).value.1)
    ensures RuleFor(text) == Some(Recognition) ==>
              r.value.kind == "system" && r.value.content == Recognized(StateName(text).value)
  {
    match RuleFor(text)
    case None => None
    case Some(ClerkReport) => Some(Message("system", ReadIntoRecord, Excerpt(text)))
    case Some(QuestionOn) => Some(Message("system", VoteCalled, Excerpt(text)))
    case Some(VoteCount) =>
      var v := VoteCounts(text).value;
      Some(Message("vote_result", VoteResult(v.0, v.1), Excerpt(text)))
    case Some(Recognition) => Some(Message("system", Recognized(StateName(text).value), Excerpt(text)))
  }

  /** The model's reply to a procedural text with no rule: nothing when it is
      SKIP or shorter than three characters after trimming, else one
      procedural message. A reply that is not text counts as empty. */
  function ReplyMessages(text: string, reply: Option<string>): (r: seq<Message>)
    ensures var result := if reply.Some? then Trim(reply.value) else "";
            && (|r| == 0 <==> result == "SKIP" || |result| < 3)
            && (|r| > 0 ==> r == [Message("procedural", result, Excerpt(text))])
  {
    var result := if reply.Some? then Trim(reply.value) else "";
    if result == "SKIP" || |result| < 3 then [] else [Message("procedural", result, Excerpt(text))]
  }

  /** `translateProceduralEvent` with the model's reply as a parameter. */
  function ProceduralEvent(text: string, reply: Option<string>): (r: seq<Message>)
    ensures |r| <= 1
    ensures RuleFor(text).Some? ==> r == [RuleMessage(text).value]
    ensures RuleFor(text).None? ==> r == ReplyMessages(text, reply)
  {
    match RuleMessage(text)
    case Some(m) => [m]
    case None => ReplyMessages(text, reply)
  }

  /** When a rule fires the model is not asked: the reply does not matter. */
  lemma RuleIgnoresReply(text: string, r1: Option<string>, r2: Option<string>)
    requires RuleFor(text).Some?
    ensures ProceduralEvent(text, r1) == ProceduralEvent(text, r2)
  {
  }

  // ---------------------------------------------------------------------------
  // Clean-up of reply messages
  // ---------------------------------------------------------------------------

  /** A message as it comes out of the reply's JSON; any field may be
      missing. */
  datatype RawMessage = RawMessage(kind: Option<string>, content: Option<string>, originalExcerpt: Option<string>)

  /** The filter: content present and not empty. */
  predicate Kept(m: RawMessage) {
    m.content.Some? && |m.content.value| > 0
  }

  /** The map: kind defaults to speech, content is trimmed, the excerpt is
      cut to 200 characters. */
  function CleanOne(m: RawMessage): (r: Message)
    requires Kept(m)
    ensures |r.kind| > 0 && |r.originalExcerpt| <= 200 && r.content == Trim(m.content.value)
    ensures m.kind.Some? && |m.kind.value| > 0 ==> r.kind == m.kind.value
    ensures m.kind.None? || |m.kind.value| == 0 ==> r.kind == "speech"
    ensures m.originalExcerpt.Some? ==> r.originalExcerpt == Excerpt(m.originalExcerpt.value)
    ensures m.originalExcerpt.None? ==> r.originalExcerpt == ""
  {
    var kind := if m.kind.Some? && |m.kind.value| > 0 then m.kind.value else "speech";
    var excerpt := if m.originalExcerpt.Some? then m.originalExcerpt.value else "";
    Message(kind, Trim(m.content.value), Excerpt(excerpt))
  }

  /** A text with no white space at either end, which trimming leaves as
      it is. */
  predicate Trimmed(t: string) {
    |t| == 0 || (!IsWs(t[0]) && !IsWs(t[|t| - 1]))
  }

  /** A message the clean-up could have produced. */
  predicate Clean(m: Message) {
    |m.kind| > 0 && Trimmed(m.content) && |m.originalExcerpt| <= 200
  }

  /** A message read from a bullet line. */
  predicate Bullet(m: Message) {
    m.kind == "speech" && m.originalExcerpt == "" && |m.content| > 0 && Trimmed(m.content)
  }

  /** Filter, then map, in order. */
  function Cleanup(ms: seq<RawMessage>): (r: seq<Message>)
    ensures |r| <= |ms|
    ensures forall k :: 0 <= k < |r| ==> Clean(r[k])
    decreases |ms|
  {
    if |ms| == 0 then []
    else
      var init := Cleanup(ms[..|ms| - 1]);
      var m := ms[|ms| - 1];
      if Kept(m) then init + [CleanOne(m)]
      else init
  }

  /** Clean-up works message by message: it distributes over concatenation. */
  lemma {:induction false} CleanupAppend(a: seq<RawMessage>, b: seq<RawMessage>)
    ensures Cleanup(a + b) == Cleanup(a) + Cleanup(b)
    decreases |b|
  {
    if |b| == 0 {
      assert a + b == a;
    } else {
      var b', x := b[..|b| - 1], b[|b| - 1];
      assert (a + b)[..|a + b| - 1] == a + b' && (a + b)[|a + b| - 1] == x;
      CleanupAppend(a, b');
      CleanupLast(a + b);
      CleanupLast(b);
      Seqs.Assoc(Cleanup(a), Cleanup(b'), if Kept(x) then [CleanOne(x)] else []);
    }
  }

  /** The last message is cleaned after the ones before it. */
  lemma CleanupLast(ms: seq<RawMessage>)
    requires |ms| > 0
    ensures Cleanup(ms) == Cleanup(ms[..|ms| - 1]) + (if Kept(ms[|ms| - 1]) then [CleanOne(ms[|ms| - 1])] else [])
  {
  }

  /** Exactly the messages with content survive. */
  lemma {:induction false} CleanupCount(ms: seq<RawMessage>)
    ensures |Cleanup(ms)| == Seqs.CountWhere(ms, Kept)
    decreases |ms|
  {
    if |ms| > 0 {
      CleanupCount(ms[..|ms| - 1]);
    }
  }

  /** Content made of white space only passes the filter and comes out as
      an empty message. */
  lemma BlankContentKept(kind: Option<string>, content: string)
    requires |content| > 0 && AllWs(content)
    ensures Cleanup([RawMessage(kind, Some(content), None)])[0].content == ""
  {
    assert [RawMessage(kind, Some(content), None)][..0] == [];
  }

  /** A message read back as raw input. */
  function ToRaw(m: Message): RawMessage {
    RawMessage(Some(m.kind), Some(m.content), Some(m.originalExcerpt))
  }

  function ToRaws(ms: seq<Message>): (r: seq<RawMessage>)
    ensures |r| == |ms|
    ensures forall k :: 0 <= k < |ms| ==> r[k] == ToRaw(ms[k])
  {
    seq(|ms|, k requires 0 <= k < |ms| => ToRaw(ms[k]))
  }

  /** Clean-up leaves clean messages with content as they are. */
  lemma {:induction false} CleanupNoop(ms: seq<Message>)
    requires forall k :: 0 <= k < |ms| ==> Clean(ms[k]) && |ms[k].content| > 0
    ensures Cleanup(ToRaws(ms)) == ms
    decreases |ms|
  {
    if |ms| > 0 {
      var init := ms[..|ms| - 1];
      assert ToRaws(ms)[..|ms| - 1] == ToRaws(init);
      CleanupNoop(init);
      var m := ms[|ms| - 1];
      TrimNoop(m.content);
      assert CleanOne(ToRaw(m)) == m;
    }
  }

  // ---------------------------------------------------------------------------
  // Bullet extraction from **TRANSLATED:** sections
  // ---------------------------------------------------------------------------

  /** The section heading, compared without regard to case. */
  const Heading: string := "**translated:**"

  /** A place where the section stops: `###`, the end of the text, or the
      next `**ORIGINAL:` in any case. */
  predicate StopAt(s: string, e: nat) {
    OccursAt(s, "###", e) || e == |s| || OccursAtIgnoreCase(s, "**original:", e)
  }

  /** The first stop at or after `w`. */
  function SectionEnd(s: string, w: nat): (e: nat)
    requires w <= |s|
    ensures w <= e <= |s| && StopAt(s, e)
    ensures forall j :: w <= j < e ==> !StopAt(s, j)
    decreases |s| - w
  {
    if StopAt(s, w) then w else SectionEnd(s, w + 1)
  }

  /** The first heading at or after `from`. */
  function FirstHeadingFrom(s: string, from: nat): (r: Option<nat>)
    ensures r.Some? ==> from <= r.value && r.value + |Heading| <= |s| && OccursAtIgnoreCase(s, Heading, r.value)
    ensures r.Some? ==> forall j :: from <= j < r.value ==> !OccursAtIgnoreCase(s, Heading, j)
    ensures r.None? ==> forall j :: from <= j ==> !OccursAtIgnoreCase(s, Heading, j)
    decreases |s| - from
  {
    if from >= |s| then None
    else if OccursAtIgnoreCase(s, Heading, from) then Some(from)
    else FirstHeadingFrom(s, from + 1)
  }

  /** `line.replace(/^-\s*\/, '')`: a dash at the very start of the line and
      the white space after it are removed. */
  function StripDash(line: string): (r: string)
    ensures |r| <= |line|
  {
    if |line| > 0 && line[0] == '-' then line[1 + Span(line, 1, IsWs)..] else line
  }

  function Speech(content: string): Message {
    Message("speech", content, "")
  }

  /** What one line of a section contributes: a speech message when its trim
      starts with a dash and something is left after the dash is stripped. */
  function BulletOf(line: string): (r: seq<Message>)
    ensures |r| <= 1
    ensures |r| == 1 ==> Bullet(r[0])
  {
    if StartsWith(Trim(line), "-") then
      var c := Trim(StripDash(line));
      if |c| > 0 then [Speech(c)] else []
    else []
  }

  /** The messages of a list of lines, in order. */
  function Bullets(lines: seq<string>): (r: seq<Message>)
    ensures forall k :: 0 <= k < |r| ==> Bullet(r[k])
    decreases |lines|
  {
    if |lines| == 0 then [] else BulletOf(lines[0]) + Bullets(lines[1..])
  }

  /** The messages of one section's text. */
  function SectionMessages(section: string): seq<Message> {
    Bullets(SplitOn(section, "\n"))
  }

  /** The `exec` loop from `from` on: each heading's section runs from the
      first non-white-space character after it to the first stop, and the
      search goes on at that stop. */
  function ExtractFrom(s: string, from: nat): (r: seq<Message>)
    ensures forall k :: 0 <= k < |r| ==> Bullet(r[k])
    decreases |s| - from
  {
    match FirstHeadingFrom(s, from)
    case None => []
    case Some(i) =>
      var a := i + |Heading|;
      var w := a + Span(s, a, IsWs);
      var e := SectionEnd(s, w);
      SectionMessages(Trim(s[w..e])) + ExtractFrom(s, e)
  }

  /** `extractMessagesFromReasoning`: every message read is a speech with
      trimmed, non-empty content and an empty excerpt. */
  function ExtractMessages(text: string): (r: seq<Message>)
    ensures forall k :: 0 <= k < |r| ==> Bullet(r[k])
  {
    ExtractFrom(text, 0)
  }

  /** A text without a heading yields no messages. */
  lemma NoHeadingNoMessages(text: string)
    requires forall j :: 0 <= j < |text| ==> !OccursAtIgnoreCase(text, Heading, j)
    ensures ExtractMessages(text) == []
  {
    assert FirstHeadingFrom(text, 0).None?;
  }

  /** A bullet at the start of a line loses its dash and the white space
      after it. */
  lemma DashedLine(item: string)
    requires |item| > 0 && Trim(item) == item
    ensures BulletOf("- " + item) == [Speech(item)]
  {
    var l := "- " + item;
    assert !IsWs(item[0]) && !IsWs(item[|item| - 1]);
    TrimNoop(l);
    SpanExact(l, 1, 1, IsWs);
    assert l[2..] == item;
  }

  /** An indented bullet keeps its dash: the dash is only removed at the very
      start of the line, but the filter looks at the trimmed line. */
  lemma IndentedBulletKeepsDash(line: string)
    requires |line| > 0 && IsWs(line[0]) && StartsWith(Trim(line), "-") && |Trim(line)| > 1
    ensures BulletOf(line) == [Speech(Trim(line))]
    ensures Trim(line)[0] == '-'
  {
    var t := Trim(line);
    assert t[..1] == "-";
    assert StripDash(line) == line by { assert line[0] != '-'; }
    assert BulletOf(line) == [Speech(t)];
  }

  /** A dash with nothing after it yields no message. */
  lemma BareDashSkipped(line: string)
    requires |line| > 0 && line[0] == '-' && AllWs(line[1..])
    ensures BulletOf(line) == []
  {
    var n := Span(line, 1, IsWs);
    SpanExact(line, 1, |line| - 1, IsWs);
    assert StripDash(line) == "";
  }

  /** Splitting at a one-character separator gives back the parts joined by
      it, when no part contains it. */
  lemma {:induction false} SplitJoinChar(parts: seq<string>, sep: string)
    requires |parts| > 0 && |sep| == 1
    requires forall k :: 0 <= k < |parts| ==> sep[0] !in parts[k]
    ensures SplitOn(JoinWith(parts, sep), sep) == parts
    decreases |parts|
  {
    var p := parts[0];
    if |parts| == 1 {
      NoSepNoOccurrence(p, sep);
    } else {
      var rest := JoinWith(parts[1..], sep);
      var s := p + sep + rest;
      assert JoinWith(parts, sep) == s;
      SepAfterFirst(p, sep, rest);
      SplitJoinChar(parts[1..], sep);
      assert s[..|p|] == p && s[|p| + 1..] == rest;
      assert parts == [p] + parts[1..];
    }
  }

  /** A text without the separator character has no occurrence of it. */
  lemma NoSepNoOccurrence(p: string, sep: string)
    requires |sep| == 1 && sep[0] !in p
    ensures IndexOf(p, sep, 0).None?
  {
    forall j | 0 <= j < |p| ensures !OccursAt(p, sep, j) {
      assert p[j..j + 1][0] == p[j];
    }
  }

  /** The first separator in `p + sep + rest` is the one after `p`. */
  lemma SepAfterFirst(p: string, sep: string, rest: string)
    requires |sep| == 1 && sep[0] !in p
    ensures IndexOf(p + sep + rest, sep, 0) == Some(|p|)
  {
    var s := p + sep + rest;
    assert OccursAt(s, sep, |p|) by { assert s[|p|..|p| + 1] == sep; }
    forall j | 0 <= j < |p| ensures !OccursAt(s, sep, j) {
      assert s[j..j + 1][0] == s[j] == p[j];
    }
  }

  /** Each item written as a bullet `- item`. */
  function Dashed(items: seq<string>): (r: seq<string>)
    ensures |r| == |items|
    ensures forall k :: 0 <= k < |items| ==> r[k] == "- " + items[k]
  {
    if |items| == 0 then [] else ["- " + items[0]] + Dashed(items[1..])
  }

  /** One speech message per item. */
  function Speeches(items: seq<string>): (r: seq<Message>)
    ensures |r| == |items|
    ensures forall k :: 0 <= k < |items| ==> r[k] == Speech(items[k])
  {
    if |items| == 0 then [] else [Speech(items[0])] + Speeches(items[1..])
  }

  /** Bullets written one per line are read back as the same items. */
  lemma {:induction false} BulletsOfDashed(items: seq<string>)
    requires forall k :: 0 <= k < |items| ==> |items[k]| > 0 && Trim(items[k]) == items[k]
    ensures Bullets(Dashed(items)) == Speeches(items)
    decreases |items|
  {
    if |items| > 0 {
      var d := Dashed(items);
      assert d[1..] == Dashed(items[1..]);
      BulletsOfDashed(items[1..]);
      DashedLine(items[0]);
      BulletsCons(d);
      assert Speeches(items) == [Speech(items[0])] + Speeches(items[1..]);
    }
  }

  /** The first line's messages, then the rest's. */
  lemma BulletsCons(lines: seq<string>)
    requires |lines| > 0
    ensures Bullets(lines) == BulletOf(lines[0]) + Bullets(lines[1..])
  {
  }

  /** A bullet list, one trimmed item per line, comes back item by item. */
  lemma BulletListRoundTrip(items: seq<string>)
    requires |items| > 0
    requires forall k :: 0 <= k < |items| ==> |items[k]| > 0 && Trim(items[k]) == items[k] && '\n' !in items[k]
    ensures SectionMessages(JoinWith(Dashed(items), "\n")) == Speeches(items)
  {
    var lines := Dashed(items);
    forall k | 0 <= k < |lines| ensures "\n"[0] !in lines[k] {
      assert lines[k] == "- " + items[k];
    }
    SplitJoinChar(lines, "\n");
    BulletsOfDashed(items);
  }

  // ---------------------------------------------------------------------------
  // parseTranslationResponse
  // ---------------------------------------------------------------------------

  const JsonFence: string := "```json"
  const Ticks: string := "```"

  /** The JSON block: the first `` ```json `` and the first `` ``` `` after
      it. */
  datatype Block = Block(open: nat, close: nat)

  /** `response.match(/```json\s*([\s\S]*?)\s*```/)`: the match starts at the
      first fence, and the lazy body ends at the first closing ticks after
      it. */
  function JsonBlock(s: string): (r: Option<Block>)
    ensures r.Some? ==> r.value.open + |JsonFence| <= r.value.close && r.value.close + |Ticks| <= |s|
    ensures r.Some? ==> OccursAt(s, JsonFence, r.value.open) && OccursAt(s, Ticks, r.value.close)
    ensures r.Some? ==> forall j :: 0 <= j < r.value.open ==> !OccursAt(s, JsonFence, j)
    ensures r.Some? ==> forall j :: r.value.open + |JsonFence| <= j < r.value.close ==> !OccursAt(s, Ticks, j)
    ensures r.Some? <==> exists i: nat, k: nat :: i + |JsonFence| <= k && OccursAt(s, JsonFence, i) && OccursAt(s, Ticks, k)
  {
    match IndexOf(s, JsonFence, 0)
    case None => None
    case Some(i) =>
      match IndexOf(s, Ticks, i + |JsonFence|)
      case None =>
        assert !exists i': nat, k: nat :: i' + |JsonFence| <= k && OccursAt(s, JsonFence, i') && OccursAt(s, Ticks, k) by {
          forall i': nat, k: nat | i' + |JsonFence| <= k && OccursAt(s, JsonFence, i') ensures !OccursAt(s, Ticks, k) {
            assert i <= i';
          }
        }
        None
      case Some(k) => Some(Block(i, k))
  }

  /** What the model's reply is turned into. */
  /** The trimmed text between the fences of the JSON block. */
  function BlockBody(response: string): string
    requires JsonBlock(response).Some?
  {
    var b := JsonBlock(response).value;
    Trim(response[b.open + |JsonFence|..b.close])
  }

  datatype Translation = Translation(messages: seq<Message>, reasoning: string)

  /** `parseTranslationResponse`, with `JSON.parse` followed by `.messages`
      as the parameter `parse` (None when it throws). With a JSON block, the
      reasoning is the trimmed text before it and the block's trimmed body
      is parsed; when there is no block or it does not parse, the bullets of
      the whole reply are used. */
  function ParseResponse(response: string, parse: string -> Option<seq<RawMessage>>): (r: Translation)
    ensures JsonBlock(response).None? ==> r.reasoning == response
    ensures JsonBlock(response).Some? ==> r.reasoning == Trim(response[..JsonBlock(response).value.open])
    ensures forall k :: 0 <= k < |r.messages| ==> Clean(r.messages[k])
    ensures JsonBlock(response).Some? && parse(BlockBody(response)).Some? ==>
              r.messages == Cleanup(parse(BlockBody(response)).value)
  {
    match JsonBlock(response)
    case None => Translation(Cleanup(ToRaws(ExtractMessages(response))), response)
    case Some(b) =>
      var reasoning := Trim(response[..b.open]);
      match parse(BlockBody(response))
      case Some(ms) => Translation(Cleanup(ms), reasoning)
      case None => Translation(Cleanup(ToRaws(ExtractMessages(response))), reasoning)
  }

  /** The bullets are used as they are when the JSON is missing or broken. */
  lemma FallbackIsExtraction(response: string, parse: string -> Option<seq<RawMessage>>)
    requires JsonBlock(response).None?
             || parse(BlockBody(response)).None?
    ensures ParseResponse(response, parse).messages == ExtractMessages(response)
  {
    ExtractedSurviveCleanup(response);
  }

  /** Extracted bullets come through the clean-up unchanged. */
  lemma ExtractedSurviveCleanup(response: string)
    ensures Cleanup(ToRaws(ExtractMessages(response))) == ExtractMessages(response)
  {
    var ms := ExtractMessages(response);
    assert forall k :: 0 <= k < |ms| ==> Clean(ms[k]) && |ms[k].content| > 0;
    CleanupNoop(ms);
  }

  /** The reasoning before a JSON block never holds the fence. */
  lemma ReasoningHasNoFence(response: string, parse: string -> Option<seq<RawMessage>>)
    requires JsonBlock(response).Some?
    ensures !Contains(ParseResponse(response, parse).reasoning, JsonFence)
  {
    var i := JsonBlock(response).value.open;
    var before := response[..i];
    assert IndexOf(response, JsonFence, 0) == Some(i);
    NoOccurrenceBefore(response, JsonFence, i);
    TrimLacks(before, JsonFence);
  }

  // ---------------------------------------------------------------------------
  // translateSegments: the recent-speaker window
  // ---------------------------------------------------------------------------

  /** How many recent speakers are kept. */
  const WindowSize: nat := 5

  /** After a segment: a speech by a new speaker appends the speaker and
      drops the oldest one past five; procedural segments and speakers
      already present change nothing. */
  function Remember(window: seq<string>, segment: Segment): seq<string> {
    if segment.isProceduralSpeaker || segment.speaker in window then window
    else
      var w := window + [segment.speaker];
      if |w| > WindowSize then w[1..] else w
  }

  /** The speakers of the speeches, in order. */
  function SpeechSpeakers(segments: seq<Segment>): (r: seq<string>)
    ensures |r| <= |segments|
    decreases |segments|
  {
    if |segments| == 0 then []
    else
      var init := SpeechSpeakers(segments[..|segments| - 1]);
      var s := segments[|segments| - 1];
      if s.isProceduralSpeaker then init else init + [s.speaker]
  }

  /** The window after the given segments. */
  function Window(segments: seq<Segment>): (w: seq<string>)
    ensures |w| <= WindowSize
    ensures forall i, j :: 0 <= i < j < |w| ==> w[i] != w[j]
    ensures forall k :: 0 <= k < |w| ==> w[k] in SpeechSpeakers(segments)
    decreases |segments|
  {
    if |segments| == 0 then []
    else
      var init := segments[..|segments| - 1];
      var prev := Window(init);
      var s := segments[|segments| - 1];
      var w := Remember(prev, s);
      assert forall k :: 0 <= k < |w| ==> w[k] in SpeechSpeakers(segments) by {
        forall k | 0 <= k < |w| ensures w[k] in SpeechSpeakers(segments) {
          if w[k] in prev {
            assert w[k] in SpeechSpeakers(init);
          }
        }
      }
      w
  }

  /** The latest speech's speaker is in the window. */
  lemma {:induction false} WindowHasLatest(segments: seq<Segment>)
    requires |SpeechSpeakers(segments)| > 0
    ensures SpeechSpeakers(segments)[|SpeechSpeakers(segments)| - 1] in Window(segments)
    decreases |segments|
  {
    var init := segments[..|segments| - 1];
    var s := segments[|segments| - 1];
    if s.isProceduralSpeaker {
      WindowHasLatest(init);
    } else {
      var w := Window(init) + [s.speaker];
      assert w[|w| - 1] == s.speaker;
    }
  }

  /** Until more than five different speakers have spoken, the window is
      every speaker once, in order of first speech. */
  lemma {:induction false} WindowBeforeOverflow(segments: seq<Segment>)
    requires |Seqs.Dedup(SpeechSpeakers(segments))| <= WindowSize
    ensures Window(segments) == Seqs.Dedup(SpeechSpeakers(segments))
    decreases |segments|
  {
    if |segments| > 0 {
      var init := segments[..|segments| - 1];
      var s := segments[|segments| - 1];
      var xs := SpeechSpeakers(init);
      if !s.isProceduralSpeaker {
        Seqs.DedupSnoc(xs, s.speaker);
      }
      WindowBeforeOverflow(init);
      if !s.isProceduralSpeaker {
        Seqs.DedupSpec(xs);
      }
    }
  }

  /** One segment's messages given the window before it: the procedural
      path for a procedural speaker, the parsed speech reply otherwise. */
  function TranslateOne(
    segment: Segment,
    window: seq<string>,
    speechReply: (Segment, seq<string>) -> string,
    proceduralReply: Segment -> Option<string>,
    parse: string -> Option<seq<RawMessage>>): seq<Message>
  {
    if segment.isProceduralSpeaker then ProceduralEvent(segment.text, proceduralReply(segment))
    else ParseResponse(speechReply(segment, window), parse).messages
  }

  /** The loop of `translateSegments` from a given window on: translate the
      segment with the current window, then remember its speaker. */
  function TranslateFrom(
    segments: seq<Segment>,
    window: seq<string>,
    speechReply: (Segment, seq<string>) -> string,
    proceduralReply: Segment -> Option<string>,
    parse: string -> Option<seq<RawMessage>>): (r: seq<seq<Message>>)
    ensures |r| == |segments|
    ensures |segments| > 0 ==> r[0] == TranslateOne(segments[0], window, speechReply, proceduralReply, parse)
    decreases |segments|
  {
    if |segments| == 0 then []
    else
      [TranslateOne(segments[0], window, speechReply, proceduralReply, parse)]
      + TranslateFrom(segments[1..], Remember(window, segments[0]), speechReply, proceduralReply, parse)
  }

  /** `translateSegments`, with the model and the parser as parameters:
      `speechReply` answers a speech given the recent speakers,
      `proceduralReply` a procedural text. Each segment gets its own
      translation, and a speech sees the window of the segments before it and
      nothing later. */
  function TranslateSegments(
    segments: seq<Segment>,
    speechReply: (Segment, seq<string>) -> string,
    proceduralReply: Segment -> Option<string>,
    parse: string -> Option<seq<RawMessage>>): (r: seq<seq<Message>>)
    ensures |r| == |segments|
    ensures forall i :: 0 <= i < |segments| && segments[i].isProceduralSpeaker ==>
              r[i] == ProceduralEvent(segments[i].text, proceduralReply(segments[i]))
    ensures forall i :: 0 <= i < |segments| && !segments[i].isProceduralSpeaker ==>
              r[i] == ParseResponse(speechReply(segments[i], Window(segments[..i])), parse).messages
  {
    assert forall i :: 0 <= i < |segments| ==>
        TranslateFrom(segments, [], speechReply, proceduralReply, parse)[i]
        == TranslateOne(segments[i], Window(segments[..i]), speechReply, proceduralReply, parse) by {
      forall i | 0 <= i < |segments|
        ensures TranslateFrom(segments, [], speechReply, proceduralReply, parse)[i]
                == TranslateOne(segments[i], Window(segments[..i]), speechReply, proceduralReply, parse)
      {
        TranslateFromAt([], segments, speechReply, proceduralReply, parse, i);
        assert [] + segments[..i] == segments[..i];
      }
    }
    TranslateFrom(segments, [], speechReply, proceduralReply, parse)
  }

  /** One more segment moves the window by `Remember`. */
  lemma WindowSnoc(pre: seq<Segment>, s: Segment)
    ensures Window(pre + [s]) == Remember(Window(pre), s)
  {
    assert (pre + [s])[..|pre|] == pre;
  }

  /** The loop started after `pre` translates segment `i` with the window
      of everything before it. */
  lemma {:induction false} TranslateFromAt(
    pre: seq<Segment>,
    segments: seq<Segment>,
    speechReply: (Segment, seq<string>) -> string,
    proceduralReply: Segment -> Option<string>,
    parse: string -> Option<seq<RawMessage>>,
    i: nat)
    requires i < |segments|
    ensures TranslateFrom(segments, Window(pre), speechReply, proceduralReply, parse)[i]
            == TranslateOne(segments[i], Window(pre + segments[..i]), speechReply, proceduralReply, parse)
    decreases i
  {
    if i == 0 {
      assert pre + segments[..0] == pre;
    } else {
      var pre' := pre + [segments[0]];
      WindowSnoc(pre, segments[0]);
      TranslateFromAt(pre', segments[1..], speechReply, proceduralReply, parse, i - 1);
      var all := TranslateFrom(segments, Window(pre), speechReply, proceduralReply, parse);
      var rest := TranslateFrom(segments[1..], Window(pre'), speechReply, proceduralReply, parse);
      assert all == [all[0]] + rest;
      assert all[i] == rest[i - 1];
      Seqs.ShiftPrefix(pre, segments, i);
    }
  }
}

=== FILE: wrappers.dfy ===
/** Optional values: the source's `null`, `undefined` and optional fields. */
module Wrappers {

  datatype Option<+T> = None | Some(value: T) {

    /** Returns the value in Some, or `default` when None. */
    function GetOr(default: T): T {
      match this
      case Some(v) => v
      case None => default
    }
  }
}
